=== FILE: README.md ===
# HTTP server request core, modelled in Dafny

This project models the request-processing core of a small Node.js HTTP
server library, and proves properties about that model. The core has two
server generations and a Koa-based variant. The model covers:

- **The per-request context.** Request-body type inference, the byte-limited
  body read and its cache, and the `body` accessors. Also `sendResponse`:
  the double-send guard, the status range check of Node's `writeHead`, the
  empty-body rule, streamed versus inferred
  bodies, content-type precedence, and a content-length computed from the
  bytes sent.
- **The multi-valued dictionaries.** `headersToDict` and `searchParamsToDict`
  over ordered key/value sequences.
- **Middleware composition.** `HttpChain` is modelled as a right fold over a
  small handler datatype. The fold produces an event trace, the final
  context, and an outcome (`Ok` or `Throw`). The concrete test handlers are
  constructors of that datatype.
- **The policy handlers.** These are the error handler, the standard handler
  and the Koa standard middleware; both CORS handlers; both protocol
  routers; and the error-class table.
- **Server connection accounting.** One event-stepped state machine over
  `map<Socket, int>` with flags and the sets of ended and destroyed sockets.
  It is instantiated for the main server and for the older server, which
  differ only in the forced-destroy timer.
- **The request paths of the three servers.** The main server's
  `handleRequest`, with its NotFound continuation and JSON fallback. The
  older server's index-based `next()` dispatcher and verbatim
  `sendResponse`. The Koa server's lifecycle and middleware stack.

Library code is taken as given and passed in as parameters. This covers
UTF-8 encoding and decoding, `JSON.parse`/`JSON.stringify`, URL and query
parsing (the `Codec` datatype), and protocol lookup, invocation and schema
decoding (`ProtocolImpl`, `MethodSpec`). The request latency is an input
number. Log lines, marker strings pushed by the test handlers, and method
statistics are events in the trace.

Modules and files: `Wrappers` (wrappers.dfy), `Text` (text.dfy), `Values`
(values.dfy), `Errors` (errors.dfy), `Dict` (dict.dfy), `Context`
(context.dfy), `Flow` (flow.dfy), `ErrorPolicy` (error_policy.dfy), `Cors`
(cors.dfy), `Protocol` (protocol.dfy), `Chain` (chain.dfy), `Accounting`
(accounting.dfy), `Server` (server.dfy), `NextServer` (next_server.dfy) and
`KoaServer` (koa_server.dfy).

Four behaviours of the code that may be surprising are modelled as written:

- `readRequestBody` has no GET/HEAD/DELETE short-circuit.
- The main server's fallback status is `Number(error.status) || 500` with no
  range check of its own. A status outside 100..999 makes the fallback's own
  `writeHead` throw, so the request goes unanswered and the error escapes.
- `searchParamsToDict` groups into a plain object. A key that object
  inherits, such as `constructor` or `toString`, makes `values.push` throw a
  TypeError. The context constructor passes it on for the query, and so does
  a URL-encoded body read.
- The Koa standard middleware's `finally` writes `server-timing` into the
  *request* headers (`ctx.header`), so that is what the model does.

## Model

| member | source | states |
|---|---|---|
| Context.NewContext | src/main/HttpContext.ts:29-39 | a request without a `host` header cannot build a context; with one, an unparsable URL fails; a parsed URL builds a context exactly when no query key is a property plain objects inherit, and otherwise fails with the TypeError of `values.push`; on success the path comes from the URL and the query holds each key's values in order; status 404, both bodies undefined, no response headers, empty state, and the request and latency kept |
| Context.BodyAccessorsAreAsymmetric | src/main/HttpContext.ts:45-51 | setting `body` never shows through the getter: it writes the response body only and leaves every other field alone |
| Text.Contains | src/main/HttpContext.ts:96-104 | the unanchored regex test holds exactly when the pattern occurs at some position of the string |
| Context.InferRequestBodyType | src/main/HttpContext.ts:94-95 | the inferred type is never auto and is the classification of the first content-type value |
| Context.BodyTypeOf | src/main/HttpContext.ts:96-106 | JSON iff 'application/json' occurs; text iff 'text/' occurs and JSON does not; urlencoded iff neither earlier pattern occurs and the form type does; raw otherwise |
| Context.OctetStreamIsRaw | src/main/HttpContext.ts:95-105 | the fallback type 'application/x-octet-stream' classifies as raw |
| Context.MissingContentTypeIsRaw | src/main/HttpContext.ts:95-105 | without a content-type header the fallback 'application/x-octet-stream' makes the body raw |
| Context.ReadLoopSpec | src/main/HttpContext.ts:82-90 | the loop succeeds iff the total stays within the limit, returning all chunks in order; otherwise it stops at the first chunk that takes the running total strictly above the limit |
| Context.ReadRequestBodyRaw | src/main/HttpContext.ts:81-92 | success iff the total byte count is at most the limit (a body of exactly the limit is accepted), with the in-order concatenation; a failure names the first chunk that crosses the limit |
| Context.ReadRequestBody | src/main/HttpContext.ts:53-92 | a complete request answers from the cache untouched; a destroyed, incomplete request throws a premature close; an oversized body throws RequestSizeExceededError and leaves the request destroyed; otherwise the request becomes complete and the body is decoded by the explicit or inferred type and cached; a failed read or decode leaves the cached body as it was |
| Context.DecodeBody | src/main/HttpContext.ts:59-77 | a raw or unrecognised type yields the bytes; a URL-encoded body decodes exactly when none of its keys is an inherited property, and otherwise throws the TypeError of `values.push`; a decoded form is an object of the grouped values |
| Context.OversizedBodyCannotBeReadAgain | src/main/HttpContext.ts:84-88 | after an oversized body the request is destroyed, and a second read throws a premature close rather than the first read's error |
| Context.ReadIsIdempotent | src/main/HttpContext.ts:54-56 | a second read, of any type, returns the first read's value and changes nothing |
| Context.ExplicitTypeIgnoresContentType | src/main/HttpContext.ts:58 | with an explicit type the request headers do not affect the result |
| Context.RawReadReturnsTheBytes | src/main/HttpContext.ts:74-78 | a raw read of a fresh request within the limit yields exactly the received bytes in order |
| Context.ExplicitHeaders | src/main/HttpContext.ts:114-116 | explicitly set response headers are stored as lists, under exactly the lower-cased names of the entries, `__proto__` included |
| Context.InferResponseBody | src/main/HttpContext.ts:144-153 | a buffer is sent as is with the octet-stream type; a string as its UTF-8 bytes with text/plain; anything else as JSON; only `undefined` (no JSON text) fails |
| Context.ResponseBodyReadsBack | src/main/HttpContext.ts:144-153 | whenever the codec round-trips, reading an inferred response body back with the type its content type classifies as gives the original value: buffers as raw bytes, strings as text, the rest as JSON |
| Context.WriteHead | src/main/HttpContext.ts:125-140 | `writeHead` succeeds exactly when the head was not sent and the status is in 100..999; it then sends the head with that status; an out-of-range status throws a RangeError and leaves the response untouched |
| Context.SendResponse | src/main/HttpContext.ts:108-142 | a sent response fails with InvalidStateError; otherwise it succeeds exactly when `ctx.status` is in 100..999, and an out-of-range status throws the RangeError; on success the head carries `ctx.status` over the staged headers; empty responses (204/205/304, HEAD, null body) drop length and encoding and send nothing; streams are piped; other bodies are sent with an explicit content type winning and the true length |
| Context.SecondSendFails | src/main/HttpContext.ts:110-112 | after a successful send, sending again on the same response fails with InvalidStateError |
| Context.ContentLengthIsComputed | src/main/HttpContext.ts:135-141 | an explicitly set Content-Length is overridden by the byte length actually sent |
| Context.BinaryBodyExample | src/main/HttpContext.ts:135-147 | a five-byte buffer body goes out verbatim with length 5 and the octet-stream type |
| Context.UnhandledContextSends404 | src/main/HttpContext.ts:118-126 | a fresh context is sent as a bodiless 404 |
| Dict.HeadersToDict | src/main/util.ts:3-10 | the keys are exactly the lower-cased input names other than `__proto__`, and each such key holds the normalised value of the last entry with that name |
| Dict.StoreLowerCased | src/main/util.ts:4-9 | with the names in `inert` storing nothing, the keys are exactly the other lower-cased input names, each holding the normalised value of its last entry |
| Dict.ProtoHeaderStoresNothing | src/main/util.ts:7 | a `__proto__` entry adds no key and leaves every other key as it was |
| Dict.HeadersValuesComeFromInput | src/main/util.ts:5-7 | every stored value is the normalised value of some input entry whose lower-cased name is the key |
| Dict.CaseVariantsCollapse | src/main/util.ts:5-8 | two names that differ only in case give one entry holding the later value, or none when the name is `__proto__` |
| Dict.SearchParamsToDict | src/main/util.ts:12-20 | the conversion succeeds exactly when no key is a property plain objects inherit, and otherwise throws the TypeError of `values.push`; on success the keys are exactly the input keys, and each list is non-empty and equals that key's values in input order |
| Dict.DistinctKeysShape | src/main/util.ts:14-18 | the keys in first-appearance order have no duplicates and are exactly the input keys |
| Dict.GroupingKeepsEveryPair | src/main/util.ts:14-19 | the lists hold as many values in total as there were input pairs |
| Dict.QueryExample | src/test/HttpServer.test.ts:32-35 | foo=one&bar=two&foo=three groups to {foo: [one, three], bar: [two]} |
| Errors.Make | src/main/errors.ts:3-53 | each class has its own name and status; AuthenticationRequiredError's message is fixed; otherwise a given message is kept, and a missing one becomes the class default |
| Errors.StatusTable | src/main/errors.ts:3-53 | every class has a status in 400..599; only ServerError is 5xx; exactly the two authentication classes are 401 |
| Values.StatusOr500 | src/main/HttpServer.ts:120 | `Number(status) \|\| 500` is never 0: a non-zero number is kept, while NaN and 0 give 500 |
| Values.JoinValue | src/main/handlers/CorsMiddleware.ts:22 | `join` fails (a TypeError) exactly on values that are neither arrays nor buffers |
| Values.JoinStringArray | src/main/handlers/CorsMiddleware.ts:22 | joining an array of strings is joining the strings with the separator |
| ErrorPolicy.CatchError | src/main/handlers/HttpErrorHandler.ts:8-23 | it never rethrows; a normal completion changes nothing; a throw sets the status (the error's if it is a number in 100..598, else 500), the presented body and `state.error`, and nothing else |
| ErrorPolicy.CaughtStatusIsValid | src/main/handlers/HttpErrorHandler.ts:12-14 | after a caught error the status is in 100..598 |
| ErrorPolicy.InternalErrorsAreHidden | src/main/handlers/HttpErrorHandler.ts:12-21 | an error without a valid status is presented as a fresh ServerError with 500, while `state.error` keeps the original |
| ErrorPolicy.ErrorClassesPresentedAsThemselves | src/main/handlers/HttpErrorHandler.ts:12-20 | every application error class is presented with its own name, message and status |
| ErrorPolicy.StandardAfter | src/main/handlers/StandardHttpHandler.ts:25-47 | completes normally; the context is the error handler's; one Server-Timing header is set last; one log line whose level is error iff the status is at least 500 and whose message is 'Http Error' iff `state.error` is truthy |
| ErrorPolicy.StandardLogsCaughtErrors | src/main/handlers/StandardHttpHandler.ts:30-39 | a caught error is always logged as 'Http Error', at error level iff its status is at least 500 |
| ErrorPolicy.KoaCatch | src/main/http-server.ts:123-148 | client iff 400 <= `Number(status) \|\| 500` < 500; a client error whose raw status is not a number makes the status setter throw its assertion, with no log and nothing else changed; otherwise it completes normally with the error's status for client errors and 500 otherwise, the body from the error or a ServerError, and log level info iff client |
| ErrorPolicy.KoaStandardAfter | src/main/http-server.ts:106-151 | always writes `server-timing` into the request headers; a normal completion logs 'HTTP request' at info and keeps everything else; a throw ends exactly as the catch block does, including the assertion it may throw |
| ErrorPolicy.KoaPresentsErrorClasses | src/main/http-server.ts:124-148 | 4xx classes are presented as themselves with their status; ServerError is presented as a ServerError with 500 |
| ErrorPolicy.PoliciesDivergeOnNonClientStatuses | src/main/http-server.ts:124-127 | a 503 or 302 error keeps its status under the error handler but becomes 500 under the Koa middleware |
| ErrorPolicy.PoliciesAgreeOnClientErrors | src/main/http-server.ts:124-148 | for numeric 4xx statuses both policies set the same status and present the same name and message |
| ErrorPolicy.PoliciesDivergeOnStringStatuses | src/main/http-server.ts:124-150 | an error whose status is the string '404' gets 500 from the error handler, while in the Koa middleware the status assertion escapes and the timing entry is written all the same |
| Cors.ExposeHeaders | src/main/handlers/HttpCorsHandler.ts:29-33 | the configured handler uses the state override when it is non-nullish, else its configured default, and passes the value through as it is; the hard-coded middleware joins the override or 'Content-Length,Date' with ',', and fails exactly when that join fails |
| Cors.Answer | src/main/handlers/HttpCorsHandler.ts:37-44 | a preflight never calls next; it completes exactly when the allowed-methods value (the state list or the default) joins, and then records exactly two more headers: Allow-Methods with that joined value and Allow-Headers echoing the request header, and sets status 204; a failed join throws with only the earlier headers recorded |
| Cors.Before | src/main/handlers/HttpCorsHandler.ts:22-46 | Vary is always recorded first; with no origin only Vary and then next; with an origin, Allow-Origin, Max-Age, Expose-Headers (the expose value) and Allow-Credentials follow in that order; an unusable expose value throws after Vary and the origin headers; next is called iff there is no origin or it is not a preflight; a preflight continues as `Answer` |
| Cors.StateOverridesDefaults | src/main/handlers/HttpCorsHandler.ts:28-33 | each non-nullish state entry (origin, max age, expose headers for the configured handler, credentials) is the value recorded in its header; an absent entry gives the variant's default |
| Cors.OriginIsEchoed | src/main/handlers/HttpCorsHandler.ts:24-32 | with an origin, Allow-Origin equals it and Max-Age follows, right after Vary |
| Cors.DefaultMethodsJoined | src/main/handlers/HttpCorsHandler.ts:38-40 | the default method list joins to 'GET,HEAD,POST,PUT,DELETE' |
| Cors.PreflightDefaults | src/main/handlers/HttpCorsHandler.ts:36-44 | a preflight with no overrides records seven headers, Allow-Methods carries the default list, and status is 204 |
| Cors.VariantsAgreeOnDefaults | src/main/handlers/CorsMiddleware.ts:11-35 | without an expose-headers override, the hard-coded middleware behaves exactly like the handler with default configuration |
| Cors.VariantsDivergeOnArrays | src/main/handlers/CorsMiddleware.ts:18-22 | an array override is joined by the middleware but passed as an array by the configured handler |
| Cors.VariantsDivergeOnStrings | src/main/handlers/CorsMiddleware.ts:18-22 | a string override is passed on by the configured handler and makes the middleware throw |
| Protocol.SplitWords | src/main/http-proto.ts:51-55 | a match yields two alphanumeric words joined by exactly one '/' |
| Protocol.SplitWordsComplete | src/main/http-proto.ts:51-55 | every 'word/word' string matches, giving exactly its two words |
| Protocol.MatchRest | src/main/handlers/HttpProtocolHandler.ts:76-81 | the main pattern needs a leading '/', the Koa pattern none; a match is two words that rebuild the rest |
| Protocol.ParsePath | src/main/handlers/HttpProtocolHandler.ts:72-82 | failures are NotFound('Endpoint not found'); a success is two words whose route path is exactly the input path |
| Protocol.ParsePathRoundTrip | src/main/http-proto.ts:46-56 | every route path parses back to its domain and method, for both flavours and any prefix |
| Protocol.DefaultPrefixesAgree | src/main/http-proto.ts:22-55 | with the default prefixes ('' and '/'), both parsers accept the same paths with the same result |
| Protocol.NativeParams | src/main/handlers/HttpProtocolHandler.ts:84-90 | GET uses the query as an object of arrays; otherwise the auto body read, with a non-nullish body passed through, `{}` for a nullish one, and its failures passed on |
| Protocol.NativeCall | src/main/handlers/HttpProtocolHandler.ts:42-69 | it always finishes without next; it succeeds exactly when params, request decoding, the call and response decoding all succeed, and then sets status 200, the response body to the decoded result and the state entries (domain, method, definition, decoded params), with one plain statistic; otherwise the first failure is rethrown with one statistic naming it |
| Protocol.NativeBefore | src/main/handlers/HttpProtocolHandler.ts:26-70 | a path outside the prefix calls next untouched; a bad path throws NotFound without a statistic; an unknown method throws the lookup error; a verb mismatch calls next inside the try; a matching verb answers exactly as the call above |
| Protocol.NativeAfter | src/main/handlers/HttpProtocolHandler.ts:61-69 | a downstream throw inside the try adds one statistic and is rethrown unchanged; otherwise nothing happens |
| Protocol.KoaParams | src/main/http-proto.ts:58-63 | GET uses Koa's query (a key given once as a string, a repeated key as an array); otherwise the parsed body, or `{}` when it is falsy |
| Protocol.KoaBefore | src/main/http-proto.ts:24-44 | a bad path throws NotFound before any verb check; a verb mismatch calls next untouched; a matching verb completes exactly when the call succeeds, with the decoded result as the response body and nothing else changed, and a throw leaves the context as it was |
| Protocol.KoaCallOnRoute | src/main/http-proto.ts:24-44 | on every route path with a matching verb, the handler answers with the decoded result of the call on Koa's parameters, or throws the call's error |
| Protocol.QueryShapesDiffer | src/main/http-proto.ts:58-63 | for a query key given once the main handler passes a one-element array and the Koa handler the bare string |
| Protocol.ForeignPathsDiffer | src/main/handlers/HttpProtocolHandler.ts:27-29 | a path outside the prefix is passed on by the main handler and rejected with NotFound by the Koa handler |
| Protocol.SuccessfulQuery | src/main/handlers/HttpProtocolHandler.ts:38-60 | a GET on a query route decodes the query, calls the method and answers 200 with the decoded result and the state entries |
| Protocol.DownstreamErrorsAreCounted | src/main/handlers/HttpProtocolHandler.ts:61-69 | a throw below a verb-mismatched route is counted once and rethrown unchanged |
| Chain.LoggingStep | src/test/handlers.ts:4-12 | a marker middleware emits its start mark, the inner trace, and its end mark only if the inner chain completed normally |
| Chain.OnionLaw | src/test/HttpChain.test.ts:26-33 | over any inner chain that completes normally, enter marks come in list order and exit marks in reverse, around the inner trace |
| Chain.ThrowSkipsAfterCode | src/test/HttpChain.test.ts:52-58 | a throw from the inner chain skips every wrapping middleware's after code and reaches the caller unchanged |
| Chain.CallerNextIsTheLastContinuation | src/main/HttpChain.ts:21-23 | on a fresh chain of pass-through handlers, `handle` surfaces the caller's next: its throw comes out unchanged, and its return unwinds the onion |
| Chain.CatchingAbsorbs | src/test/handlers.ts:24-38 | the catching middleware completes normally; after a throw it records 'caught', sets 500 and the message as body, and skips 'catch end' |
| Chain.ShortCircuit | src/test/handlers.ts:40-57 | once a handler does not call next, neither the rest of the list nor the caller's next affects the result |
| Chain.AbsorbingHandlersNeverRethrow | src/main/handlers/HttpErrorHandler.ts:8-23 | the error handler, the standard handler or the catching test middleware at the head never lets an error out, whatever follows |
| Chain.KoaStandardOnlyLetsOutTheAssertion | src/main/http-server.ts:106-151 | a chain headed by the Koa standard middleware lets out no error except the status setter's assertion |
| Chain.StandardAlwaysSetsTiming | src/main/handlers/StandardHttpHandler.ts:25-47 | a chain headed by the standard handler completes normally; its last header set is Server-Timing; its last event is a log at error level iff the status is at least 500 |
| Chain.LatencyIsKept | src/main/handlers/StandardHttpHandler.ts:29 | no handler changes the request's measured latency, so the timing header reports the input latency |
| Chain.OrderScenario | src/test/HttpChain.test.ts:10-34 | the foo, bar, endpoint chain gives the six marks in onion order, status 200 and body 'OK' |
| Chain.CatchScenario | src/test/HttpChain.test.ts:36-59 | the foo, catch, throw chain gives the five marks, status 500 and body 'Oops!' |
| Chain.Composed | src/main/HttpChain.ts:11-19 | the first call caches the current handler list; later calls return the cache |
| Chain.Handle | src/main/HttpChain.ts:9-23 | `handle` keeps the handler list, caches the list it found cached, or the current one on a first call, and runs that list with the caller's next as the last continuation |
| Chain.CompositionIsCached | src/main/HttpChain.ts:9-19 | replacing `handlers` after the first `handle` changes nothing about later runs |
| Accounting.StartServer | src/main/HttpServer.ts:52-59 | no-op while a server exists; otherwise `stopping` is cleared, the registry emptied and the server listens |
| Accounting.OnConnection | src/main/HttpServer.ts:133-134 | the socket is tracked with count 0; other sockets and fields are unchanged |
| Accounting.OnClose | src/main/HttpServer.ts:135 | the socket's entry is removed; other counts are unchanged |
| Accounting.OnRequest | src/main/HttpServer.ts:141-143 | the socket's count grows by one, an untracked socket counting as 0; others are unchanged |
| Accounting.OnFinish | src/main/HttpServer.ts:144-150 | the count drops by one; the socket is ended iff `stopping` holds and the new count is 0 |
| Accounting.BeginStop | src/main/HttpServer.ts:72-77 | no-op without a server; otherwise `stopping` is set before the delay |
| Accounting.CloseIdleSockets | src/main/HttpServer.ts:160-166 | exactly the tracked sockets with count 0 are ended; nothing else changes |
| Accounting.DestroyAllSockets | src/main/HttpServer.ts:171-176 | every tracked socket is destroyed and the registry is empty |
| Accounting.ReplayKeepsInv | src/main/HttpServer.ts:52-89 | over any trace of deliverable events, a stop stage implies a listening server that is stopping, and a timer is pending only while closing |
| Accounting.CountIsBalance | src/main/HttpServer.ts:133-176 | each socket's count is its requests minus its finishes since its last connection, close, forced destroy or server-creating start, and the server exists exactly when the last start comes after the last close completion |
| Accounting.BalanceNonNegative | src/main/HttpServer.ts:141-150 | on a trace where every finish answers an unmatched request of its socket, no balance is negative |
| Accounting.DisciplinedCountsStayNonNegative | src/main/HttpServer.ts:141-150 | on such a trace every tracked count stays non-negative |
| Accounting.FinishAfterCloseGoesNegative | src/main/HttpServer.ts:133-146 | a finish after its socket's close is outside the discipline, and leaves a count of -1 |
| Accounting.FinishAfterForcedDestroyIsUndisciplined | src/main/HttpServer.ts:141-176 | a finish after a forced destroy is outside the discipline, and leaves a count of -1 |
| Accounting.FlavoursAgreeExceptTimer | src/main/next/HttpServer.ts:46-61 | both servers take every event the same way except the forced-destroy delay (the socket timeout versus none) |
| Accounting.StopWithoutServerIsNoOp | src/main/HttpServer.ts:72-76 | a stop before any start changes nothing |
| Accounting.DrainSweep | src/main/HttpServer.ts:77-85 | the idle sweep ends the idle socket, keeps the busy one and schedules the forced destroy |
| Accounting.DrainFinish | src/main/HttpServer.ts:83-89 | the busy socket is ended on its last finish; the close clears the timer and the server |
| Accounting.ForcedDestroyScenario | src/main/HttpServer.ts:84-85 | when the timer fires first, the busy socket is destroyed and the registry emptied |
| Accounting.RestartClearsStopping | src/main/HttpServer.ts:52-57 | a start after a completed stop clears `stopping` and the registry |
| Server.Fallback | src/main/HttpServer.ts:118-127 | the fallback's head succeeds exactly when the response was not sent and `Number(status) \|\| 500` is in 100..999; it then carries that status over the existing headers with a JSON content type, and a body of the error's name and message; an out-of-range status throws the RangeError |
| Server.Rescue | src/main/HttpServer.ts:118-127 | the catch answers with the fallback exactly when its status is in 100..999; otherwise the response stays unsent and the RangeError escapes |
| Server.HandleRequest | src/main/HttpServer.ts:111-127 | the response is sent exactly when no error escapes, and only a RangeError from `writeHead` can escape; a context failure or a handler throw goes to the catch; otherwise `sendResponse` of the chain's final context, whose RangeError for a bad status goes to the catch on top of the headers it staged |
| Server.EmptyChainAnswersNotFound | src/main/HttpServer.ts:114-116 | with no handler, the terminal next answers 404 NotFoundError with message 'METHOD path' |
| Server.OutOfRangeStatusLeavesRequestUnanswered | src/main/HttpServer.ts:120-122 | an error with status 1000 leaves the request unanswered with the RangeError escaping, while 0 and a missing status give 500 |
| Server.InheritedQueryKeyIsAnswered500 | src/main/HttpServer.ts:111-127 | a query key a plain object inherits makes context construction throw, so no handler runs and the request is answered 500 with the JSON TypeError |
| Server.InvalidHandlerStatusIsAnswered500 | src/main/HttpServer.ts:111-127 | a final status `writeHead` rejects is answered 500 with the RangeError as the body, on top of the headers `sendResponse` staged, including its content length |
| Server.AbsorbingRootNeverFallsBack | src/main/HttpServer.ts:111-127 | under an absorbing root handler no handler error reaches the catch and the request is always answered: by `sendResponse` for a valid status, else with 500 |
| Server.OrderTestResponse | src/test/HttpChain.test.ts:22-33 | the order test answers 200 with body 'OK' as text/plain, and the onion-ordered trace |
| Server.CatchTestResponse | src/test/HttpChain.test.ts:47-58 | the catch test answers 500 with body 'Oops!', and the trace with 'caught' |
| NextServer.NewNextContext | src/main/next/HttpContext.ts:10-16 | index -1, status 404, response body '' and no request body |
| NextServer.BodyAccessorsAreAsymmetric | src/main/next/HttpContext.ts:41-47 | the getter reads the request body; the setter writes the response body |
| NextServer.Next | src/main/next/HttpContext.ts:31-39 | the index grows by at least one; handlers start at strictly increasing positions after the old index, none twice; past the end only the index moves |
| NextServer.Perform | src/main/next/HttpContext.ts:31-39 | a handler's body never moves the index back, and the handlers it starts lie strictly after the current position in increasing order; a caught `next()` throw lets the rest of the body run |
| NextServer.SecondNextMovesOn | src/main/next/HttpContext.ts:31-39 | a handler calling next twice runs the following handlers once each, in order |
| NextServer.AddHandler | src/main/next/HttpServer.ts:67-69 | the handler is appended; earlier registrations keep their positions |
| NextServer.FirstRegisteredRunsFirst | src/main/next/HttpServer.ts:67-69 | the first `next()` of a request starts the first registered handler |
| NextServer.SendResponse | src/main/next/HttpServer.ts:128-135 | `writeHead` succeeds exactly when the status is in 100..999, else throws the RangeError; the staged head carries the status and headers verbatim; a falsy body ends empty, a string as UTF-8, a buffer as is; any other body makes `end` throw, so the response is not finished and nothing is written to the socket |
| NextServer.HandleRequest | src/main/next/HttpServer.ts:71-82 | `writeHead` runs (`Some`) exactly when no handler throw escapes and the final status is in 100..999, and the reply is `sendResponse`'s, whose finished flag says whether `end` took the body; every throw is swallowed with nothing sent |
| NextServer.NoHandlersAnswer404 | src/main/next/HttpContext.ts:14-16 | with no handlers the defaults go out: 404, no headers, an empty body |
| NextServer.NextNeverThrows | src/main/next/HttpContext.ts:31-39 | when no handler throws, `next()` completes normally |
| NextServer.PerformNeverThrows | src/main/next/HttpContext.ts:31-39 | a handler body without throws completes normally |
| NextServer.AnsweredUnlessStatusInvalid | src/main/next/HttpServer.ts:71-82 | when no handler throws, `writeHead` runs exactly when the final status is in 100..999, and the request is answered exactly when, in addition, the final body is falsy, a string or a buffer |
| NextServer.NumericBodyIsNotAnswered | src/main/next/HttpServer.ts:133-134 | a handler that sets the body to the number 1 gets its 404 head staged, but `end` refuses the body and the request is never finished |
| NextServer.CatchingHandlerAnswers | src/main/next/HttpServer.ts:71-82 | a handler catching around `next()` turns a downstream throw into the default 404 response |
| NextServer.UncaughtThrowIsSwallowed | src/main/next/HttpServer.ts:78-81 | without the catch, the same throw leaves the request unanswered |
| NextServer.VariantsAgreeOnTextPayload | src/main/next/HttpServer.ts:128-135 | for a non-empty string body and a valid status both servers send the same bytes; the main server adds a content length, the older one sends its headers verbatim |
| KoaServer.NewKoaServer | src/main/http-server.ts:76-95 | the constructor installs the standard middleware, then CORS, then the body parser, with no server yet |
| KoaServer.Start | src/main/http-server.ts:43-54 | no-op when a server exists; otherwise a listener with the configured port and timeout |
| KoaServer.Stop | src/main/http-server.ts:56-67 | no-op without a server; otherwise it waits the shutdown delay iff in production and then stops, keeping the stopped server in the field |
| KoaServer.AddRequestHandler | src/main/http-server.ts:69-74 | the handler joins the end of the middleware stack |
| KoaServer.StartIsIdempotent | src/main/http-server.ts:43-46 | starting twice creates one server |
| KoaServer.StartAfterStopIsNoOp | src/main/http-server.ts:43-67 | because stop never clears the field, a later start changes nothing and the server stays stopped |
| KoaServer.RegisteredHandlersFollowBase | src/main/http-server.ts:69-95 | registered handlers run after the base middleware, in registration order |
| KoaServer.RegisterAppends | src/main/http-server.ts:69-74 | registering a list appends it in order |
| KoaServer.DefaultLifecycle | src/main/http-server.ts:20-67 | with the configuration defaults, `start` listens on 8080 with a 300000 ms timeout, and `stop` waits 10000 ms first only in production |

## Left out

- Sockets, HTTP(S) servers, TLS (`createServer` in src/main/HttpServer.ts), `listen`/`close` callbacks and timers are not modelled as I/O. Server accounting is an event-stepped state machine whose events stand for these callbacks. Ending and destroying a socket are recorded as sets.
- Concurrency is not modelled. Events are one sequential trace, and a second `stop` running alongside the first is not modelled.
- The library conversions are parameters with no properties assumed: UTF-8, JSON, URL and query parsing, and `Buffer.from` on a string. NaN, floats and the seconds-formatted latency in the standard handler's log are left out. Latency is an input number.
- Logging and metrics are left out beyond the events recorded (log level and message, and the protocol method statistics). The log fields are not modelled.
- Dependency injection and request scopes are not modelled. Handlers are values of a datatype.
- `compose` is not part of this model, because its source is not part of it. The chain's semantics follow its tests: each handler calls `next` at most once. The older server's dispatcher is modelled separately, because there a handler may call `next()` several times.
- Non-`Error` throws are not modelled. Thrown values are error objects with name, message, status and details.
- Context.RequestHeader: `getRequestHeader` and `setResponseHeader`, `ctx.path` and `ctx.state` are not in the context class. The header getter is modelled as the first value under an already lower-cased key. Header sets are logged in order rather than applied.
- Errors.InvalidStateError and Errors.RequestSizeExceededError come from a library whose source is not part of this model. Their statuses are parameters.
- Text.Lower and Text.Upper: case mapping covers ASCII letters only.
- Context.WriteHead: Node first coerces the status to a 32-bit integer (`status | 0`); statuses are whole numbers here, so a fractional or huge status is not modelled. Header-name and header-value validation is not modelled either.
- NotFoundError and ServerError are imported from a library whose source is not part of this model (`@nodescript/errors`), except in the Koa protocol handler, which uses the local error table. The model assumes the library classes carry the same name, status and default message as that local table.
- Context.ReadRequestBody: Node sets `complete` once the whole message has arrived, which can precede the body read; the model's `complete` means the body has been read. Whether an oversized body had fully arrived before the destroy is network timing, so after one the model always throws a premature close on a later read, where Node answers the cached body if it had.
- Context.SendResponse: after an oversized body the socket is destroyed and nothing written to the response reaches the client; the model's `Wire` records what the response object was given, not what the client receives.
- Dict.HeadersToDict: a `__proto__` entry replaces the prototype of the returned object; the model records only that it stores no key.
- Server.HandleRequest: when the fallback's own `writeHead` throws, the rejected promise is not handled by the server; what Node does with it is left out, and the model records the escaped error.
- NextServer.Perform: the only catch a handler script can express is `try { await ctx.next() } catch {}` with an empty catch block; catch blocks with their own actions are not modelled.
- Protocol.KoaBefore: Koa's `body` setter also sets status 200 and a content type when the status was not set; that is Koa library behaviour and is not modelled.
- ErrorPolicy.KoaCatch: Koa's status setter returns early once headers are sent; the model assumes they are not sent inside the middleware.
- The body limit is a parameter. The main server passes its configuration where the context expects a server, and the limit field is declared elsewhere, so end-to-end enforcement is not claimed.
- Context.BinaryBodyExample: the binary-response test expects status 200 and a `Uint8Array` body. The context recognises only `Buffer` and defaults to 404, so the example states the buffer case with status 200 set.
- The Koa body parser and `@koa/cors` are third-party middleware. They are modelled as handlers that only call `next`, and the body parser's result is the context's request body. Koa's own status rules for its `body` setter are not modelled.
- The status and metrics endpoints, the router and the type-only files have no behaviour in the core and are left out.

=== FILE: accounting.dfy ===
/**
 * Connection accounting shared by both servers: pending requests per
 * socket, the `stopping` flag, and the staged shutdown (delay, close with
 * idle sockets ended, forced destroy on a timer, close completion). The
 * two servers differ only in the delay of the forced-destroy timer.
 */
module Accounting {
  import opened Wrappers

  type Socket = nat

  /** Main server (timer delay `socketTimeout`) or next server (`setTimeout` with no delay argument). */
  datatype Flavour = Main(socketTimeout: nat) | Next

  /** The forced-destroy timer: none pending, or scheduled with its delay argument (None = omitted). */
  datatype Timer = NoTimer | Scheduled(delay: Option<nat>)

  /** How far `stop` has got: not stopping, awaiting the shutdown delay, or awaiting `close`. */
  datatype Phase = Running | Waiting | Closing

  /**
   * `listening` is `server !== null`; `requests` is `requestsPerSocket`;
   * `ended` and `destroyed` record the sockets that were ended or
   * destroyed.
   */
  datatype Server = Server(
    listening: bool,
    stopping: bool,
    phase: Phase,
    requests: map<Socket, int>,
    ended: set<Socket>,
    destroyed: set<Socket>,
    timer: Timer)

  const Initial := Server(false, false, Running, map[], {}, {}, NoTimer)

  datatype Event =
    | Start
    | Connect(socket: Socket)
    | Request(socket: Socket)
    | Finish(socket: Socket)
    | Close(socket: Socket)
    | StopBegin      // `stop` up to the shutdown delay
    | CloseIdle      // after the delay: close, schedule the forced destroy, end idle sockets
    | ForceDestroy   // the timer fires
    | CloseDone      // the close completes

  /** `getSocketRequests`: an untracked socket counts as 0. */
  function Pending(st: Server, s: Socket): int {
    if s in st.requests then st.requests[s] else 0
  }

  /** The tracked sockets with no pending request. */
  function Idle(st: Server): (r: set<Socket>)
    ensures forall s :: s in r <==> s in st.requests && st.requests[s] == 0
  {
    set s | s in st.requests && st.requests[s] == 0
  }

  function TimerDelay(f: Flavour): Option<nat> {
    match f
    case Main(t) => Some(t)
    case Next => None
  }

  /** `start`: nothing while a server exists; otherwise clear `stopping` and the registry, and listen. */
  function StartServer(st: Server): (r: Server)
    ensures st.listening ==> r == st
    ensures !st.listening ==> r.listening && !r.stopping && r.requests == map[]
                              && r.ended == st.ended && r.destroyed == st.destroyed
  {
    if st.listening then st
    else st.(listening := true, stopping := false, phase := Running, requests := map[])
  }

  /** `onConnection`: the socket is tracked with no pending request. */
  function OnConnection(st: Server, s: Socket): (r: Server)
    ensures s in r.requests && r.requests[s] == 0
    ensures forall t :: t != s ==> Pending(r, t) == Pending(st, t) && (t in r.requests <==> t in st.requests)
    ensures r.(requests := st.requests) == st
  {
    st.(requests := st.requests[s := 0])
  }

  /** The socket's `close`: it is no longer tracked. */
  function OnClose(st: Server, s: Socket): (r: Server)
    ensures s !in r.requests && r.requests.Keys == st.requests.Keys - {s}
    ensures forall t :: t != s ==> Pending(r, t) == Pending(st, t)
    ensures r.(requests := st.requests) == st
  {
    st.(requests := st.requests - {s})
  }

  /** `onRequest`: one more pending request on the socket. */
  function OnRequest(st: Server, s: Socket): (r: Server)
    ensures Pending(r, s) == Pending(st, s) + 1 && s in r.requests
    ensures forall t :: t != s ==> Pending(r, t) == Pending(st, t) && (t in r.requests <==> t in st.requests)
    ensures r.(requests := st.requests) == st
  {
    st.(requests := st.requests[s := Pending(st, s) + 1])
  }

  /** The response's `finish`: one request fewer; while stopping, a socket left with none is ended. */
  function OnFinish(st: Server, s: Socket): (r: Server)
    ensures Pending(r, s) == Pending(st, s) - 1 && s in r.requests
    ensures forall t :: t != s ==> Pending(r, t) == Pending(st, t)
    ensures r.ended == st.ended + (if st.stopping && Pending(st, s) == 1 then {s} else {})
    ensures r.(requests := st.requests, ended := st.ended) == st
  {
    var pending := Pending(st, s) - 1;
    var st1 := st.(requests := st.requests[s := pending]);
    if st.stopping && pending == 0 then st1.(ended := st1.ended + {s}) else st1
  }

  /** `stop` up to the delay: nothing without a server; otherwise `stopping` is set before the wait. */
  function BeginStop(st: Server): (r: Server)
    ensures !st.listening ==> r == st
    ensures st.listening ==> r == st.(stopping := true, phase := Waiting)
  {
    if !st.listening then st else st.(stopping := true, phase := Waiting)
  }

  /** `closeIdleSockets`: ends exactly the tracked sockets with no pending request. */
  function CloseIdleSockets(st: Server): (r: Server)
    ensures forall s :: s in r.ended <==> s in st.ended || (s in st.requests && st.requests[s] == 0)
    ensures r.(ended := st.ended) == st
  {
    st.(ended := st.ended + Idle(st))
  }

  /** `destroyAllSockets`: destroys every tracked socket and empties the registry. */
  function DestroyAllSockets(st: Server): (r: Server)
    ensures r.destroyed == st.destroyed + st.requests.Keys && r.requests == map[]
    ensures r.(destroyed := st.destroyed, requests := st.requests) == st
  {
    st.(destroyed := st.destroyed + st.requests.Keys, requests := map[])
  }

  /** One event. */
  function Step(f: Flavour, st: Server, e: Event): Server {
    match e
    case Start => StartServer(st)
    case Connect(s) => OnConnection(st, s)
    case Request(s) => OnRequest(st, s)
    case Finish(s) => OnFinish(st, s)
    case Close(s) => OnClose(st, s)
    case StopBegin => BeginStop(st)
    case CloseIdle => CloseIdleSockets(st.(phase := Closing, timer := Scheduled(TimerDelay(f))))
    case ForceDestroy => DestroyAllSockets(st).(timer := NoTimer)
    case CloseDone => st.(timer := NoTimer, listening := false, phase := Running)
  }

  /**
   * The events Node can deliver in a state: connections only while
   * accepting, requests and closes on tracked sockets, one `stop` at a
   * time, the timer only once scheduled. A finish is always deliverable
   * here; when it keeps its count non-negative is a property of the whole
   * trace (`Disciplined` below).
   */
  predicate Legal(st: Server, e: Event) {
    match e
    case Start => true
    case Connect(s) => st.listening && st.phase != Closing && s !in st.requests
    case Request(s) => s in st.requests
    case Finish(_) => true
    case Close(s) => s in st.requests
    case StopBegin => st.phase == Running
    case CloseIdle => st.phase == Waiting
    case ForceDestroy => st.timer.Scheduled?
    case CloseDone => st.phase == Closing
  }

  /** The stop stages imply a listening server that is stopping; a timer is pending only while closing. */
  predicate Inv(st: Server) {
    && (st.phase != Running ==> st.listening && st.stopping)
    && (st.timer.Scheduled? ==> st.phase == Closing)
  }

  lemma StepKeepsInv(f: Flavour, st: Server, e: Event)
    requires Inv(st) && Legal(st, e)
    ensures Inv(Step(f, st, e))
  {
  }

  function Replay(f: Flavour, st: Server, es: seq<Event>): Server
    decreases |es|
  {
    if |es| == 0 then st else Replay(f, Step(f, st, es[0]), es[1..])
  }

  /** Every event of the trace is legal where it happens. */
  predicate LegalTrace(f: Flavour, st: Server, es: seq<Event>)
    decreases |es|
  {
    |es| == 0 || (Legal(st, es[0]) && LegalTrace(f, Step(f, st, es[0]), es[1..]))
  }

  /** Over any legal trace from a state satisfying the invariant, the stop stages stay consistent. */
  lemma {:induction false} ReplayKeepsInv(f: Flavour, st: Server, es: seq<Event>)
    requires Inv(st) && LegalTrace(f, st, es)
    ensures Inv(Replay(f, st, es))
    decreases |es|
  {
    if |es| > 0 {
      StepKeepsInv(f, st, es[0]);
      ReplayKeepsInv(f, Step(f, st, es[0]), es[1..]);
    }
  }

  /*
   * The per-socket discipline, stated on the trace alone. A socket's count
   * starts afresh at its connection, its close, a forced destroy, and a
   * start that creates a server; between two such resets it is the number
   * of its requests minus the number of its finishes.
   */

  /** Whether a trace from the initial state leaves a server: its last start or close completion is a start. */
  function Listening(es: seq<Event>): bool
    decreases |es|
  {
    if |es| == 0 then false
    else if es[|es| - 1].Start? then true
    else if es[|es| - 1].CloseDone? then false
    else Listening(es[..|es| - 1])
  }

  /** Whether the event at `i` starts socket `s`'s count afresh. */
  predicate Resets(es: seq<Event>, i: nat, s: Socket)
    requires i < |es|
  {
    match es[i]
    case Connect(t) => t == s
    case Close(t) => t == s
    case ForceDestroy => true
    case Start => !Listening(es[..i])
    case _ => false
  }

  /** The length of the prefix that ends with the last reset of `s`; 0 when there is none. */
  function Epoch(es: seq<Event>, s: Socket): (k: nat)
    ensures k <= |es|
    ensures k > 0 ==> Resets(es, k - 1, s)
    ensures forall i :: k <= i < |es| ==> !Resets(es, i, s)
    decreases |es|
  {
    if |es| == 0 then 0
    else if Resets(es, |es| - 1, s) then |es|
    else
      var k := Epoch(es[..|es| - 1], s);
      assert forall i :: k <= i < |es| - 1 ==> Resets(es[..|es| - 1], i, s) == Resets(es, i, s) by {
        forall i | k <= i < |es| - 1 ensures Resets(es[..|es| - 1], i, s) == Resets(es, i, s) {
          assert es[..|es| - 1][..i] == es[..i];
        }
      }
      if k > 0 then
        assert es[..|es| - 1][..k - 1] == es[..k - 1];
        k
      else k
  }

  /** How one event moves socket `s`'s unmatched requests. */
  function Delta(e: Event, s: Socket): int {
    if e == Request(s) then 1 else if e == Finish(s) then -1 else 0
  }

  /** The requests of `s` in the trace minus its finishes. */
  function Net(es: seq<Event>, s: Socket): int
    decreases |es|
  {
    if |es| == 0 then 0
    else
      var last := es[|es| - 1];
      Net(es[..|es| - 1], s) + Delta(last, s)
  }

  /** Socket `s`'s unmatched requests since its last reset. */
  function Balance(es: seq<Event>, s: Socket): int {
    Net(es[Epoch(es, s)..], s)
  }

  /** Each finish answers an unmatched request of its socket since that socket's last reset. */
  predicate Disciplined(es: seq<Event>) {
    forall i :: 0 <= i < |es| && es[i].Finish? ==> Balance(es[..i], es[i].socket) > 0
  }

  /** Replaying a trace one more event is one more step. */
  lemma ReplaySnoc(f: Flavour, pre: seq<Event>, e: Event)
    ensures Replay(f, Initial, pre + [e]) == Step(f, Replay(f, Initial, pre), e)
  {
    ReplayConcat(f, Initial, pre, [e]);
    assert [e][1..] == [];
  }

  /** One more event either resets the balance or moves it by that event's delta. */
  lemma BalanceSnoc(pre: seq<Event>, e: Event, s: Socket)
    ensures Balance(pre + [e], s) == if Resets(pre + [e], |pre|, s) then 0 else Balance(pre, s) + Delta(e, s)
  {
    var es := pre + [e];
    assert es[..|es| - 1] == pre;
    if !Resets(es, |pre|, s) {
      var k := Epoch(pre, s);
      assert es[k..] == pre[k..] + [e];
      assert (pre[k..] + [e])[..|pre[k..]|] == pre[k..];
    }
  }

  /** One step on the registry, seen from socket `s`. */
  lemma StepCount(f: Flavour, st: Server, e: Event, s: Socket)
    ensures Pending(Step(f, st, e), s) ==
      if e == Connect(s) || e == Close(s) || e.ForceDestroy? || (e.Start? && !st.listening) then 0
      else Pending(st, s) + Delta(e, s)
    ensures Step(f, st, e).listening == if e.Start? then true else if e.CloseDone? then false else st.listening
  {
  }

  /** The registry's count for every socket is its trace balance, and the server exists exactly when the trace leaves one. */
  lemma {:induction false} CountIsBalance(f: Flavour, es: seq<Event>, s: Socket)
    ensures Pending(Replay(f, Initial, es), s) == Balance(es, s)
    ensures Replay(f, Initial, es).listening == Listening(es)
    decreases |es|
  {
    if |es| > 0 {
      var pre := es[..|es| - 1];
      var e := es[|es| - 1];
      assert es == pre + [e];
      CountIsBalance(f, pre, s);
      ReplaySnoc(f, pre, e);
      BalanceSnoc(pre, e, s);
      StepCount(f, Replay(f, Initial, pre), e, s);
    }
  }

  /** On a disciplined trace no balance is negative. */
  lemma {:induction false} BalanceNonNegative(es: seq<Event>, s: Socket)
    requires Disciplined(es)
    ensures Balance(es, s) >= 0
    decreases |es|
  {
    if |es| > 0 && !Resets(es, |es| - 1, s) {
      var pre := es[..|es| - 1];
      var e := es[|es| - 1];
      assert Disciplined(pre) by {
        forall i | 0 <= i < |pre| && pre[i].Finish? ensures Balance(pre[..i], pre[i].socket) > 0 {
          assert pre[..i] == es[..i];
        }
      }
      BalanceNonNegative(pre, s);
      assert es == pre + [e];
      BalanceSnoc(pre, e, s);
      if e == Finish(s) {
        assert Balance(pre, s) > 0;
      }
    }
  }

  /** Over a disciplined trace every tracked count stays non-negative. */
  lemma DisciplinedCountsStayNonNegative(f: Flavour, es: seq<Event>)
    requires Disciplined(es)
    ensures forall s :: s in Replay(f, Initial, es).requests ==> Replay(f, Initial, es).requests[s] >= 0
  {
    forall s | s in Replay(f, Initial, es).requests ensures Replay(f, Initial, es).requests[s] >= 0 {
      CountIsBalance(f, es, s);
      BalanceNonNegative(es, s);
    }
  }

  /** A finish after a forced destroy is outside the discipline: the destroy reset the count, and the finish takes it to -1. */
  lemma FinishAfterForcedDestroyIsUndisciplined(f: Flavour)
    ensures var es := [Start, Connect(1), Request(1), StopBegin, CloseIdle, ForceDestroy, Finish(1)];
      && !Disciplined(es) && Pending(Replay(f, Initial, es), 1) == -1
  {
    var es := [Start, Connect(1), Request(1), StopBegin, CloseIdle, ForceDestroy, Finish(1)];
    var pre := es[..6];
    assert Resets(pre, 5, 1);
    assert Epoch(pre, 1) == 6;
    assert Balance(es[..6], 1) == 0;
    CountIsBalance(f, es, 1);
    assert es[..6] == pre && es == pre + [Finish(1)];
    assert Epoch(es, 1) == 6;
    assert es[6..] == [Finish(1)];
    assert Net([Finish(1)], 1) == -1 by {
      assert [Finish(1)][..0] == [];
    }
  }

  /** A finish arriving after its socket closed is outside the discipline, and leaves a negative count. */
  lemma FinishAfterCloseGoesNegative(f: Flavour)
    ensures !Disciplined([Start, Connect(1), Request(1), Close(1), Finish(1)])
    ensures var st := Replay(f, Initial, [Start, Connect(1), Request(1), Close(1), Finish(1)]);
      1 in st.requests && st.requests[1] == -1
  {
    var es := [Start, Connect(1), Request(1), Close(1), Finish(1)];
    assert Resets(es[..4], 3, 1) && Epoch(es[..4], 1) == 4 && Balance(es[..4], 1) == 0;
    var s1 := Step(f, Initial, Start);
    var s2 := Step(f, s1, Connect(1));
    var s3 := Step(f, s2, Request(1));
    var s4 := Step(f, s3, Close(1));
    var s5 := Step(f, s4, Finish(1));
    assert s5.requests[1] == -1;
    assert es[1..][1..][1..][1..][1..] == [];
    assert Replay(f, Initial, es) == s5;
  }

  /** The two servers take every event the same way except for the delay of the forced-destroy timer. */
  lemma FlavoursAgreeExceptTimer(t: nat, st: Server, e: Event)
    ensures Step(Main(t), st, e).(timer := NoTimer) == Step(Next, st, e).(timer := NoTimer)
    ensures e.CloseIdle? ==> Step(Main(t), st, e).timer == Scheduled(Some(t)) && Step(Next, st, e).timer == Scheduled(None)
    ensures !e.CloseIdle? ==> Step(Main(t), st, e) == Step(Next, st, e)
  {
  }

  /** A stop when the server was never started changes nothing at all. */
  lemma StopWithoutServerIsNoOp(f: Flavour, st: Server)
    requires !st.listening
    ensures Step(f, st, StopBegin) == st
  {
  }

  /** Replaying two traces one after the other is replaying their concatenation. */
  lemma {:induction false} ReplayConcat(f: Flavour, st: Server, a: seq<Event>, b: seq<Event>)
    ensures Replay(f, st, a + b) == Replay(f, Replay(f, st, a), b)
    decreases |a|
  {
    if |a| > 0 {
      assert (a + b)[0] == a[0] && (a + b)[1..] == a[1..] + b;
      ReplayConcat(f, Step(f, st, a[0]), a[1..], b);
    } else {
      assert a + b == b;
    }
  }

  /** Two connections after a start, the first with a request in flight. */
  lemma BusyAndIdle(f: Flavour)
    ensures var st := Replay(f, Initial, [Start, Connect(1), Connect(2), Request(1)]);
      && st.requests == map[1 := 1, 2 := 0] && st.listening && !st.stopping && st.ended == {}
  {
    var s1 := Step(f, Initial, Start);
    var s2 := Step(f, s1, Connect(1));
    var s3 := Step(f, s2, Connect(2));
    var s4 := Step(f, s3, Request(1));
    assert s4.requests == map[1 := 1, 2 := 0];
    var es := [Start, Connect(1), Connect(2), Request(1)];
    assert es[1..][1..][1..][1..] == [];
    assert Replay(f, Initial, es) == s4;
  }

  /** The first half of a drain: two connections, one busy, then the stop reaches the idle sweep. */
  lemma DrainSweep(f: Flavour)
    ensures var mid := Replay(f, Initial, [Start, Connect(1), Connect(2), Request(1), StopBegin, CloseIdle]);
      && mid.ended == {2} && mid.timer == Scheduled(TimerDelay(f))
      && mid.requests == map[1 := 1, 2 := 0] && mid.stopping && mid.listening && mid.phase == Closing
  {
    var a := [Start, Connect(1), Connect(2), Request(1)];
    var b := [StopBegin, CloseIdle];
    assert a + b == [Start, Connect(1), Connect(2), Request(1), StopBegin, CloseIdle];
    ReplayConcat(f, Initial, a, b);
    BusyAndIdle(f);
    StopAndSweep(f, Replay(f, Initial, a));
  }

  /** The stop and its idle sweep on a server with one busy and one idle socket. */
  lemma StopAndSweep(f: Flavour, st: Server)
    requires st.requests == map[1 := 1, 2 := 0] && st.listening && st.ended == {}
    ensures var mid := Replay(f, st, [StopBegin, CloseIdle]);
      && mid.ended == {2} && mid.timer == Scheduled(TimerDelay(f))
      && mid.requests == st.requests && mid.stopping && mid.listening && mid.phase == Closing
  {
    var s5 := Step(f, st, StopBegin);
    assert Idle(s5) == {2};
    assert [StopBegin, CloseIdle][1..][1..] == [];
    assert Replay(f, st, [StopBegin, CloseIdle]) == Step(f, s5, CloseIdle);
  }

  /**
   * The graceful drain: a busy socket survives the idle sweep and is ended
   * when its last response finishes; the close then clears the timer and
   * the server, and `stopping` stays set until the next start.
   */
  lemma DrainFinish(f: Flavour, mid: Server)
    requires mid.requests == map[1 := 1, 2 := 0] && mid.stopping && mid.ended == {2} && mid.phase == Closing
    ensures var fin := Replay(f, mid, [Finish(1), CloseDone]);
      && fin.ended == {1, 2} && fin.destroyed == mid.destroyed && fin.timer == NoTimer
      && !fin.listening && fin.stopping
  {
    var s7 := Step(f, mid, Finish(1));
    var s8 := Step(f, s7, CloseDone);
    assert [Finish(1), CloseDone][1..][1..] == [];
    assert Replay(f, mid, [Finish(1), CloseDone]) == s8;
  }

  /** When the timer fires first, every still-tracked socket is destroyed and the registry is empty. */
  lemma ForcedDestroyScenario(f: Flavour)
    ensures var st := Replay(f, Initial, [Start, Connect(1), Request(1), StopBegin, CloseIdle, ForceDestroy]);
      && st.destroyed == {1} && st.ended == {} && st.requests == map[] && st.timer == NoTimer && st.listening
  {
    var a := [Start, Connect(1), Request(1), StopBegin];
    var b := [CloseIdle, ForceDestroy];
    assert a + b == [Start, Connect(1), Request(1), StopBegin, CloseIdle, ForceDestroy];
    ReplayConcat(f, Initial, a, b);
    OneBusyStopping(f);
    SweepThenDestroy(f, Replay(f, Initial, a));
  }

  /** A started server with one connection whose request is in flight, then `stop` begins. */
  lemma OneBusyStopping(f: Flavour)
    ensures var st := Replay(f, Initial, [Start, Connect(1), Request(1), StopBegin]);
      && st.requests == map[1 := 1] && st.listening && st.stopping && st.ended == {} && st.destroyed == {}
  {
    var s1 := Step(f, Initial, Start);
    var s2 := Step(f, s1, Connect(1));
    var s3 := Step(f, s2, Request(1));
    var s4 := Step(f, s3, StopBegin);
    assert s4.requests == map[1 := 1];
    var es := [Start, Connect(1), Request(1), StopBegin];
    assert es[1..][1..][1..][1..] == [];
    assert Replay(f, Initial, es) == s4;
  }

  /** The idle sweep finds nothing to end; the timer then destroys the busy socket. */
  lemma SweepThenDestroy(f: Flavour, st: Server)
    requires st.requests == map[1 := 1] && st.listening && st.ended == {} && st.destroyed == {}
    ensures var r := Replay(f, st, [CloseIdle, ForceDestroy]);
      && r.destroyed == {1} && r.ended == {} && r.requests == map[] && r.timer == NoTimer && r.listening
  {
    assert Idle(st) == {};
    assert [CloseIdle, ForceDestroy][1..][1..] == [];
    assert Replay(f, st, [CloseIdle, ForceDestroy]) == Step(f, Step(f, st, CloseIdle), ForceDestroy);
  }

  /** A start after a completed stop clears `stopping` and the registry again. */
  lemma RestartClearsStopping(f: Flavour, st: Server)
    requires st.phase == Closing
    ensures var r := Step(f, Step(f, st, CloseDone), Start);
      r.listening && !r.stopping && r.requests == map[] && r.phase == Running
  {
  }
}

=== FILE: chain.dfy ===
/**
 * Middleware composition. A handler runs some code, calls `next` at most
 * once, and runs more code after it returns or throws; a chain is the right
 * fold of its handlers around the caller's continuation. The concrete
 * handlers are the test middleware (marker-logging, catching, throwing,
 * endpoint) and the policy handlers of the library.
 */
module Chain {
  import opened Wrappers
  import opened Text
  import opened Values
  import opened Context
  import opened Flow
  import ErrorPolicy
  import Cors
  import Protocol

  datatype Handler =
    | Logging(enter: string, exit: string)  // pushes `enter`, awaits next, pushes `exit`
    | Catching                         // the catching test middleware
    | Throwing(message: string)        // pushes 'throw' and throws Error(message)
    | Endpoint                         // answers 200 'OK' without calling next
    | ErrorHandler
    | Standard
    | CorsHandler(variant: Cors.Variant)
    | ProtocolHandler(prefix: string, impl: Protocol.ProtocolImpl)
    | KoaProtocolHandler(prefix: string, impl: Protocol.ProtocolImpl)
    | KoaStandard
    | Library(name: string)            // third-party middleware that only calls next

  /** The caller's `next`: returns, or throws `error`. */
  datatype Final = Done | Raise(error: Error)

  /** A handler's code up to its `next` call, or to its end when it does not call `next`. */
  function Before(h: Handler, ctx: Context, env: Env): Step {
    match h
    case Logging(enter, _) => Continue([Mark(enter)], ctx, Plain)
    case Catching => Continue([Mark("catch start")], ctx, Plain)
    case Throwing(m) => Stop([Mark("throw")], ctx, Throw(PlainError("Error", m)))
    case Endpoint =>
      Stop([Mark("endpoint start"), Mark("endpoint end")], ctx.(status := 200, responseBody := Str("OK")), Ok)
    case CorsHandler(v) => Cors.Before(v, ctx, env.codec.decodeUtf8)
    case ProtocolHandler(p, impl) => Protocol.NativeBefore(p, impl, ctx, env)
    case KoaProtocolHandler(p, impl) => Protocol.KoaBefore(p, impl, ctx)
    case _ => Continue([], ctx, Plain)
  }

  /** A handler's code after `next` returned (`Ok`) or threw. */
  function After(h: Handler, resume: Resume, ctx: Context, outcome: Outcome): Exec {
    match h
    case Logging(_, exit) => if outcome.Ok? then Exec([Mark(exit)], ctx, Ok) else Exec([], ctx, outcome)
    case Catching =>
      (match outcome
       case Ok => Exec([Mark("catch end")], ctx, Ok)
       case Throw(e) => Exec([Mark("caught")], ctx.(status := 500, responseBody := Str(e.message)), Ok))
    case ErrorHandler => ErrorPolicy.CatchError(ctx, outcome)
    case Standard => ErrorPolicy.StandardAfter(ctx, outcome)
    case KoaStandard => ErrorPolicy.KoaStandardAfter(ctx, outcome)
    case ProtocolHandler(_, _) => Protocol.NativeAfter(resume, ctx, outcome)
    case _ => Exec([], ctx, outcome)
  }

  /** The composed chain run on `ctx` with the caller's continuation `fin`. */
  function Run(hs: seq<Handler>, ctx: Context, fin: Final, env: Env): Exec
    decreases |hs|, 0
  {
    if |hs| == 0 then
      match fin
      case Done => Exec([], ctx, Ok)
      case Raise(e) => Exec([], ctx, Throw(e))
    else Invoke(hs[0], hs[1..], ctx, fin, env)
  }

  /** One handler whose `next` runs the rest of the chain. */
  function Invoke(h: Handler, rest: seq<Handler>, ctx: Context, fin: Final, env: Env): Exec
    decreases |rest|, 1
  {
    match Before(h, ctx, env)
    case Stop(evs, c, o) => Exec(evs, c, o)
    case Continue(evs, c, resume) =>
      var inner := Run(rest, c, fin, env);
      var post := After(h, resume, inner.ctx, inner.outcome);
      Exec(evs + inner.events + post.events, post.ctx, post.outcome)
  }

  /** Marker-logging middleware with the given (enter, exit) markers, outermost first. */
  function Wrap(ns: seq<(string, string)>): (hs: seq<Handler>)
    ensures |hs| == |ns|
  {
    if |ns| == 0 then [] else [Logging(ns[0].0, ns[0].1)] + Wrap(ns[1..])
  }

  /** The enter markers, outermost first. */
  function Starts(ns: seq<(string, string)>): seq<Event> {
    if |ns| == 0 then [] else [Mark(ns[0].0)] + Starts(ns[1..])
  }

  /** The exit markers, innermost first. */
  function Ends(ns: seq<(string, string)>): seq<Event> {
    if |ns| == 0 then [] else Ends(ns[1..]) + [Mark(ns[0].1)]
  }

  /** One marker-logging middleware around the rest of the chain. */
  lemma LoggingStep(n: (string, string), rest: seq<Handler>, ctx: Context, fin: Final, env: Env)
    ensures var t := Run(rest, ctx, fin, env);
      Invoke(Logging(n.0, n.1), rest, ctx, fin, env)
        == Exec([Mark(n.0)] + t.events + (if t.outcome.Ok? then [Mark(n.1)] else []), t.ctx, t.outcome)
  {
    assert Before(Logging(n.0, n.1), ctx, env) == Continue([Mark(n.0)], ctx, Plain);
  }

  /**
   * The onion law: when the inner chain completes normally, the "before"
   * code of the wrapping middleware runs in list order and the "after" code
   * in reverse order, around the inner chain's trace.
   */
  lemma {:induction false} OnionLaw(ns: seq<(string, string)>, tail: seq<Handler>, ctx: Context, fin: Final, env: Env)
    requires Run(tail, ctx, fin, env).outcome.Ok?
    ensures var t := Run(tail, ctx, fin, env);
      Run(Wrap(ns) + tail, ctx, fin, env) == Exec(Starts(ns) + t.events + Ends(ns), t.ctx, Ok)
    decreases |ns|
  {
    if |ns| == 0 {
      assert Wrap(ns) + tail == tail;
    } else {
      var t := Run(tail, ctx, fin, env);
      var rest := Wrap(ns[1..]) + tail;
      WrapStep(ns, tail);
      RunStep(ns[0], Wrap(ns[1..]), tail, ctx, fin, env);
      OnionLaw(ns[1..], tail, ctx, fin, env);
      LoggingStep(ns[0], rest, ctx, fin, env);
      OnionEvents(ns, t.events);
    }
  }

  /**
   * A throw from the inner chain passes through marker-logging middleware:
   * their "after" code is skipped and the same error reaches the caller.
   */
  lemma {:induction false} ThrowSkipsAfterCode(ns: seq<(string, string)>, tail: seq<Handler>, ctx: Context, fin: Final, env: Env)
    requires Run(tail, ctx, fin, env).outcome.Throw?
    ensures var t := Run(tail, ctx, fin, env);
      Run(Wrap(ns) + tail, ctx, fin, env) == Exec(Starts(ns) + t.events, t.ctx, t.outcome)
    decreases |ns|
  {
    if |ns| == 0 {
      assert Wrap(ns) + tail == tail;
    } else {
      var t := Run(tail, ctx, fin, env);
      var rest := Wrap(ns[1..]) + tail;
      WrapStep(ns, tail);
      RunStep(ns[0], Wrap(ns[1..]), tail, ctx, fin, env);
      ThrowSkipsAfterCode(ns[1..], tail, ctx, fin, env);
      LoggingStep(ns[0], rest, ctx, fin, env);
      assert Starts(ns) + t.events == [Mark(ns[0].0)] + (Starts(ns[1..]) + t.events);
    }
  }

  lemma WrapStep(ns: seq<(string, string)>, tail: seq<Handler>)
    requires |ns| > 0
    ensures Wrap(ns) + tail == [Logging(ns[0].0, ns[0].1)] + Wrap(ns[1..]) + tail
  {
  }

  /** The onion's trace peeled by one layer. */
  lemma {:induction false} OnionEvents(ns: seq<(string, string)>, evs: seq<Event>)
    requires |ns| > 0
    ensures Starts(ns) + evs + Ends(ns) == [Mark(ns[0].0)] + (Starts(ns[1..]) + evs + Ends(ns[1..])) + [Mark(ns[0].1)]
  {
  }

  /** Running a chain headed by a marker-logging middleware is invoking it around the rest. */
  lemma RunStep(n: (string, string), ws: seq<Handler>, tail: seq<Handler>, ctx: Context, fin: Final, env: Env)
    ensures Run([Logging(n.0, n.1)] + ws + tail, ctx, fin, env) == Invoke(Logging(n.0, n.1), ws + tail, ctx, fin, env)
  {
    assert ([Logging(n.0, n.1)] + ws + tail)[1..] == ws + tail;
  }

  /**
   * With nothing to call `next` past, a fresh chain's `handle` ends in the
   * caller's continuation: its throw surfaces after every enter mark, and
   * its return unwinds the onion.
   */
  lemma CallerNextIsTheLastContinuation(ns: seq<(string, string)>, ctx: Context, e: Error, env: Env)
    ensures Handle(HttpChain(Wrap(ns), None), ctx, Raise(e), env).1 == Exec(Starts(ns), ctx, Throw(e))
    ensures Handle(HttpChain(Wrap(ns), None), ctx, Done, env).1 == Exec(Starts(ns) + Ends(ns), ctx, Ok)
  {
    assert Wrap(ns) + [] == Wrap(ns);
    ThrowSkipsAfterCode(ns, [], ctx, Raise(e), env);
    OnionLaw(ns, [], ctx, Done, env);
  }

  /**
   * The catching middleware stops a downstream throw: it records 'caught',
   * sets status 500 and the error message as body, skips its own 'catch
   * end', and completes normally.
   */
  lemma CatchingAbsorbs(tail: seq<Handler>, ctx: Context, fin: Final, env: Env)
    ensures var t := Run(tail, ctx, fin, env); var r := Run([Catching] + tail, ctx, fin, env);
      && r.outcome == Ok
      && (t.outcome.Throw? ==>
            r == Exec([Mark("catch start")] + t.events + [Mark("caught")],
                      t.ctx.(status := 500, responseBody := Str(t.outcome.error.message)), Ok))
      && (t.outcome.Ok? ==> r == Exec([Mark("catch start")] + t.events + [Mark("catch end")], t.ctx, Ok))
  {
    assert ([Catching] + tail)[1..] == tail;
  }

  /** Handlers that finish without calling `next`. */
  predicate NeverCallsNext(h: Handler) {
    h.Endpoint? || h.Throwing?
  }

  /**
   * Short-circuiting: once a handler does not call `next`, nothing after it
   * matters; neither the rest of the list nor the caller's continuation
   * can change the result.
   */
  lemma {:induction false} ShortCircuit(pre: seq<Handler>, h: Handler, rest1: seq<Handler>, rest2: seq<Handler>,
                                        ctx: Context, fin1: Final, fin2: Final, env: Env)
    requires NeverCallsNext(h)
    ensures Run(pre + [h] + rest1, ctx, fin1, env) == Run(pre + [h] + rest2, ctx, fin2, env)
    decreases |pre|
  {
    var a := pre + [h] + rest1;
    var b := pre + [h] + rest2;
    if |pre| == 0 {
      assert a[0] == h && b[0] == h;
    } else {
      assert a[0] == pre[0] && b[0] == pre[0];
      assert a[1..] == pre[1..] + [h] + rest1 && b[1..] == pre[1..] + [h] + rest2;
      match Before(pre[0], ctx, env)
      case Stop(_, _, _) =>
      case Continue(_, c, _) =>
        ShortCircuit(pre[1..], h, rest1, rest2, c, fin1, fin2, env);
    }
  }

  /** Handlers that catch every downstream error. */
  predicate Absorbing(h: Handler) {
    h.Catching? || h.ErrorHandler? || h.Standard?
  }

  /** An absorbing handler at the head of a chain never lets an error out, whatever follows it. */
  lemma AbsorbingHandlersNeverRethrow(h: Handler, tail: seq<Handler>, ctx: Context, fin: Final, env: Env)
    requires Absorbing(h)
    ensures Run([h] + tail, ctx, fin, env).outcome == Ok
  {
    assert ([h] + tail)[1..] == tail;
  }

  /**
   * The Koa standard middleware catches every downstream error too, but
   * its own catch block can throw: the only error it lets out is the status
   * setter's assertion.
   */
  lemma KoaStandardOnlyLetsOutTheAssertion(tail: seq<Handler>, ctx: Context, fin: Final, env: Env)
    ensures var r := Run([KoaStandard] + tail, ctx, fin, env);
      r.outcome.Throw? ==> r.outcome.error == ErrorPolicy.StatusNotANumber()
  {
    assert ([KoaStandard] + tail)[1..] == tail;
  }

  /**
   * The standard handler sets Server-Timing as its last header on every
   * path, and logs at level 'error' exactly when the final status is 500 or
   * more.
   */
  lemma StandardAlwaysSetsTiming(tail: seq<Handler>, ctx: Context, fin: Final, env: Env)
    ensures var r := Run([Standard] + tail, ctx, fin, env);
      && |r.ctx.headerSets| > 0 && |r.events| > 0
      && r.ctx.headerSets[|r.ctx.headerSets| - 1] == ("Server-Timing", Str(ErrorPolicy.TimingValue(ctx.latency)))
      && r.events[|r.events| - 1].Log?
      && (r.events[|r.events| - 1].level == "error" <==> r.ctx.status >= 500)
  {
    assert ([Standard] + tail)[1..] == tail;
    var t := Run(tail, ctx, fin, env);
    assert t.ctx.latency == ctx.latency by {
      LatencyIsKept(tail, ctx, fin, env);
    }
    var post := ErrorPolicy.StandardAfter(t.ctx, t.outcome);
    assert Run([Standard] + tail, ctx, fin, env) == Exec([] + t.events + post.events, post.ctx, post.outcome);
  }

  /** No handler changes the measured latency. */
  lemma {:induction false} LatencyIsKept(hs: seq<Handler>, ctx: Context, fin: Final, env: Env)
    ensures Run(hs, ctx, fin, env).ctx.latency == ctx.latency
    decreases |hs|
  {
    if |hs| > 0 {
      var h := hs[0];
      BeforeKeepsLatency(h, ctx, env);
      match Before(h, ctx, env)
      case Stop(_, _, _) =>
      case Continue(_, c, resume) =>
        LatencyIsKept(hs[1..], c, fin, env);
        var inner := Run(hs[1..], c, fin, env);
        AfterKeepsLatency(h, resume, inner.ctx, inner.outcome);
    }
  }

  lemma BeforeKeepsLatency(h: Handler, ctx: Context, env: Env)
    ensures Before(h, ctx, env).ctx.latency == ctx.latency
  {
    match h
    case ProtocolHandler(prefix, impl) => NativeBeforeKeepsLatency(prefix, impl, ctx, env);
    case _ =>
  }

  lemma NativeBeforeKeepsLatency(prefix: string, impl: Protocol.ProtocolImpl, ctx: Context, env: Env)
    ensures Protocol.NativeBefore(prefix, impl, ctx, env).ctx.latency == ctx.latency
  {
    var path := Protocol.ParsePath(Protocol.Native, prefix, ctx.path);
    if StartsWith(ctx.path, prefix) && path.Success? && impl.lookup(path.value.0, path.value.1).Success? {
      var spec := impl.lookup(path.value.0, path.value.1).value;
      if Method(ctx) == Protocol.ExpectedVerb(spec) {
        NativeCallKeepsLatency(path.value.0, path.value.1, spec, impl, ctx, env);
      }
    }
  }

  lemma AfterKeepsLatency(h: Handler, resume: Resume, ctx: Context, outcome: Outcome)
    ensures After(h, resume, ctx, outcome).ctx.latency == ctx.latency
  {
  }

  lemma NativeCallKeepsLatency(d: string, m: string, spec: Protocol.MethodSpec, impl: Protocol.ProtocolImpl, ctx: Context, env: Env)
    ensures Protocol.NativeCall(d, m, spec, impl, ctx, env).ctx.latency == ctx.latency
  {
    var rd := Protocol.NativeParams(ctx, env);
    assert rd.ctx.latency == ctx.latency;
  }

  /** The first test chain: foo, bar, endpoint. */
  lemma OrderScenario(ctx: Context, fin: Final, env: Env)
    ensures Run([Logging("foo start", "foo end"), Logging("bar start", "bar end"), Endpoint], ctx, fin, env)
         == Exec([Mark("foo start"), Mark("bar start"), Mark("endpoint start"),
                  Mark("endpoint end"), Mark("bar end"), Mark("foo end")],
                 ctx.(status := 200, responseBody := Str("OK")), Ok)
  {
    var ns := [("foo start", "foo end"), ("bar start", "bar end")];
    assert ns[1..] == [("bar start", "bar end")];
    assert Wrap(ns) + [Endpoint] == [Logging("foo start", "foo end"), Logging("bar start", "bar end"), Endpoint];
    assert Run([Endpoint], ctx, fin, env)
        == Exec([Mark("endpoint start"), Mark("endpoint end")], ctx.(status := 200, responseBody := Str("OK")), Ok);
    OnionLaw(ns, [Endpoint], ctx, fin, env);
    assert Starts(ns) == [Mark("foo start"), Mark("bar start")];
    assert Ends(ns) == [Mark("bar end"), Mark("foo end")];
  }

  /** The second test chain: foo, catch, throw. */
  lemma CatchScenario(ctx: Context, fin: Final, env: Env)
    ensures Run([Logging("foo start", "foo end"), Catching, Throwing("Oops!")], ctx, fin, env)
         == Exec([Mark("foo start"), Mark("catch start"), Mark("throw"), Mark("caught"), Mark("foo end")],
                 ctx.(status := 500, responseBody := Str("Oops!")), Ok)
  {
    var ns := [("foo start", "foo end")];
    CatchingAbsorbs([Throwing("Oops!")], ctx, fin, env);
    assert Run([Throwing("Oops!")], ctx, fin, env) == Exec([Mark("throw")], ctx, Throw(PlainError("Error", "Oops!")));
    assert Wrap(ns) + ([Catching] + [Throwing("Oops!")]) == [Logging("foo start", "foo end"), Catching, Throwing("Oops!")];
    OnionLaw(ns, [Catching] + [Throwing("Oops!")], ctx, fin, env);
    assert Starts(ns) == [Mark("foo start")];
    assert Ends(ns) == [Mark("foo end")];
  }

  /** A chain handler: its handler list and the composition cached by the first `handle`. */
  datatype HttpChain = HttpChain(handlers: seq<Handler>, composed: Option<seq<Handler>>)

  /** `getComposedHandler`: builds the composition from the current handlers once, then reuses it. */
  function Composed(c: HttpChain): (r: (HttpChain, seq<Handler>))
    ensures r.0.composed == Some(r.1) && r.0.handlers == c.handlers
    ensures c.composed.Some? ==> r == (c, c.composed.value)
    ensures c.composed.None? ==> r.1 == c.handlers
  {
    match c.composed
    case Some(fns) => (c, fns)
    case None => (c.(composed := Some(c.handlers)), c.handlers)
  }

  /** `handle`: runs the composition with the caller's `next` as the continuation after the last handler. */
  function Handle(c: HttpChain, ctx: Context, next: Final, env: Env): (r: (HttpChain, Exec))
    ensures var fns := if c.composed.Some? then c.composed.value else c.handlers;
      && r.0 == HttpChain(c.handlers, Some(fns))
      && r.1 == Run(fns, ctx, next, env)
  {
    var (c2, fns) := Composed(c);
    (c2, Run(fns, ctx, next, env))
  }

  /** The composition is fixed by the first `handle`: replacing `handlers` afterwards changes nothing. */
  lemma CompositionIsCached(hs: seq<Handler>, later: seq<Handler>, ctx1: Context, ctx2: Context, next: Final, env: Env)
    ensures var (c1, _) := Handle(HttpChain(hs, None), ctx1, next, env);
      && c1.composed == Some(hs)
      && Handle(c1.(handlers := later), ctx2, next, env).1 == Run(hs, ctx2, next, env)
  {
  }
}

=== FILE: context.dfy ===
/**
 * The per-request context of the main server: request facts, the cached
 * request body, and the response fields handlers fill in, together with
 * the body reader and the response serialiser.
 */
module Context {
  import opened Wrappers
  import opened Text
  import opened Values
  import opened Dict
  import Errors

  /** What the context needs from outside: library conversions, the body limit, external error statuses. */
  datatype Env = Env(codec: Codec, bodyLimit: nat, statuses: Errors.ExternalStatuses)

  /**
   * The incoming request: method (`verb`) and URL verbatim, distinct
   * headers, whether the body has been read (`complete`) or the stream and
   * its socket destroyed, and the body chunks not yet read.
   */
  datatype Request = Request(
    verb: Option<string>,
    url: Option<string>,
    headers: HttpDict,
    complete: bool,
    destroyed: bool,
    chunks: seq<seq<byte>>)

  /**
   * The mutable per-request record. `responseHeaders` lists the entries of
   * the response header dictionary in iteration order; `headerSets` records
   * the `setResponseHeader` calls handlers make; `latency` is the time in
   * milliseconds measured when a handler's `finally` block runs.
   */
  datatype Context = Context(
    request: Request,
    path: string,
    query: HttpDict,
    requestBody: Value,
    status: int,
    responseHeaders: seq<(string, seq<string>)>,
    responseBody: Value,
    state: map<string, Value>,
    headerSets: seq<(string, Value)>,
    latency: nat)

  /** The base the request URL is resolved against: `http://` and the first `host` value. */
  function HostBase(req: Request): string
    requires "host" in req.headers
  {
    var hosts := req.headers["host"];
    "http://" + (if |hosts| > 0 then hosts[0] else "undefined")
  }

  /**
   * The context constructor: host from the first `host` header value, URL
   * resolved against it, query grouped; the response starts as a bodiless
   * 404 with no headers. Each of the three steps can throw.
   */
  function NewContext(req: Request, latency: nat, env: Env): (r: Result<Context, Error>)
    ensures "host" !in req.headers ==> r.Failure?
    ensures "host" in req.headers ==>
      var u := env.codec.parseUrl(req.url.GetOr(""), HostBase(req));
      && (u.None? ==> r.Failure?)
      && (u.Some? ==> (r.Success? <==> KeysOf(u.value.search) !! PrototypeNames))
      && (u.Some? && r.Failure? ==> r.error == PushError())
      && (r.Success? ==>
            && r.value.path == u.value.pathname
            && r.value.query.Keys == KeysOf(u.value.search)
            && forall k :: k in r.value.query ==> r.value.query[k] == ValuesOf(u.value.search, k))
    ensures r.Success? ==>
      && r.value.request == req && r.value.latency == latency
      && r.value.status == 404 && r.value.responseHeaders == [] && r.value.headerSets == []
      && r.value.requestBody == Undefined && r.value.responseBody == Undefined
      && r.value.state == map[]
  {
    if "host" !in req.headers then
      Failure(PlainError("TypeError", "Cannot read properties of undefined (reading '0')"))
    else
      match env.codec.parseUrl(req.url.GetOr(""), HostBase(req))
      case None => Failure(PlainError("TypeError", "Invalid URL"))
      case Some(u) =>
        match SearchParamsToDict(u.search)
        case Failure(e) => Failure(e)
        case Success(query) => Success(Context(req, u.pathname, query, Undefined, 404, [], Undefined, map[], [], latency))
  }

  /** `ctx.method`: the request method upper-cased, '' when absent. */
  function Method(ctx: Context): string {
    Upper(ctx.request.verb.GetOr(""))
  }

  /** The `body` getter reads the request body. */
  function GetBody(ctx: Context): Value {
    ctx.requestBody
  }

  /** The `body` setter writes the response body. */
  function SetBody(ctx: Context, v: Value): Context {
    ctx.(responseBody := v)
  }

  /** The getter and setter of `body` address different fields: setting never shows through the getter. */
  lemma BodyAccessorsAreAsymmetric(ctx: Context, v: Value)
    ensures GetBody(SetBody(ctx, v)) == GetBody(ctx)
    ensures SetBody(ctx, v).responseBody == v
    ensures SetBody(ctx, v).(responseBody := ctx.responseBody) == ctx
  {
  }

  /**
   * The value a `getRequestHeader(name)` call yields: the first value stored
   * under the name, undefined when there is none. Header names are stored
   * lower-cased, so `key` is the caller's name written in lower case.
   */
  function RequestHeader(ctx: Context, key: string): (v: Value)
    ensures v.Str? <==> key in ctx.request.headers && |ctx.request.headers[key]| > 0
    ensures v.Str? ==> v.s == ctx.request.headers[key][0]
    ensures !v.Str? ==> v == Undefined
  {
    if key in ctx.request.headers && |ctx.request.headers[key]| > 0 then Str(ctx.request.headers[key][0]) else Undefined
  }

  datatype BodyType = Auto | Raw | Json | TextType | Urlencoded

  /** The first content-type value, or 'application/x-octet-stream' when there is none. */
  function ContentType(ctx: Context): string {
    var h := ctx.request.headers;
    if "content-type" in h && |h["content-type"]| > 0 then h["content-type"][0] else "application/x-octet-stream"
  }

  /** The body type a content type names: unanchored tests for JSON, then text, then URL-encoded form, else raw. */
  function BodyTypeOf(ct: string): (t: BodyType)
    ensures t != Auto
    ensures t == Json <==> exists i :: OccursAt(ct, "application/json", i)
    ensures t == TextType <==> (forall i :: !OccursAt(ct, "application/json", i)) && exists i :: OccursAt(ct, "text/", i)
    ensures t == Urlencoded <==>
      && (forall i :: !OccursAt(ct, "application/json", i))
      && (forall i :: !OccursAt(ct, "text/", i))
      && (exists i :: OccursAt(ct, "application/x-www-form-urlencoded", i))
  {
    if Contains(ct, "application/json") then Json
    else if Contains(ct, "text/") then TextType
    else if Contains(ct, "application/x-www-form-urlencoded") then Urlencoded
    else Raw
  }

  /** `inferRequestBodyType`: the type named by the first content-type value, or by the octet-stream fallback. */
  function InferRequestBodyType(ctx: Context): (t: BodyType)
    ensures t != Auto
    ensures "content-type" in ctx.request.headers && |ctx.request.headers["content-type"]| > 0 ==>
      t == BodyTypeOf(ctx.request.headers["content-type"][0])
  {
    BodyTypeOf(ContentType(ctx))
  }

  /** The octet-stream fallback names none of the three patterns. */
  lemma OctetStreamIsRaw()
    ensures BodyTypeOf("application/x-octet-stream") == Raw
  {
    OctetStreamIsNotJson();
    OctetStreamIsNotText();
    assert !Contains("application/x-octet-stream", "application/x-www-form-urlencoded");
  }

  /** No window of the octet-stream type spells 'application/json'. */
  lemma OctetStreamIsNotJson()
    ensures !Contains("application/x-octet-stream", "application/json")
  {
    var ct := "application/x-octet-stream";
    forall i ensures !OccursAt(ct, "application/json", i) {
      if 0 <= i && i + 16 <= |ct| {
        assert ct[i..i + 16][12] == ct[i + 12] != 'j';
        assert "application/json"[12] == 'j';
      }
    }
  }

  /** No window of the octet-stream type spells 'text/'. */
  lemma OctetStreamIsNotText()
    ensures !Contains("application/x-octet-stream", "text/")
  {
    var ct := "application/x-octet-stream";
    forall i ensures !OccursAt(ct, "text/", i) {
      if 0 <= i && i + 5 <= |ct| {
        var w := ct[i..i + 5];
        assert w[0] == ct[i] && w[1] == ct[i + 1] && w[2] == ct[i + 2];
        if ct[i] == 't' && ct[i + 1] == 'e' {
          assert i == 16;
          assert ct[i + 2] != 'x';
        }
      }
    }
  }

  /** A request without a content-type header is read raw. */
  lemma MissingContentTypeIsRaw(ctx: Context)
    requires "content-type" !in ctx.request.headers
    ensures InferRequestBodyType(ctx) == Raw
  {
    OctetStreamIsRaw();
  }

  /** Total byte count of a list of chunks. */
  function TotalBytes(cs: seq<seq<byte>>): nat
    decreases |cs|
  {
    if |cs| == 0 then 0 else |cs[0]| + TotalBytes(cs[1..])
  }

  /** `Buffer.concat`. */
  function Concat(cs: seq<seq<byte>>): seq<byte>
    decreases |cs|
  {
    if |cs| == 0 then [] else cs[0] + Concat(cs[1..])
  }

  lemma {:induction false} TotalBytesAppend(a: seq<seq<byte>>, b: seq<seq<byte>>)
    ensures TotalBytes(a + b) == TotalBytes(a) + TotalBytes(b)
    ensures Concat(a + b) == Concat(a) + Concat(b)
    decreases |a|
  {
    if |a| > 0 {
      assert (a + b)[1..] == a[1..] + b;
      TotalBytesAppend(a[1..], b);
    } else {
      assert a + b == b;
    }
  }

  /**
   * The read loop: `bytesRead` is the running total, `kept` the chunks
   * accepted so far, `at` the index of the next chunk. The first chunk that
   * takes the total strictly above the limit stops the read.
   */
  function ReadLoop(rest: seq<seq<byte>>, limit: nat, bytesRead: nat, kept: seq<seq<byte>>, at: nat)
    : Result<seq<seq<byte>>, nat>
    decreases |rest|
  {
    if |rest| == 0 then Success(kept)
    else
      var total := bytesRead + |rest[0]|;
      if total > limit then Failure(at)
      else ReadLoop(rest[1..], limit, total, kept + [rest[0]], at + 1)
  }

  lemma {:induction false} ReadLoopSpec(rest: seq<seq<byte>>, limit: nat, bytesRead: nat, kept: seq<seq<byte>>)
    requires bytesRead == TotalBytes(kept) <= limit
    ensures var r := ReadLoop(rest, limit, bytesRead, kept, |kept|); var all := kept + rest;
      && (r.Success? <==> TotalBytes(all) <= limit)
      && (r.Success? ==> r.value == all)
      && (r.Failure? ==>
            && |kept| <= r.error < |all|
            && TotalBytes(all[..r.error]) <= limit < TotalBytes(all[..r.error + 1]))
    decreases |rest|
  {
    var all := kept + rest;
    if |rest| == 0 {
      assert all == kept;
    } else {
      var total := bytesRead + |rest[0]|;
      TotalBytesAppend(kept, [rest[0]]);
      assert TotalBytes([rest[0]]) == |rest[0]|;
      assert all[..|kept|] == kept;
      assert all[..|kept| + 1] == kept + [rest[0]];
      if total > limit {
        TotalBytesAppend(kept + [rest[0]], rest[1..]);
        assert all == (kept + [rest[0]]) + rest[1..];
      } else {
        assert all == (kept + [rest[0]]) + rest[1..];
        ReadLoopSpec(rest[1..], limit, total, kept + [rest[0]]);
      }
    }
  }

  /**
   * `readRequestBodyRaw`: the concatenated chunks, or the index of the chunk
   * at which the running total first exceeded the limit. A body of exactly
   * the limit is accepted, and nothing past the offending chunk is read.
   */
  function ReadRequestBodyRaw(chunks: seq<seq<byte>>, limit: nat): (r: Result<seq<byte>, nat>)
    ensures r.Success? <==> TotalBytes(chunks) <= limit
    ensures r.Success? ==> r.value == Concat(chunks)
    ensures r.Failure? ==>
      && r.error < |chunks|
      && TotalBytes(chunks[..r.error]) <= limit < TotalBytes(chunks[..r.error + 1])
  {
    ReadLoopSpec(chunks, limit, 0, []);
    assert [] + chunks == chunks;
    match ReadLoop(chunks, limit, 0, [], 0)
    case Success(cs) => Success(Concat(cs))
    case Failure(at) => Failure(at)
  }

  /**
   * Decode the raw bytes as the given (non-auto) type. A form whose keys
   * include an inherited property name throws while being grouped.
   */
  function DecodeBody(t: BodyType, raw: seq<byte>, codec: Codec): (r: Result<Value, Error>)
    ensures t == Urlencoded ==> var ps := codec.parseSearch(codec.decodeUtf8(raw));
      && (r.Success? <==> KeysOf(ps) !! PrototypeNames)
      && (r.Failure? ==> r.error == PushError())
      && (r.Success? ==> r.value.Obj? && r.value == DictValue(SearchParamsToDict(ps).value))
    ensures t == Raw || t == Auto ==> r == Success(Bytes(raw))
  {
    match t
    case Json => codec.parseJson(codec.decodeUtf8(raw))
    case TextType => Success(Str(codec.decodeUtf8(raw)))
    case Urlencoded =>
      (match SearchParamsToDict(codec.parseSearch(codec.decodeUtf8(raw)))
       case Failure(e) => Failure(e)
       case Success(d) => Success(DictValue(d)))
    case _ => Success(Bytes(raw))
  }

  /** The context after a body read, and what the read returned or threw. */
  datatype BodyRead = BodyRead(ctx: Context, result: Result<Value, Error>)

  /** What iterating a destroyed request stream that never ended throws: Node's premature-close error. */
  function PrematureCloseError(): Error {
    PlainError("Error", "Premature close")
  }

  /**
   * `readRequestBody(type)`: a complete request answers from the cache;
   * otherwise the whole body is read under the limit, decoded by the
   * explicit type or the inferred one, and cached. A decoding failure
   * still leaves the request complete, with the cached body unchanged.
   * The throw that abandons an oversized body leaves the `for await` loop,
   * which destroys the request stream and its socket; reading a destroyed
   * stream again throws a premature close.
   */
  function ReadRequestBody(ctx: Context, t: BodyType, env: Env): (r: BodyRead)
    ensures ctx.request.complete ==> r == BodyRead(ctx, Success(ctx.requestBody))
    ensures !ctx.request.complete && ctx.request.destroyed ==> r == BodyRead(ctx, Failure(PrematureCloseError()))
    ensures !ctx.request.complete && !ctx.request.destroyed && TotalBytes(ctx.request.chunks) > env.bodyLimit ==>
      r == BodyRead(ctx.(request := ctx.request.(destroyed := true)), Failure(Errors.RequestSizeExceededError(env.statuses)))
    ensures !ctx.request.complete && !ctx.request.destroyed && TotalBytes(ctx.request.chunks) <= env.bodyLimit ==>
      && r.ctx.request.complete
      && r.ctx.(request := ctx.request, requestBody := ctx.requestBody) == ctx
      && var actual := if t == Auto then InferRequestBodyType(ctx) else t;
         r.result == DecodeBody(actual, Concat(ctx.request.chunks), env.codec)
    ensures r.result.Success? ==> r.ctx.requestBody == r.result.value
    ensures r.result.Failure? ==> r.ctx.requestBody == ctx.requestBody
  {
    if ctx.request.complete then BodyRead(ctx, Success(ctx.requestBody))
    else if ctx.request.destroyed then BodyRead(ctx, Failure(PrematureCloseError()))
    else
      match ReadRequestBodyRaw(ctx.request.chunks, env.bodyLimit)
      case Failure(_) =>
        BodyRead(ctx.(request := ctx.request.(destroyed := true)), Failure(Errors.RequestSizeExceededError(env.statuses)))
      case Success(raw) =>
        var actual := if t == Auto then InferRequestBodyType(ctx) else t;
        var consumed := ctx.(request := ctx.request.(complete := true, chunks := []));
        match DecodeBody(actual, raw, env.codec)
        case Failure(e) => BodyRead(consumed, Failure(e))
        case Success(v) => BodyRead(consumed.(requestBody := v), Success(v))
  }

  /** Reading twice returns the same value and touches nothing the second time. */
  lemma ReadIsIdempotent(ctx: Context, t1: BodyType, t2: BodyType, env: Env)
    requires ReadRequestBody(ctx, t1, env).result.Success?
    ensures var first := ReadRequestBody(ctx, t1, env);
      ReadRequestBody(first.ctx, t2, env) == first
  {
  }

  /**
   * An oversized body is not re-readable: the first read throws
   * RequestSizeExceededError and destroys the request, and any later read
   * throws a premature close instead.
   */
  lemma OversizedBodyCannotBeReadAgain(ctx: Context, t1: BodyType, t2: BodyType, env: Env)
    requires !ctx.request.complete && !ctx.request.destroyed && TotalBytes(ctx.request.chunks) > env.bodyLimit
    ensures var first := ReadRequestBody(ctx, t1, env);
      && first.ctx.request.destroyed
      && first.result == Failure(Errors.RequestSizeExceededError(env.statuses))
      && ReadRequestBody(first.ctx, t2, env) == BodyRead(first.ctx, Failure(PrematureCloseError()))
  {
  }

  /** An explicit type decides the decoding on its own: the content-type header is not consulted. */
  lemma ExplicitTypeIgnoresContentType(ctx: Context, headers: HttpDict, t: BodyType, env: Env)
    requires t != Auto
    ensures var other := ctx.(request := ctx.request.(headers := headers));
      ReadRequestBody(other, t, env).result == ReadRequestBody(ctx, t, env).result
  {
  }

  /** A raw read hands back exactly the bytes received, in order. */
  lemma RawReadReturnsTheBytes(ctx: Context, env: Env)
    requires !ctx.request.complete && !ctx.request.destroyed && TotalBytes(ctx.request.chunks) <= env.bodyLimit
    ensures ReadRequestBody(ctx, Raw, env).result == Success(Bytes(Concat(ctx.request.chunks)))
  {
  }

  /** A response header value as Node's `setHeader` stores it. */
  datatype HeaderVal = List(values: seq<string>) | Single(value: string) | Length(n: nat)

  /** What has gone out on the wire: bytes written, a piped stream, or no body. */
  datatype Payload = NoPayload | Sent(bytes: seq<byte>) | Piped(stream: nat)

  /** The Node response object: whether the head went out, status, headers by lower-case name, payload. */
  datatype Wire = Wire(headersSent: bool, status: int, headers: map<string, HeaderVal>, payload: Payload)

  /** A response nothing has been done to yet. */
  function FreshWire(): Wire {
    Wire(false, 200, map[], NoPayload)
  }

  /**
   * Response header dictionary entries, as `setHeader` stores them: by
   * lower-cased name, later entries winning. Node keeps them on an object
   * without a prototype, so every name is stored, `__proto__` included.
   */
  function ExplicitHeaders(entries: seq<(string, seq<string>)>): (h: map<string, HeaderVal>)
    ensures h.Keys == set i | 0 <= i < |entries| :: Lower(entries[i].0)
    ensures forall k :: k in h ==> h[k].List?
  {
    var es := seq(|entries|, i requires 0 <= i < |entries| => (entries[i].0, Many(entries[i].1)));
    var d := StoreLowerCased(es, {});
    assert LowerNames(es) == set i | 0 <= i < |entries| :: Lower(entries[i].0) by {
      assert forall i :: 0 <= i < |es| ==> es[i].0 == entries[i].0;
    }
    map k | k in d :: List(d[k])
  }

  /** Status codes whose responses carry no body. */
  const EmptyStatuses: set<int> := {204, 205, 304}

  /** The response is sent without a body: an empty status, a HEAD request (verbatim method), or a null body. */
  predicate IsEmptyResponse(ctx: Context) {
    ctx.status in EmptyStatuses || ctx.request.verb == Some("HEAD") || Nullish(ctx.responseBody)
  }

  /**
   * `inferResponseBody`: a buffer goes out as it is, a string as UTF-8 text,
   * anything else as UTF-8 JSON. JSON.stringify(undefined) yields no string,
   * which `Buffer.from` rejects.
   */
  function InferResponseBody(body: Value, codec: Codec): (r: Result<(string, seq<byte>), Error>)
    ensures r.Failure? <==> body.Undefined?
    ensures body.Bytes? ==> r == Success(("application/x-octet-stream", body.bytes))
    ensures body.Str? ==> r == Success(("text/plain", codec.encodeUtf8(body.s)))
    ensures r.Success? && !body.Bytes? && !body.Str? ==>
      r.value == ("application/json", codec.encodeUtf8(codec.stringify(body)))
  {
    match body
    case Bytes(bs) => Success(("application/x-octet-stream", bs))
    case Str(s) => Success(("text/plain", codec.encodeUtf8(s)))
    case Undefined => Failure(PlainError("TypeError", "The first argument must be of type string"))
    case _ => Success(("application/json", codec.encodeUtf8(codec.stringify(body))))
  }

  /**
   * What the response inference sends reads back as the body it came from:
   * the request side's decoding, driven by the content type chosen, returns
   * the original value whenever the UTF-8 and JSON conversions invert each
   * other on it.
   */
  lemma ResponseBodyReadsBack(body: Value, codec: Codec)
    requires !body.Undefined?
    requires body.Str? ==> codec.decodeUtf8(codec.encodeUtf8(body.s)) == body.s
    requires !body.Str? && !body.Bytes? ==>
      && codec.decodeUtf8(codec.encodeUtf8(codec.stringify(body))) == codec.stringify(body)
      && codec.parseJson(codec.stringify(body)) == Success(body)
    ensures var r := InferResponseBody(body, codec);
      r.Success? && DecodeBody(BodyTypeOf(r.value.0), r.value.1, codec) == Success(body)
  {
    if body.Bytes? {
      OctetStreamIsRaw();
    } else if body.Str? {
      assert OccursAt("text/plain", "text/", 0);
      assert BodyTypeOf("text/plain") == TextType;
    } else {
      assert OccursAt("application/json", "application/json", 0);
    }
  }

  /** Node accepts a status in `writeHead` only within 100..999. */
  predicate ValidStatus(status: int) {
    100 <= status <= 999
  }

  /** The RangeError `writeHead` throws for a status outside 100..999. */
  function InvalidStatusError(status: int): Error {
    PlainError("RangeError", "Invalid status code: " + IntToString(status))
  }

  /** The error `writeHead` throws once the head has gone out. */
  function HeadersSentError(): Error {
    PlainError("Error", "Cannot write headers after they are sent to the client")
  }

  /**
   * `res.writeHead(status)`: a head already sent or a status outside
   * 100..999 throws and leaves the response as it was; otherwise the head
   * goes out with that status.
   */
  function WriteHead(res: Wire, status: int): (r: Result<Wire, Error>)
    ensures r.Success? <==> !res.headersSent && ValidStatus(status)
    ensures r.Success? ==> r.value == res.(headersSent := true, status := status)
    ensures !res.headersSent && !ValidStatus(status) ==> r == Failure(InvalidStatusError(status))
  {
    if res.headersSent then Failure(HeadersSentError())
    else if !ValidStatus(status) then Failure(InvalidStatusError(status))
    else Success(res.(headersSent := true, status := status))
  }

  /**
   * The response as `sendResponse` leaves it just before `writeHead`: the
   * explicit headers applied, then the length and encoding removed (empty
   * responses) or the content type and true length set (inferred bodies).
   */
  function Staged(ctx: Context, res: Wire, env: Env): (w: Wire)
    ensures w.headersSent == res.headersSent && w.status == res.status && w.payload == res.payload
  {
    var h := res.headers + ExplicitHeaders(ctx.responseHeaders);
    if IsEmptyResponse(ctx) then res.(headers := h - {"content-length", "content-encoding"})
    else if ctx.responseBody.Stream? then res.(headers := h)
    else
      match InferResponseBody(ctx.responseBody, env.codec)
      case Failure(_) => res.(headers := h)
      case Success(inferred) =>
        var contentType := if "content-type" in h then h["content-type"] else Single(inferred.0);
        res.(headers := h["content-type" := contentType]["content-length" := Length(|inferred.1|)])
  }

  /** What follows the head: nothing, the piped stream, or the inferred bytes. */
  function BodyPayload(ctx: Context, env: Env): Payload {
    if IsEmptyResponse(ctx) then NoPayload
    else if ctx.responseBody.Stream? then Piped(ctx.responseBody.id)
    else
      match InferResponseBody(ctx.responseBody, env.codec)
      case Failure(_) => NoPayload
      case Success(inferred) => Sent(inferred.1)
  }

  /**
   * `sendResponse`: refuses a second send; otherwise applies the explicit
   * headers and writes the head with `ctx.status`, then either nothing, the
   * piped stream, or the inferred buffer with its content type (an explicit
   * one wins) and its true length. A status `writeHead` rejects makes the
   * call throw with the headers staged but nothing sent.
   */
  function SendResponse(ctx: Context, res: Wire, env: Env): (r: Result<Wire, Error>)
    ensures res.headersSent ==> r == Failure(Errors.InvalidStateError(env.statuses, "Headers already sent"))
    ensures !res.headersSent ==> (r.Success? <==> ValidStatus(ctx.status))
    ensures !res.headersSent && !ValidStatus(ctx.status) ==> r == Failure(InvalidStatusError(ctx.status))
    ensures r.Success? ==>
      && r.value.headersSent && r.value.status == ctx.status
      && r.value.headers == Staged(ctx, res, env).headers
    ensures r.Success? && IsEmptyResponse(ctx) ==>
      && "content-length" !in r.value.headers && "content-encoding" !in r.value.headers
      && r.value.payload == NoPayload
    ensures r.Success? && !IsEmptyResponse(ctx) && ctx.responseBody.Stream? ==>
      && r.value.payload == Piped(ctx.responseBody.id)
      && r.value.headers == res.headers + ExplicitHeaders(ctx.responseHeaders)
    ensures r.Success? && !IsEmptyResponse(ctx) && !ctx.responseBody.Stream? ==>
      && r.value.payload.Sent?
      && "content-length" in r.value.headers && "content-type" in r.value.headers
      && r.value.headers["content-length"] == Length(|r.value.payload.bytes|)
      && var given := res.headers + ExplicitHeaders(ctx.responseHeaders);
         var inferred := InferResponseBody(ctx.responseBody, env.codec);
         && inferred.Success?
         && r.value.payload.bytes == inferred.value.1
         && r.value.headers["content-type"]
              == (if "content-type" in given then given["content-type"] else Single(inferred.value.0))
    ensures r.Success? ==>
      forall k :: (k in ExplicitHeaders(ctx.responseHeaders)
                   && k != "content-length" && k != "content-encoding" && k != "content-type")
        ==> k in r.value.headers && r.value.headers[k] == ExplicitHeaders(ctx.responseHeaders)[k]
  {
    if res.headersSent then Failure(Errors.InvalidStateError(env.statuses, "Headers already sent"))
    else
      match WriteHead(Staged(ctx, res, env), ctx.status)
      case Failure(e) => Failure(e)
      case Success(w) => Success(w.(payload := BodyPayload(ctx, env)))
  }

  /** A second send on the same response fails with InvalidStateError. */
  lemma SecondSendFails(ctx: Context, ctx2: Context, res: Wire, env: Env)
    requires !res.headersSent && ValidStatus(ctx.status)
    ensures var first := SendResponse(ctx, res, env);
      first.Success? && SendResponse(ctx2, first.value, env).Failure?
      && SendResponse(ctx2, first.value, env).error.name == "InvalidStateError"
  {
  }

  /** An explicitly set Content-Length is never trusted: the sent value is the buffer's length. */
  lemma ContentLengthIsComputed(ctx: Context, n: nat, env: Env)
    requires !IsEmptyResponse(ctx) && !ctx.responseBody.Stream? && ValidStatus(ctx.status)
    requires ctx.responseHeaders == [("Content-Length", [IntToString(n)])]
    ensures var r := SendResponse(ctx, FreshWire(), env);
      r.Success? && r.value.headers["content-length"] == Length(|r.value.payload.bytes|)
  {
  }

  /** A buffer body of five bytes goes out verbatim with content length 5. */
  lemma BinaryBodyExample(ctx: Context, env: Env)
    requires ctx.status == 200 && ctx.request.verb == Some("GET") && ctx.responseHeaders == []
    requires ctx.responseBody == Bytes([0, 1, 2, 3, 4])
    ensures var r := SendResponse(ctx, FreshWire(), env);
      && r.Success? && r.value.status == 200
      && r.value.payload == Sent([0, 1, 2, 3, 4])
      && r.value.headers["content-length"] == Length(5)
      && r.value.headers["content-type"] == Single("application/x-octet-stream")
  {
  }

  /** A context nobody handled goes out as a bodiless 404. */
  lemma UnhandledContextSends404(req: Request, latency: nat, env: Env)
    requires NewContext(req, latency, env).Success?
    ensures var r := SendResponse(NewContext(req, latency, env).value, FreshWire(), env);
      r.Success? && r.value.status == 404 && r.value.payload == NoPayload
  {
  }
}

=== FILE: cors.dfy ===
/**
 * The CORS handler in its two variants: the configurable one (defaults
 * from configuration, exposed headers taken verbatim) and the hard-coded
 * middleware (defaults in code, exposed headers joined with ',').
 */
module Cors {
  import opened Wrappers
  import opened Text
  import opened Values
  import opened Context
  import opened Flow

  /** The configured defaults: exposed headers, max age and credentials flag. */
  datatype CorsConfig = CorsConfig(exposeHeaders: Value, maxAge: Value, allowCredentials: Value)

  /** The configuration defaults: 'Content-Length,Date', 3600, true. */
  const DefaultConfig := CorsConfig(Str("Content-Length,Date"), Num(3600), Bool(true))

  /** The methods a preflight is answered with when the state names none. */
  const DefaultMethods := StrArr(["GET", "HEAD", "POST", "PUT", "DELETE"])

  /** Configurable handler, or the middleware with hard-coded defaults. */
  datatype Variant = Configured(config: CorsConfig) | HardCoded

  function StateValue(ctx: Context, key: string): Value {
    if key in ctx.state then ctx.state[key] else Undefined
  }

  /** `state.corsOrigin ?? getRequestHeader('Origin')`. */
  function Origin(ctx: Context): Value {
    Coalesce(StateValue(ctx, "corsOrigin"), RequestHeader(ctx, "origin"))
  }

  /** An OPTIONS request that names the method it wants to use. */
  predicate IsPreflight(ctx: Context) {
    Method(ctx) == "OPTIONS" && Truthy(RequestHeader(ctx, "access-control-request-method"))
  }

  function MaxAge(v: Variant, ctx: Context): Value {
    Coalesce(StateValue(ctx, "corsMaxAge"), if v.Configured? then v.config.maxAge else Num(3600))
  }

  function AllowCredentials(v: Variant, ctx: Context): Value {
    Coalesce(StateValue(ctx, "corsAllowCredentials"), if v.Configured? then v.config.allowCredentials else Bool(true))
  }

  /**
   * The value passed as Access-Control-Expose-Headers: the configurable
   * handler passes it on as it is; the middleware calls `join(',')` on it,
   * which throws on anything but an array.
   */
  function ExposeHeaders(v: Variant, ctx: Context, decode: seq<byte> -> string): (r: Result<Value, Error>)
    ensures v.Configured? ==> r == Success(Coalesce(StateValue(ctx, "corsExposeHeaders"), v.config.exposeHeaders))
    ensures v.HardCoded? ==>
      var joined := JoinValue(Coalesce(StateValue(ctx, "corsExposeHeaders"), StrArr(["Content-Length", "Date"])), ",", decode);
      && (r.Success? <==> joined.Success?)
      && (r.Success? ==> r.value == Str(joined.value))
      && (r.Failure? ==> r.error == joined.error)
    ensures "corsExposeHeaders" !in ctx.state ==>
      r == Success(if v.Configured? then v.config.exposeHeaders else Str("Content-Length,Date"))
  {
    match v
    case Configured(config) => Success(Coalesce(StateValue(ctx, "corsExposeHeaders"), config.exposeHeaders))
    case HardCoded =>
      var given := Coalesce(StateValue(ctx, "corsExposeHeaders"), StrArr(["Content-Length", "Date"]));
      JoinStringArray(["Content-Length", "Date"], ",", decode);
      assert JoinStrings(["Content-Length", "Date"], ",") == "Content-Length,Date" by {
        assert ["Content-Length", "Date"][1..] == ["Date"];
      }
      match JoinValue(given, ",", decode)
      case Success(s) => Success(Str(s))
      case Failure(e) => Failure(e)
  }

  const Vary: (string, Value) := ("Vary", Str("Origin"))

  /** Allow-Origin and Max-Age, recorded before the exposed headers are computed. */
  function OriginHeaders(v: Variant, ctx: Context, decode: seq<byte> -> string): seq<(string, Value)> {
    [("Access-Control-Allow-Origin", Origin(ctx)),
     ("Access-Control-Max-Age", Str(ToJsString(MaxAge(v, ctx), decode)))]
  }

  /** Appends `setResponseHeader` calls to the log, in order. */
  function Record(ctx: Context, hs: seq<(string, Value)>): (c: Context)
    ensures |c.headerSets| == |ctx.headerSets| + |hs| && c.headerSets[..|ctx.headerSets|] == ctx.headerSets
    ensures forall i :: 0 <= i < |hs| ==> c.headerSets[|ctx.headerSets| + i] == hs[i]
    ensures c.(headerSets := ctx.headerSets) == ctx
  {
    ctx.(headerSets := ctx.headerSets + hs)
  }

  /** The preflight answer: Allow-Methods and Allow-Headers after `all`, then status 204; `next` is not called. */
  function Answer(ctx: Context, all: seq<(string, Value)>, decode: seq<byte> -> string): (r: Step)
    ensures r.Stop? && r.events == []
    ensures |r.ctx.headerSets| >= |ctx.headerSets| + |all|
    ensures r.ctx.headerSets[..|ctx.headerSets| + |all|] == ctx.headerSets + all
    ensures var methods := JoinValue(Coalesce(StateValue(ctx, "corsAllowedMethods"), DefaultMethods), ",", decode);
      var n := |ctx.headerSets| + |all|;
      && (r.outcome.Ok? <==> methods.Success?)
      && (r.outcome.Throw? ==> r.ctx == Record(ctx, all) && r.outcome.error == methods.error)
      && (r.outcome.Ok? ==>
            && |r.ctx.headerSets| == n + 2
            && r.ctx.headerSets[n] == ("Access-Control-Allow-Methods", Str(methods.value))
            && r.ctx.headerSets[n + 1] == ("Access-Control-Allow-Headers", RequestHeader(ctx, "access-control-request-headers"))
            && r.ctx.status == 204)
    ensures r.ctx.(headerSets := ctx.headerSets, status := ctx.status) == ctx
  {
    var allowedMethods := Coalesce(StateValue(ctx, "corsAllowedMethods"), DefaultMethods);
    var allowedHeaders := RequestHeader(ctx, "access-control-request-headers");
    match JoinValue(allowedMethods, ",", decode)
    case Failure(e) => Stop([], Record(ctx, all), Throw(e))
    case Success(methods) =>
      var answered := all + [
        ("Access-Control-Allow-Methods", Str(methods)),
        ("Access-Control-Allow-Headers", allowedHeaders)];
      assert Record(ctx, answered).headerSets[..|ctx.headerSets| + |all|] == ctx.headerSets + all;
      Stop([], Record(ctx, answered).(status := 204), Ok)
  }

  /** The four headers recorded once there is an origin. */
  function Announced(v: Variant, ctx: Context, expose: Value, decode: seq<byte> -> string): seq<(string, Value)> {
    [Vary] + OriginHeaders(v, ctx, decode) + [
      ("Access-Control-Expose-Headers", expose),
      ("Access-Control-Allow-Credentials", Str(ToJsString(AllowCredentials(v, ctx), decode)))]
  }

  /**
   * The handler up to `next`. It always records `Vary: Origin` first; without
   * an origin it calls `next` and nothing else. With one it records the four
   * Access-Control headers; a preflight is then answered with 204 and the
   * allowed methods and headers, without calling `next`.
   */
  function Before(v: Variant, ctx: Context, decode: seq<byte> -> string): (r: Step)
    ensures r.events == []
    ensures var n := |ctx.headerSets|;
      |r.ctx.headerSets| > n && r.ctx.headerSets[..n] == ctx.headerSets && r.ctx.headerSets[n] == Vary
    ensures !Truthy(Origin(ctx)) ==> r == Continue([], Record(ctx, [Vary]), Plain)
    ensures r.Continue? <==> !Truthy(Origin(ctx)) || (!IsPreflight(ctx) && ExposeHeaders(v, ctx, decode).Success?)
    ensures r.Continue? ==> r.resume == Plain && r.ctx.status == ctx.status
    ensures r.Stop? && r.outcome.Ok? ==> IsPreflight(ctx) && r.ctx.status == 204
    ensures Truthy(Origin(ctx)) && ExposeHeaders(v, ctx, decode).Failure? ==>
      r == Stop([], Record(ctx, [Vary] + OriginHeaders(v, ctx, decode)), Throw(ExposeHeaders(v, ctx, decode).error))
    ensures Truthy(Origin(ctx)) && ExposeHeaders(v, ctx, decode).Success? ==>
      var n := |ctx.headerSets|; var hs := r.ctx.headerSets;
      && |hs| >= n + 5
      && hs[n + 1] == ("Access-Control-Allow-Origin", Origin(ctx))
      && hs[n + 2] == ("Access-Control-Max-Age", Str(ToJsString(MaxAge(v, ctx), decode)))
      && hs[n + 3] == ("Access-Control-Expose-Headers", ExposeHeaders(v, ctx, decode).value)
      && hs[n + 4] == ("Access-Control-Allow-Credentials", Str(ToJsString(AllowCredentials(v, ctx), decode)))
      && (IsPreflight(ctx) ==> r == Answer(ctx, hs[n..n + 5], decode))
    ensures r.ctx.(headerSets := ctx.headerSets, status := ctx.status) == ctx
  {
    if !Truthy(Origin(ctx)) then Continue([], Record(ctx, [Vary]), Plain)
    else
      match ExposeHeaders(v, ctx, decode)
      case Failure(e) => Stop([], Record(ctx, [Vary] + OriginHeaders(v, ctx, decode)), Throw(e))
      case Success(expose) =>
        var all := Announced(v, ctx, expose, decode);
        if !IsPreflight(ctx) then Continue([], Record(ctx, all), Plain)
        else
          AnswerKeepsAnnounced(ctx, all, decode);
          Answer(ctx, all, decode)
  }

  /** The preflight answer keeps the five recorded headers in place, right after the earlier ones. */
  lemma AnswerKeepsAnnounced(ctx: Context, all: seq<(string, Value)>, decode: seq<byte> -> string)
    requires |all| == 5
    ensures var hs := Answer(ctx, all, decode).ctx.headerSets; var n := |ctx.headerSets|;
      && |hs| >= n + 5 && hs[n..n + 5] == all
      && forall i :: 0 <= i < 5 ==> hs[n + i] == all[i]
  {
    var hs := Answer(ctx, all, decode).ctx.headerSets;
    var n := |ctx.headerSets|;
    assert hs[..n + 5] == ctx.headerSets + all;
    forall i | 0 <= i < 5 ensures hs[n + i] == all[i] {
      assert hs[n + i] == hs[..n + 5][n + i];
    }
  }

  /** With an origin, the handler echoes it in Allow-Origin and records Max-Age right after Vary. */
  lemma OriginIsEchoed(v: Variant, ctx: Context, decode: seq<byte> -> string)
    requires Truthy(Origin(ctx))
    ensures var hs := Before(v, ctx, decode).ctx.headerSets; var n := |ctx.headerSets|;
      && |hs| >= n + 3
      && hs[n + 1] == ("Access-Control-Allow-Origin", Origin(ctx))
      && hs[n + 2] == ("Access-Control-Max-Age", Str(ToJsString(MaxAge(v, ctx), decode)))
  {
  }

  /**
   * Each state entry, when set to a non-nullish value, overrides its default
   * in the headers recorded; when absent, the variant's default is used.
   */
  lemma StateOverridesDefaults(v: Variant, ctx: Context, decode: seq<byte> -> string)
    requires Truthy(Origin(ctx)) && ExposeHeaders(v, ctx, decode).Success?
    ensures var hs := Before(v, ctx, decode).ctx.headerSets; var n := |ctx.headerSets|;
      && (Overridden(ctx, "corsOrigin") ==> hs[n + 1].1 == ctx.state["corsOrigin"])
      && (Overridden(ctx, "corsMaxAge") ==> hs[n + 2].1 == Str(ToJsString(ctx.state["corsMaxAge"], decode)))
      && ("corsMaxAge" !in ctx.state ==>
            hs[n + 2].1 == Str(ToJsString(if v.Configured? then v.config.maxAge else Num(3600), decode)))
      && (v.Configured? && Overridden(ctx, "corsExposeHeaders") ==> hs[n + 3].1 == ctx.state["corsExposeHeaders"])
      && (Overridden(ctx, "corsAllowCredentials") ==>
            hs[n + 4].1 == Str(ToJsString(ctx.state["corsAllowCredentials"], decode)))
      && ("corsAllowCredentials" !in ctx.state ==>
            hs[n + 4].1 == Str(ToJsString(if v.Configured? then v.config.allowCredentials else Bool(true), decode)))
  {
  }

  /** The state sets `key` to a value that is neither null nor undefined. */
  predicate Overridden(ctx: Context, key: string) {
    key in ctx.state && !Nullish(ctx.state[key])
  }

  lemma DefaultMethodsJoined(decode: seq<byte> -> string)
    ensures JoinValue(DefaultMethods, ",", decode) == Success("GET,HEAD,POST,PUT,DELETE")
  {
    JoinStringArray(["GET", "HEAD", "POST", "PUT", "DELETE"], ",", decode);
    DefaultMethodsText();
  }

  lemma DefaultMethodsText()
    ensures JoinStrings(["GET", "HEAD", "POST", "PUT", "DELETE"], ",") == "GET,HEAD,POST,PUT,DELETE"
  {
    var ms := ["GET", "HEAD", "POST", "PUT", "DELETE"];
    assert ms[1..] == ["HEAD", "POST", "PUT", "DELETE"];
    assert ms[1..][1..] == ["POST", "PUT", "DELETE"];
    assert ms[1..][1..][1..] == ["PUT", "DELETE"];
    assert ms[1..][1..][1..][1..] == ["DELETE"];
  }

  /** A preflight with an origin and no state overrides is answered with the default method list. */
  lemma PreflightDefaults(v: Variant, ctx: Context, decode: seq<byte> -> string)
    requires Truthy(Origin(ctx)) && IsPreflight(ctx)
    requires "corsAllowedMethods" !in ctx.state && "corsExposeHeaders" !in ctx.state
    ensures var r := Before(v, ctx, decode); var n := |ctx.headerSets|;
      && r.Stop? && r.outcome.Ok? && r.ctx.status == 204
      && |r.ctx.headerSets| == n + 7
      && r.ctx.headerSets[n + 5] == ("Access-Control-Allow-Methods", Str("GET,HEAD,POST,PUT,DELETE"))
  {
    DefaultMethodsJoined(decode);
  }

  /**
   * With no exposed-header override the two variants record the same
   * headers and take the same branch: the hard-coded join of
   * ['Content-Length', 'Date'] is the configured default string.
   */
  lemma VariantsAgreeOnDefaults(ctx: Context, decode: seq<byte> -> string)
    requires "corsExposeHeaders" !in ctx.state
    ensures Before(Configured(DefaultConfig), ctx, decode) == Before(HardCoded, ctx, decode)
  {
  }

  /**
   * The variants part ways on an array override of the exposed headers:
   * one records the array as it is, the other records it joined.
   */
  lemma VariantsDivergeOnArrays(ctx: Context, decode: seq<byte> -> string, c: CorsConfig)
    requires "corsOrigin" in ctx.state && Truthy(ctx.state["corsOrigin"]) && !IsPreflight(ctx)
    ensures var s := ctx.(state := ctx.state["corsExposeHeaders" := StrArr(["A", "B"])]); var n := |ctx.headerSets|;
      && Before(Configured(c), s, decode).ctx.headerSets[n + 3] == ("Access-Control-Expose-Headers", StrArr(["A", "B"]))
      && Before(HardCoded, s, decode).ctx.headerSets[n + 3] == ("Access-Control-Expose-Headers", Str("A,B"))
  {
    var s := ctx.(state := ctx.state["corsExposeHeaders" := StrArr(["A", "B"])]);
    assert Origin(s) == ctx.state["corsOrigin"] && Method(s) == Method(ctx);
    JoinStringArray(["A", "B"], ",", decode);
    assert JoinStrings(["A", "B"], ",") == "A,B" by {
      assert ["A", "B"][1..] == ["B"];
    }
  }

  /** A string override of the exposed headers is passed on by one variant and makes the other throw. */
  lemma VariantsDivergeOnStrings(ctx: Context, decode: seq<byte> -> string, c: CorsConfig)
    requires "corsOrigin" in ctx.state && Truthy(ctx.state["corsOrigin"]) && !IsPreflight(ctx)
    ensures var t := ctx.(state := ctx.state["corsExposeHeaders" := Str("A,B")]);
      && Before(Configured(c), t, decode).Continue?
      && Before(HardCoded, t, decode).Stop? && Before(HardCoded, t, decode).outcome.Throw?
  {
    var t := ctx.(state := ctx.state["corsExposeHeaders" := Str("A,B")]);
    assert Origin(t) == ctx.state["corsOrigin"] && Method(t) == Method(ctx);
  }
}

=== FILE: dict.dfy ===
/**
 * Multi-valued dictionaries (`HttpDict`): request headers normalised to
 * lower-case keys, and querystring pairs grouped by key.
 */
module Dict {
  import opened Wrappers
  import opened Text
  import opened Values

  type HttpDict = map<string, seq<string>>

  /** A header value as Node reports it: a string, an array of strings, or undefined. */
  datatype HeaderInput = One(value: string) | Many(values: seq<string>) | Missing

  /** Arrays are kept as they are, a string becomes a one-element array, undefined becomes ['']. */
  function Normalise(v: HeaderInput): seq<string> {
    match v
    case One(s) => [s]
    case Many(ss) => ss
    case Missing => [""]
  }

  /** No later entry of `es` lower-cases to the same key as entry `i`. */
  ghost predicate LastOfItsKey(es: seq<(string, HeaderInput)>, i: int)
    requires 0 <= i < |es|
  {
    forall j :: i < j < |es| ==> Lower(es[j].0) != Lower(es[i].0)
  }

  /** The lower-cased names of the entries. */
  function LowerNames(es: seq<(string, HeaderInput)>): set<string> {
    set i | 0 <= i < |es| :: Lower(es[i].0)
  }

  /** The name whose assignment on a plain object replaces its prototype instead of storing a key. */
  const ProtoKey := "__proto__"

  /**
   * The entries stored under their lower-cased names, visited in iteration
   * order, so a later entry overwrites an earlier one that differs from it
   * only in case. Assigning a name in `inert` stores nothing.
   */
  function StoreLowerCased(es: seq<(string, HeaderInput)>, inert: set<string>): (d: HttpDict)
    ensures d.Keys == LowerNames(es) - inert
    ensures forall i :: 0 <= i < |es| && LastOfItsKey(es, i) && Lower(es[i].0) !in inert ==>
      d[Lower(es[i].0)] == Normalise(es[i].1)
    decreases |es|
  {
    if |es| == 0 then map[]
    else
      var last := |es| - 1;
      var init := es[..last];
      var d0 := StoreLowerCased(init, inert);
      var d := if Lower(es[last].0) in inert then d0 else d0[Lower(es[last].0) := Normalise(es[last].1)];
      LowerNamesSnoc(es);
      assert es == init + [es[last]];
      LastWinsStep(init, es[last], d0, inert);
      d
  }

  /**
   * `headersToDict`: the entries stored on a plain object under their
   * lower-cased names. A `__proto__` entry goes to the prototype setter and
   * leaves no key of its own.
   */
  function HeadersToDict(es: seq<(string, HeaderInput)>): (d: HttpDict)
    ensures d.Keys == LowerNames(es) - {ProtoKey}
    ensures ProtoKey !in d
    ensures forall i :: 0 <= i < |es| && LastOfItsKey(es, i) && Lower(es[i].0) != ProtoKey ==>
      d[Lower(es[i].0)] == Normalise(es[i].1)
  {
    StoreLowerCased(es, {ProtoKey})
  }

  lemma LowerNamesSnoc(es: seq<(string, HeaderInput)>)
    requires |es| > 0
    ensures LowerNames(es) == LowerNames(es[..|es| - 1]) + {Lower(es[|es| - 1].0)}
  {
    var init := es[..|es| - 1];
    assert forall i :: 0 <= i < |init| ==> init[i] == es[i];
    forall x | x in LowerNames(es) ensures x in LowerNames(init) + {Lower(es[|es| - 1].0)} {
      var i :| 0 <= i < |es| && Lower(es[i].0) == x;
      if i < |init| {
        assert Lower(init[i].0) == x;
      }
    }
    forall x | x in LowerNames(init) ensures x in LowerNames(es) {
      var i :| 0 <= i < |init| && Lower(init[i].0) == x;
      assert Lower(es[i].0) == x;
    }
  }

  lemma LastWinsStep(init: seq<(string, HeaderInput)>, p: (string, HeaderInput), d0: HttpDict, inert: set<string>)
    requires d0.Keys == LowerNames(init) - inert
    requires forall i :: 0 <= i < |init| && LastOfItsKey(init, i) && Lower(init[i].0) !in inert ==>
      d0[Lower(init[i].0)] == Normalise(init[i].1)
    ensures var es := init + [p];
      var d := if Lower(p.0) in inert then d0 else d0[Lower(p.0) := Normalise(p.1)];
      forall i :: 0 <= i < |es| && LastOfItsKey(es, i) && Lower(es[i].0) !in inert ==>
        Lower(es[i].0) in d && d[Lower(es[i].0)] == Normalise(es[i].1)
  {
    var es := init + [p];
    var d := if Lower(p.0) in inert then d0 else d0[Lower(p.0) := Normalise(p.1)];
    forall i | 0 <= i < |es| && LastOfItsKey(es, i) && Lower(es[i].0) !in inert
      ensures Lower(es[i].0) in d && d[Lower(es[i].0)] == Normalise(es[i].1)
    {
      if i < |init| {
        assert es[i] == init[i];
        assert LastOfItsKey(init, i) by {
          forall j | i < j < |init| ensures Lower(init[j].0) != Lower(init[i].0) {
            assert init[j] == es[j];
          }
        }
        assert Lower(es[|init|].0) != Lower(es[i].0);
      }
    }
  }

  /** Every value `headersToDict` stores is the normalised value of some input entry. */
  lemma {:induction false} HeadersValuesComeFromInput(es: seq<(string, HeaderInput)>, k: string)
    requires k in LowerNames(es) && k != ProtoKey
    ensures k in HeadersToDict(es)
    ensures exists i :: 0 <= i < |es| && Lower(es[i].0) == k && HeadersToDict(es)[k] == Normalise(es[i].1)
    decreases |es|
  {
    var last := |es| - 1;
    if Lower(es[last].0) == k {
      assert Lower(es[last].0) == k && HeadersToDict(es)[k] == Normalise(es[last].1);
    } else {
      var init := es[..last];
      assert forall i :: 0 <= i < |init| ==> init[i] == es[i];
      LowerNamesSnoc(es);
      HeadersValuesComeFromInput(init, k);
      var i :| 0 <= i < |init| && Lower(init[i].0) == k && HeadersToDict(init)[k] == Normalise(init[i].1);
      assert Lower(es[i].0) == k && HeadersToDict(es)[k] == Normalise(es[i].1);
    }
  }

  /**
   * Two names differing only in case collapse to one lower-case key holding
   * the later value, unless that key is `__proto__`, which stores nothing.
   */
  lemma CaseVariantsCollapse(a: string, b: string, va: HeaderInput, vb: HeaderInput)
    requires Lower(a) == Lower(b)
    ensures HeadersToDict([(a, va), (b, vb)])
         == if Lower(b) == ProtoKey then map[] else map[Lower(b) := Normalise(vb)]
  {
    var es := [(a, va), (b, vb)];
    var d := HeadersToDict(es);
    assert LowerNames(es) == {Lower(a), Lower(b)} by {
      assert es[0].0 == a && es[1].0 == b;
    }
    assert LastOfItsKey(es, 1);
  }

  /** A `__proto__` header among others adds no key, and the others are stored as if it were absent. */
  lemma {:induction false} ProtoHeaderStoresNothing(es: seq<(string, HeaderInput)>, v: HeaderInput)
    ensures HeadersToDict(es + [(ProtoKey, v)]) == HeadersToDict(es)
  {
    var e := (ProtoKey, v);
    LowerKeepsLowerCase(ProtoKey);
    assert (es + [e])[..|es|] == es;
  }

  /** The keys of the query pairs. */
  function KeysOf(ps: seq<(string, string)>): set<string> {
    set i | 0 <= i < |ps| :: ps[i].0
  }

  /** The values paired with `k`, in input order: a reference definition by filtering. */
  function ValuesOf(ps: seq<(string, string)>, k: string): seq<string>
    decreases |ps|
  {
    if |ps| == 0 then []
    else (if ps[0].0 == k then [ps[0].1] else []) + ValuesOf(ps[1..], k)
  }

  lemma {:induction false} ValuesOfSnoc(ps: seq<(string, string)>, p: (string, string), k: string)
    ensures ValuesOf(ps + [p], k) == ValuesOf(ps, k) + (if p.0 == k then [p.1] else [])
    decreases |ps|
  {
    if |ps| == 0 {
      assert ValuesOf([p], k) == (if p.0 == k then [p.1] else []) + ValuesOf([], k);
    } else {
      assert (ps + [p])[1..] == ps[1..] + [p];
      ValuesOfSnoc(ps[1..], p, k);
    }
  }

  lemma {:induction false} ValuesOfAbsent(ps: seq<(string, string)>, k: string)
    requires k !in KeysOf(ps)
    ensures ValuesOf(ps, k) == []
    decreases |ps|
  {
    if |ps| > 0 {
      assert KeysOf(ps[1..]) <= KeysOf(ps) by {
        forall x | x in KeysOf(ps[1..]) ensures x in KeysOf(ps) {
          var i :| 0 <= i < |ps[1..]| && ps[1..][i].0 == x;
          assert ps[i + 1].0 == x;
        }
      }
      assert ps[0].0 != k;
      ValuesOfAbsent(ps[1..], k);
    }
  }

  lemma KeysOfSnoc(ps: seq<(string, string)>, p: (string, string))
    ensures KeysOf(ps + [p]) == KeysOf(ps) + {p.0}
  {
    var qs := ps + [p];
    assert forall i :: 0 <= i < |ps| ==> qs[i] == ps[i];
    assert qs[|ps|] == p;
  }

  /**
   * The properties a plain object inherits from `Object.prototype`. Looking
   * one of them up yields the inherited function or object, never undefined.
   */
  const PrototypeNames: set<string> := {
    "constructor", "hasOwnProperty", "isPrototypeOf", "propertyIsEnumerable",
    "toString", "toLocaleString", "valueOf", ProtoKey,
    "__defineGetter__", "__defineSetter__", "__lookupGetter__", "__lookupSetter__"}

  /** What `values.push(value)` throws when `values` is an inherited property rather than an array. */
  function PushError(): Error {
    PlainError("TypeError", "values.push is not a function")
  }

  /**
   * `searchParamsToDict`: each pair appends its value to its key's list on
   * a plain object, creating the list on first sight of the key. For a key
   * the object inherits, `dict[key] ?? []` is the inherited property, whose
   * `push` is not a function, so the conversion throws.
   */
  function SearchParamsToDict(ps: seq<(string, string)>): (r: Result<HttpDict, Error>)
    ensures r.Success? <==> KeysOf(ps) !! PrototypeNames
    ensures r.Failure? ==> r.error == PushError()
    ensures r.Success? ==> r.value.Keys == KeysOf(ps)
    ensures r.Success? ==> forall k :: k in r.value ==> r.value[k] == ValuesOf(ps, k) && |r.value[k]| > 0
    decreases |ps|
  {
    if |ps| == 0 then Success(map[])
    else
      var init := ps[..|ps| - 1];
      var p := ps[|ps| - 1];
      assert ps == init + [p];
      KeysOfSnoc(init, p);
      match SearchParamsToDict(init)
      case Failure(e) => Failure(e)
      case Success(d0) =>
        if p.0 in PrototypeNames then Failure(PushError())
        else
          var d := d0[p.0 := (if p.0 in d0 then d0[p.0] else []) + [p.1]];
          AppendPairKeepsGrouping(init, p, d0);
          Success(d)
  }

  /** One more pair keeps the grouping exact: the new map holds every key's values in order. */
  lemma AppendPairKeepsGrouping(init: seq<(string, string)>, p: (string, string), d0: HttpDict)
    requires d0.Keys == KeysOf(init)
    requires forall k :: k in d0 ==> d0[k] == ValuesOf(init, k) && |d0[k]| > 0
    ensures var d := d0[p.0 := (if p.0 in d0 then d0[p.0] else []) + [p.1]];
      && d.Keys == KeysOf(init + [p])
      && forall k :: k in d ==> d[k] == ValuesOf(init + [p], k) && |d[k]| > 0
  {
    KeysOfSnoc(init, p);
    var d := d0[p.0 := (if p.0 in d0 then d0[p.0] else []) + [p.1]];
    forall k | k in d ensures d[k] == ValuesOf(init + [p], k) && |d[k]| > 0 {
      ValuesOfSnoc(init, p, k);
      if k == p.0 && p.0 !in d0 {
        ValuesOfAbsent(init, k);
      }
    }
  }

  /** The keys of the pairs in order of first appearance: the key order of the resulting object. */
  function DistinctKeys(ps: seq<(string, string)>): (ks: seq<string>)
    decreases |ps|
  {
    if |ps| == 0 then []
    else
      var ks0 := DistinctKeys(ps[..|ps| - 1]);
      if ps[|ps| - 1].0 in ks0 then ks0 else ks0 + [ps[|ps| - 1].0]
  }

  ghost predicate NoDuplicates(ks: seq<string>) {
    forall i, j :: 0 <= i < j < |ks| ==> ks[i] != ks[j]
  }

  lemma {:induction false} DistinctKeysShape(ps: seq<(string, string)>)
    ensures NoDuplicates(DistinctKeys(ps))
    ensures forall k :: k in DistinctKeys(ps) <==> k in KeysOf(ps)
    decreases |ps|
  {
    if |ps| > 0 {
      var init := ps[..|ps| - 1];
      assert ps == init + [ps[|ps| - 1]];
      DistinctKeysShape(init);
      KeysOfSnoc(init, ps[|ps| - 1]);
    }
  }

  /** Sum over `ks` of the number of values each key has in `ps`. */
  function CountValues(ps: seq<(string, string)>, ks: seq<string>): nat
    decreases |ks|
  {
    if |ks| == 0 then 0 else CountValues(ps, ks[..|ks| - 1]) + |ValuesOf(ps, ks[|ks| - 1])|
  }

  lemma {:induction false} CountValuesSnoc(ps: seq<(string, string)>, p: (string, string), ks: seq<string>)
    requires NoDuplicates(ks)
    ensures CountValues(ps + [p], ks) == CountValues(ps, ks) + (if p.0 in ks then 1 else 0)
    decreases |ks|
  {
    if |ks| > 0 {
      var a := ks[..|ks| - 1];
      var k := ks[|ks| - 1];
      assert ks == a + [k];
      assert NoDuplicates(a);
      assert k !in a;
      CountValuesSnoc(ps, p, a);
      ValuesOfSnoc(ps, p, k);
    }
  }

  /** Grouping loses no pair: the lists hold as many values in total as there were pairs. */
  lemma {:induction false} GroupingKeepsEveryPair(ps: seq<(string, string)>)
    ensures CountValues(ps, DistinctKeys(ps)) == |ps|
    decreases |ps|
  {
    if |ps| > 0 {
      var init := ps[..|ps| - 1];
      var p := ps[|ps| - 1];
      assert ps == init + [p];
      GroupingKeepsEveryPair(init);
      DistinctKeysShape(init);
      var ks0 := DistinctKeys(init);
      CountValuesSnoc(init, p, ks0);
      if p.0 !in ks0 {
        assert DistinctKeys(ps) == ks0 + [p.0];
        assert (ks0 + [p.0])[..|ks0|] == ks0;
        ValuesOfSnoc(init, p, p.0);
        ValuesOfAbsent(init, p.0);
      }
    }
  }

  /** The example from the request-echo test: foo=one&bar=two&foo=three. */
  lemma QueryExample()
    ensures SearchParamsToDict([("foo", "one"), ("bar", "two"), ("foo", "three")])
         == Success(map["foo" := ["one", "three"], "bar" := ["two"]])
  {
    var ps := [("foo", "one"), ("bar", "two"), ("foo", "three")];
    ExampleGrouping();
    var d := SearchParamsToDict(ps).value;
    assert d == map["foo" := ["one", "three"], "bar" := ["two"]];
  }

  /** The keys and per-key values of the example pairs. */
  lemma ExampleGrouping()
    ensures var ps := [("foo", "one"), ("bar", "two"), ("foo", "three")];
      && KeysOf(ps) == {"foo", "bar"} && KeysOf(ps) !! PrototypeNames
      && ValuesOf(ps, "foo") == ["one", "three"] && ValuesOf(ps, "bar") == ["two"]
  {
    var ps := [("foo", "one"), ("bar", "two"), ("foo", "three")];
    assert KeysOf(ps) == {"foo", "bar"} by {
      assert ps[0].0 == "foo" && ps[1].0 == "bar";
    }
    assert "foo" !in PrototypeNames && "bar" !in PrototypeNames;
    assert ValuesOf(ps, "foo") == ["one", "three"];
    assert ValuesOf(ps, "bar") == ["two"];
  }
}

=== FILE: error_policy.dfy ===
/**
 * Error-to-response policies: the error handler, the standard handler that
 * wraps it with logging and Server-Timing, and the catch/finally block of
 * the Koa server's standard middleware.
 */
module ErrorPolicy {
  import opened Wrappers
  import opened Text
  import opened Values
  import opened Context
  import opened Flow
  import Errors

  /** `typeof error.status === 'number'` and 100 <= status < 599. */
  predicate HasStatus(e: Error) {
    e.status.NumStatus? && 100 <= e.status.n < 599
  }

  /** The body the error handler presents: name, message and details. */
  function ErrorBody(e: Error): Value {
    Obj(map["name" := Str(e.name), "message" := Str(e.message), "details" := e.details])
  }

  /** A fresh ServerError. */
  function FreshServerError(): Error {
    Errors.Make(Errors.ServerError, None)
  }

  /**
   * The error handler after `next`: a normal return changes nothing; a
   * throw is absorbed into a status, a presented body and `state.error`.
   */
  function CatchError(ctx: Context, outcome: Outcome): (r: Exec)
    ensures r.outcome == Ok && r.events == []
    ensures outcome.Ok? ==> r.ctx == ctx
    ensures outcome.Throw? ==>
      var e := outcome.error;
      && r.ctx.status == (if HasStatus(e) then e.status.n else 500)
      && r.ctx.responseBody == ErrorBody(if HasStatus(e) then e else FreshServerError())
      && r.ctx.state == ctx.state["error" := Err(e)]
      && r.ctx.(status := ctx.status, responseBody := ctx.responseBody, state := ctx.state) == ctx
  {
    match outcome
    case Ok => Exec([], ctx, Ok)
    case Throw(e) =>
      var hasStatus := e.status.NumStatus? && 100 <= e.status.n < 599;
      var presented := if hasStatus then e else FreshServerError();
      Exec([], ctx.(status := if hasStatus then e.status.n else 500,
                    responseBody := ErrorBody(presented),
                    state := ctx.state["error" := Err(e)]), Ok)
  }

  /** After a caught error the status is always a real HTTP status below 599. */
  lemma CaughtStatusIsValid(ctx: Context, e: Error)
    ensures 100 <= CatchError(ctx, Throw(e)).ctx.status < 599
  {
  }

  /**
   * An error without a valid status is never shown: its name and message
   * are replaced by the ServerError ones, while `state.error` keeps it.
   */
  lemma InternalErrorsAreHidden(ctx: Context, e: Error)
    requires !HasStatus(e)
    ensures var c := CatchError(ctx, Throw(e)).ctx;
      && c.status == 500
      && c.responseBody.fields["name"] == Str("ServerError")
      && c.responseBody.fields["message"] == Str("The request cannot be processed")
      && c.state["error"] == Err(e)
  {
  }

  /** Every application error class is presented as itself, with its own status. */
  lemma ErrorClassesPresentedAsThemselves(ctx: Context, c: Errors.ErrorClass, m: Option<string>)
    ensures var e := Errors.Make(c, m); var r := CatchError(ctx, Throw(e)).ctx;
      r.status == Errors.StatusCode(c) && r.responseBody == ErrorBody(e)
  {
  }

  /** The value of a state entry, undefined when it was never written. */
  function StateValue(ctx: Context, key: string): Value {
    if key in ctx.state then ctx.state[key] else Undefined
  }

  /** `total;dur=<latency>`. */
  function TimingValue(latency: nat): string {
    "total;dur=" + NatToString(latency)
  }

  /**
   * The standard handler after `next`: the embedded error handler absorbs
   * any throw; the `finally` block then logs at 'error' from status 500 up,
   * says 'Http Error' when `state.error` is set, and sets Server-Timing.
   */
  function StandardAfter(ctx: Context, outcome: Outcome): (r: Exec)
    ensures r.outcome == Ok
    ensures var caught := CatchError(ctx, outcome).ctx;
      && r.ctx == caught.(headerSets := caught.headerSets + [("Server-Timing", Str(TimingValue(ctx.latency)))])
      && r.events == [Log(if caught.status >= 500 then "error" else "info",
                          if Truthy(StateValue(caught, "error")) then "Http Error" else "Http Request")]
  {
    var caught := CatchError(ctx, outcome);
    var c := caught.ctx;
    var level := if c.status >= 500 then "error" else "info";
    var error := Coalesce(StateValue(c, "error"), Undefined);
    var message := if Truthy(error) then "Http Error" else "Http Request";
    Exec(caught.events + [Log(level, message)],
         c.(headerSets := c.headerSets + [("Server-Timing", Str(TimingValue(c.latency)))]),
         Ok)
  }

  /** A caught error is always logged as 'Http Error'; its level follows the status it produced. */
  lemma StandardLogsCaughtErrors(ctx: Context, e: Error)
    ensures var r := StandardAfter(ctx, Throw(e));
      && r.events[0].message == "Http Error"
      && (r.events[0].level == "error" <==> !HasStatus(e) || e.status.n >= 500)
  {
  }

  /** What Koa's `status` setter throws for a value that is not an integer. */
  function StatusNotANumber(): Error {
    PlainError("AssertionError", "status code must be a number")
  }

  /**
   * The Koa middleware's catch block: `Number(status) || 500` decides
   * whether it is a client error (400..499); every other status (2xx and 3xx
   * included) becomes 500 with a fresh ServerError. A client error's own
   * `status` is then assigned as it is, so one that is not a number (the
   * string '404', say) makes Koa's status setter throw before anything is
   * logged or presented.
   */
  function KoaCatch(ctx: Context, e: Error): (r: Exec)
    ensures var s := StatusOr500(e.status); var client := 400 <= s < 500;
      && (r.outcome.Throw? <==> client && !e.status.NumStatus?)
      && (r.outcome.Throw? ==> r == Exec([], ctx, Throw(StatusNotANumber())))
      && (r.outcome.Ok? ==>
            && r.ctx.status == (if client then s else 500)
            && r.ctx.responseBody == Obj(map["name" := Str(if client then e.name else "ServerError"),
                                             "message" := Str(if client then e.message else "The request cannot be processed")])
            && r.ctx.(status := ctx.status, responseBody := ctx.responseBody) == ctx
            && r.events == [Log(if client then "info" else "error", "HTTP error")])
  {
    var status := StatusOr500(e.status);
    var isClientError := status >= 400 && status < 500;
    if isClientError && !e.status.NumStatus? then Exec([], ctx, Throw(StatusNotANumber()))
    else
      var logLevel := if isClientError then "info" else "error";
      var presented := if isClientError then e else FreshServerError();
      Exec([Log(logLevel, "HTTP error")],
           ctx.(status := if isClientError then e.status.n else 500,
                responseBody := Obj(map["name" := Str(presented.name), "message" := Str(presented.message)])),
           Ok)
  }

  /**
   * The Koa standard middleware after `next`: log the request or handle the
   * error, then (in `finally`, whichever way the catch block ended) write
   * the timing entry into `ctx.header`, which is the request's header object.
   */
  function KoaStandardAfter(ctx: Context, outcome: Outcome): (r: Exec)
    ensures r.ctx.request == ctx.request.(headers := ctx.request.headers["server-timing" := [TimingValue(ctx.latency)]])
    ensures outcome.Ok? ==> r.outcome == Ok && r.events == [Log("info", "HTTP request")] && r.ctx.(request := ctx.request) == ctx
    ensures outcome.Throw? ==>
      var caught := KoaCatch(ctx, outcome.error);
      r.outcome == caught.outcome && r.events == caught.events && r.ctx.(request := ctx.request) == caught.ctx
  {
    var done := match outcome
      case Ok => Exec([Log("info", "HTTP request")], ctx, Ok)
      case Throw(e) => KoaCatch(ctx, e);
    var c := done.ctx;
    Exec(done.events, c.(request := c.request.(headers := c.request.headers["server-timing" := [TimingValue(ctx.latency)]])), done.outcome)
  }

  /** The Koa catch presents 4xx application errors as themselves and ServerError as itself. */
  lemma KoaPresentsErrorClasses(ctx: Context, c: Errors.ErrorClass, m: Option<string>)
    ensures var e := Errors.Make(c, m); var r := KoaCatch(ctx, e).ctx;
      && r.status == Errors.StatusCode(c)
      && r.responseBody.fields["name"] == Str(Errors.ClassName(c))
      && (c != Errors.ServerError ==> r.responseBody.fields["message"] == Str(e.message))
  {
  }

  /**
   * The two policies disagree on server-side statuses: a 503 is kept by the
   * error handler but becomes 500 in the Koa middleware, and a 302 becomes
   * 500 in the Koa middleware.
   */
  lemma PoliciesDivergeOnNonClientStatuses(ctx: Context, name: string, message: string)
    ensures CatchError(ctx, Throw(Error(name, message, NumStatus(503), Undefined))).ctx.status == 503
    ensures KoaCatch(ctx, Error(name, message, NumStatus(503), Undefined)).ctx.status == 500
    ensures KoaCatch(ctx, Error(name, message, NumStatus(302), Undefined)).ctx.status == 500
    ensures CatchError(ctx, Throw(Error(name, message, NumStatus(302), Undefined))).ctx.status == 302
  {
  }

  /** On client errors (numeric status 400..499) the two policies agree on status and presented name and message. */
  lemma PoliciesAgreeOnClientErrors(ctx: Context, e: Error)
    requires e.status.NumStatus? && 400 <= e.status.n < 500
    ensures var a := CatchError(ctx, Throw(e)).ctx; var b := KoaCatch(ctx, e).ctx;
      && a.status == b.status == e.status.n
      && a.responseBody.fields["name"] == b.responseBody.fields["name"] == Str(e.name)
      && a.responseBody.fields["message"] == b.responseBody.fields["message"] == Str(e.message)
  {
  }

  /**
   * A client error whose status is the string '404' is hidden as a 500 by
   * the error handler, while in the Koa middleware it makes the catch block
   * itself throw; the timing entry is written all the same.
   */
  lemma PoliciesDivergeOnStringStatuses(ctx: Context, name: string, message: string)
    ensures var e := Error(name, message, OtherStatus(Some(404)), Undefined);
      && CatchError(ctx, Throw(e)).ctx.status == 500
      && KoaStandardAfter(ctx, Throw(e)).outcome == Throw(StatusNotANumber())
      && KoaStandardAfter(ctx, Throw(e)).ctx.request.headers["server-timing"] == [TimingValue(ctx.latency)]
  {
  }
}

=== FILE: errors.dfy ===
/**
 * The application error classes and their status codes and default
 * messages. Every class records its own name as `name` and carries no
 * `details`.
 */
module Errors {
  import opened Wrappers
  import opened Values

  datatype ErrorClass =
    | ClientError
    | NotFoundError
    | ConflictError
    | AuthenticationRequiredError
    | InvalidAuthenticationError
    | AccessDeniedError
    | ServerError

  function ClassName(c: ErrorClass): string {
    match c
    case ClientError => "ClientError"
    case NotFoundError => "NotFoundError"
    case ConflictError => "ConflictError"
    case AuthenticationRequiredError => "AuthenticationRequiredError"
    case InvalidAuthenticationError => "InvalidAuthenticationError"
    case AccessDeniedError => "AccessDeniedError"
    case ServerError => "ServerError"
  }

  function StatusCode(c: ErrorClass): int {
    match c
    case ClientError => 400
    case NotFoundError => 404
    case ConflictError => 409
    case AuthenticationRequiredError => 401
    case InvalidAuthenticationError => 401
    case AccessDeniedError => 403
    case ServerError => 500
  }

  /** The message a constructor uses when none is passed; ClientError has none of its own. */
  function DefaultMessage(c: ErrorClass): string {
    match c
    case ClientError => ""
    case NotFoundError => "Resource not found"
    case ConflictError => "The requested operation results in a conflict, please try again soon"
    case AuthenticationRequiredError => "Authentication is required"
    case InvalidAuthenticationError => "Invalid authentication"
    case AccessDeniedError => "Access denied"
    case ServerError => "The request cannot be processed"
  }

  /**
   * `new C(message)`. AuthenticationRequiredError's constructor takes no
   * argument, so whatever is passed is ignored.
   */
  function Make(c: ErrorClass, message: Option<string>): (e: Error)
    ensures e.name == ClassName(c)
    ensures e.status == NumStatus(StatusCode(c))
    ensures c == AuthenticationRequiredError ==> e.message == "Authentication is required"
    ensures c != AuthenticationRequiredError && message.Some? ==> e.message == message.value
    ensures message.None? ==> e.message == DefaultMessage(c)
  {
    var msg := if c == AuthenticationRequiredError then DefaultMessage(c) else message.GetOr(DefaultMessage(c));
    Error(ClassName(c), msg, NumStatus(StatusCode(c)), Undefined)
  }

  /** ServerError is the only class outside the 4xx range; every class has a status in 400..599. */
  lemma StatusTable(c: ErrorClass)
    ensures 400 <= StatusCode(c) < 600
    ensures StatusCode(c) >= 500 <==> c == ServerError
    ensures StatusCode(c) == 401 <==> c == AuthenticationRequiredError || c == InvalidAuthenticationError
  {
  }

  /**
   * Errors raised by a library outside this model (the double-send guard and
   * the body-size limit); their status codes are not visible here, so they
   * are parameters.
   */
  datatype ExternalStatuses = ExternalStatuses(invalidState: StatusValue, requestSizeExceeded: StatusValue)

  function InvalidStateError(st: ExternalStatuses, message: string): Error {
    Error("InvalidStateError", message, st.invalidState, Undefined)
  }

  function RequestSizeExceededError(st: ExternalStatuses): Error {
    Error("RequestSizeExceededError", "", st.requestSizeExceeded, Undefined)
  }
}

=== FILE: flow.dfy ===
/**
 * The control-flow vocabulary shared by every handler: what a handler
 * invocation leaves behind (an event trace, the context, and whether it
 * returned or threw), and the two halves of a handler around its one call
 * of `next`.
 */
module Flow {
  import opened Wrappers
  import opened Values
  import opened Context

  /** How an awaited call ended: normally, or by throwing `error`. */
  datatype Outcome = Ok | Throw(error: Error)

  /**
   * Observable side effects, in order: a test handler's marker, a log line
   * (level and message), or a protocol method statistic (with the error
   * name when the call failed).
   */
  datatype Event =
    | Mark(text: string)
    | Log(level: string, message: string)
    | Stat(domain: string, methodName: string, failure: Option<string>)

  /** The result of running a handler, a chain, or a continuation. */
  datatype Exec = Exec(events: seq<Event>, ctx: Context, outcome: Outcome)

  /** What a handler must remember between calling `next` and resuming. */
  datatype Resume = Plain | InTry(domain: string, methodName: string)

  /** The part of a handler before `next`: either it calls `next`, or it finishes without calling it. */
  datatype Step =
    | Continue(events: seq<Event>, ctx: Context, resume: Resume)
    | Stop(events: seq<Event>, ctx: Context, outcome: Outcome)
}

=== FILE: koa_server.dfy ===
/**
 * The Koa-based server variant: its lifecycle (`start`, `stop`), the
 * middleware stack it builds, and how registered handlers join it.
 */
module KoaServer {
  import opened Wrappers
  import opened Chain

  /** Configuration defaults of the Koa server. */
  const DefaultPort: nat := 8080
  const DefaultTimeout: nat := 300000
  const DefaultShutdownDelay: nat := 10000

  /** The stoppable server once created: its port, socket timeout, and whether `stop` finished. */
  datatype Listener = Listener(port: nat, timeout: nat, stopped: bool)

  datatype KoaServer = KoaServer(port: nat, timeout: nat, shutdownDelay: nat,
                                 server: Option<Listener>, middleware: seq<Handler>)

  /** What `stop` did, in order. */
  datatype StopEvent = Delay(millis: nat) | StopAccepting

  /** The middleware installed by the constructor: the standard policy, CORS, then the body parser. */
  const BaseMiddleware: seq<Handler> := [KoaStandard, Library("cors"), Library("body")]

  /** A freshly constructed server: no listener, the base middleware stack. */
  function NewKoaServer(port: nat, timeout: nat, shutdownDelay: nat): (s: KoaServer)
    ensures s.server.None? && s.middleware == BaseMiddleware
    ensures s.middleware[0] == KoaStandard
  {
    KoaServer(port, timeout, shutdownDelay, None, BaseMiddleware)
  }

  /** `start`: creates and listens only when no server exists yet. */
  function Start(s: KoaServer): (r: KoaServer)
    ensures s.server.Some? ==> r == s
    ensures s.server.None? ==> r == s.(server := Some(Listener(s.port, s.timeout, false)))
    ensures r.server.Some? && r.middleware == s.middleware
  {
    if s.server.Some? then s else s.(server := Some(Listener(s.port, s.timeout, false)))
  }

  /**
   * `stop`: nothing without a server; otherwise an optional wait of the
   * shutdown delay in production, then the stoppable server is stopped. The
   * field keeps the stopped server.
   */
  function Stop(s: KoaServer, production: bool): (r: (KoaServer, seq<StopEvent>))
    ensures s.server.None? ==> r == (s, [])
    ensures s.server.Some? ==> r.0.server == Some(s.server.value.(stopped := true))
    ensures s.server.Some? ==> (Delay(s.shutdownDelay) in r.1 <==> production) && |r.1| > 0 && r.1[|r.1| - 1] == StopAccepting
    ensures r.0.middleware == s.middleware
  {
    match s.server
    case None => (s, [])
    case Some(l) =>
      (s.(server := Some(l.(stopped := true))),
       (if production then [Delay(s.shutdownDelay)] else []) + [StopAccepting])
  }

  /** `addRequestHandler`: the handler joins the end of the middleware stack. */
  function AddRequestHandler(s: KoaServer, h: Handler): (r: KoaServer)
    ensures r.middleware == s.middleware + [h] && r.server == s.server
  {
    s.(middleware := s.middleware + [h])
  }

  /** Starting twice creates one server. */
  lemma StartIsIdempotent(s: KoaServer)
    ensures Start(Start(s)) == Start(s)
  {
  }

  /**
   * Because `stop` never clears the field, a stopped server cannot be
   * started again: `start` after `stop` changes nothing and the listener
   * stays stopped.
   */
  lemma StartAfterStopIsNoOp(s: KoaServer, production: bool)
    requires s.server.Some?
    ensures var stopped := Stop(s, production).0;
      Start(stopped) == stopped && Start(stopped).server.value.stopped
  {
  }

  /**
   * Every registered handler runs behind the base middleware, in
   * registration order, so the standard policy wraps all of them.
   */
  lemma RegisteredHandlersFollowBase(port: nat, timeout: nat, delay: nat, hs: seq<Handler>)
    ensures var s := Register(NewKoaServer(port, timeout, delay), hs);
      s.middleware == BaseMiddleware + hs && s.middleware[0] == KoaStandard
  {
    RegisterAppends(NewKoaServer(port, timeout, delay), hs);
  }

  /**
   * With the configuration defaults, `start` listens on port 8080 with a
   * 300000 ms socket timeout, and a production `stop` first waits 10000 ms.
   */
  lemma DefaultLifecycle()
    ensures var s := Start(NewKoaServer(DefaultPort, DefaultTimeout, DefaultShutdownDelay));
      && s.server == Some(Listener(8080, 300000, false))
      && Stop(s, true).1 == [Delay(10000), StopAccepting]
      && Stop(s, false).1 == [StopAccepting]
  {
  }

  /** Registering a list of handlers one by one. */
  function Register(s: KoaServer, hs: seq<Handler>): KoaServer
    decreases |hs|
  {
    if |hs| == 0 then s else Register(AddRequestHandler(s, hs[0]), hs[1..])
  }

  lemma {:induction false} RegisterAppends(s: KoaServer, hs: seq<Handler>)
    ensures Register(s, hs).middleware == s.middleware + hs
    decreases |hs|
  {
    if |hs| > 0 {
      RegisterAppends(AddRequestHandler(s, hs[0]), hs[1..]);
      assert s.middleware + [hs[0]] + hs[1..] == s.middleware + hs;
    }
  }
}

=== FILE: next_server.dfy ===
/**
 * The older server variant: a context with an index-based `next()` that
 * resolves the handler at the next list position, handlers that call
 * `next()` themselves as often as they like, a request path that swallows
 * every error, and a response written verbatim.
 */
module NextServer {
  import opened Wrappers
  import opened Values
  import Context

  /** One step of a handler's body. */
  datatype Action =
    | CallNext                       // await ctx.next()
    | CallNextCatching               // try { await ctx.next() } catch {}
    | SetStatus(status: int)
    | SetBody(body: Value)           // the `body` setter
    | SetHeader(name: string, value: Context.HeaderVal)
    | Emit(mark: string)
    | Fail(error: Error)             // throw

  /** A handler is the sequence of its actions. */
  type Script = seq<Action>

  /** The context: dispatch index and the response fields. */
  datatype NextContext = NextContext(
    index: int,
    requestBody: Value,
    status: int,
    responseHeaders: map<string, Context.HeaderVal>,
    responseBody: Value)

  /** A fresh context: index -1, status 404, empty headers, body '' and no request body. */
  function NewNextContext(): (c: NextContext)
    ensures c.index == -1 && c.status == 404 && c.responseBody == Str("") && c.requestBody == Undefined
  {
    NextContext(-1, Undefined, 404, map[], Str(""))
  }

  /** The `body` getter reads the request body. */
  function GetBody(c: NextContext): Value {
    c.requestBody
  }

  /** The `body` setter writes the response body. */
  function SetBodyOf(c: NextContext, v: Value): NextContext {
    c.(responseBody := v)
  }

  /** As in the main context, the two halves of `body` address different fields. */
  lemma BodyAccessorsAreAsymmetric(c: NextContext, v: Value)
    ensures GetBody(SetBodyOf(c, v)) == GetBody(c) && SetBodyOf(c, v).responseBody == v
  {
  }

  /**
   * The result of a `next()` call or of a handler's body: the context, the
   * marks emitted, the list positions of the handlers started (in order), and
   * how it ended.
   */
  datatype Run = Run(ctx: NextContext, marks: seq<string>, started: seq<nat>, outcome: Option<Error>)

  /** Positions left to dispatch; never negative since the index starts at -1 and only grows. */
  function Remaining(hs: seq<Script>, c: NextContext): nat
    requires c.index >= -1
  {
    if c.index >= |hs| then 0 else |hs| - c.index
  }

  predicate StrictlyIncreasing(xs: seq<nat>) {
    forall i, j :: 0 <= i < j < |xs| ==> xs[i] < xs[j]
  }

  /**
   * `next()`: the index moves on by one; past the end of the list nothing
   * runs, otherwise the handler at the new index runs on the context. The
   * handlers started lie strictly after the old index, at strictly
   * increasing positions, and the index never goes back.
   */
  function Next(hs: seq<Script>, c: NextContext): (r: Run)
    requires c.index >= -1
    ensures r.ctx.index >= c.index + 1
    ensures Remaining(hs, r.ctx) <= Remaining(hs, c)
    ensures StrictlyIncreasing(r.started)
    ensures forall k :: 0 <= k < |r.started| ==> c.index < r.started[k] <= r.ctx.index && r.started[k] < |hs|
    ensures c.index + 1 >= |hs| ==> r == Run(c.(index := c.index + 1), [], [], None)
    ensures c.index + 1 < |hs| ==> |r.started| > 0 && r.started[0] == c.index + 1
    decreases Remaining(hs, c), 0, 0
  {
    var c1 := c.(index := c.index + 1);
    if c1.index >= |hs| then Run(c1, [], [], None)
    else
      var body := Perform(hs, hs[c1.index], c1);
      Run(body.ctx, body.marks, [c1.index as nat] + body.started, body.outcome)
  }

  /** A handler's body run from the given context; a throw abandons the rest of it. */
  function Perform(hs: seq<Script>, script: Script, c: NextContext): (r: Run)
    requires c.index >= 0
    ensures r.ctx.index >= c.index
    ensures Remaining(hs, r.ctx) <= Remaining(hs, c)
    ensures StrictlyIncreasing(r.started)
    ensures forall k :: 0 <= k < |r.started| ==> c.index < r.started[k] <= r.ctx.index && r.started[k] < |hs|
    decreases Remaining(hs, c), |script|, 1
  {
    if |script| == 0 then Run(c, [], [], None)
    else
      match script[0]
      case Fail(e) => Run(c, [], [], Some(e))
      case CallNext =>
        var inner := Next(hs, c);
        if inner.outcome.Some? then inner
        else
          var rest := Perform(hs, script[1..], inner.ctx);
          Join(c, inner, rest)
      case CallNextCatching =>
        var inner := Next(hs, c);
        var rest := Perform(hs, script[1..], inner.ctx);
        Join(c, inner, rest)
      case _ =>
        var rest := Perform(hs, script[1..], Apply(c, script[0]));
        Run(rest.ctx, MarksOf(script[0]) + rest.marks, rest.started, rest.outcome)
  }

  /** The effect of an action that neither calls `next()` nor throws. */
  function Apply(c: NextContext, a: Action): (r: NextContext)
    ensures r.index == c.index
  {
    match a
    case SetStatus(n) => c.(status := n)
    case SetBody(v) => c.(responseBody := v)
    case SetHeader(k, v) => c.(responseHeaders := c.responseHeaders[k := v])
    case Emit(_) => c
    case CallNext => c
    case CallNextCatching => c
    case Fail(_) => c
  }

  function MarksOf(a: Action): seq<string> {
    match a
    case Emit(m) => [m]
    case SetStatus(_) => []
    case SetBody(_) => []
    case SetHeader(_, _) => []
    case CallNext => []
    case CallNextCatching => []
    case Fail(_) => []
  }

  /** Two consecutive runs: the second starts where the first ended. */
  function Join(c: NextContext, a: Run, b: Run): (r: Run)
    requires StrictlyIncreasing(a.started) && StrictlyIncreasing(b.started)
    requires forall k :: 0 <= k < |a.started| ==> a.started[k] <= a.ctx.index
    requires forall k :: 0 <= k < |b.started| ==> a.ctx.index < b.started[k]
    ensures r.ctx == b.ctx && r.outcome == b.outcome && r.started == a.started + b.started
    ensures StrictlyIncreasing(r.started)
  {
    Run(b.ctx, a.marks + b.marks, a.started + b.started, b.outcome)
  }

  /** A handler that calls `next()` twice does not run the same handler twice: the second call dispatches further on. */
  lemma SecondNextMovesOn(hs: seq<Script>)
    requires |hs| == 3 && hs[0] == [CallNext, CallNext] && hs[1] == [Emit("one")] && hs[2] == [Emit("two")]
    ensures var r := Next(hs, NewNextContext());
      && r.started == [0, 1, 2] && r.marks == ["one", "two"] && r.ctx.index == 2 && r.outcome == None
  {
    var c0 := NewNextContext().(index := 0);
    EmitterRuns(hs, 1, "one", c0);
    var one := Next(hs, c0);
    EmitterRuns(hs, 2, "two", one.ctx);
    var two := Next(hs, one.ctx);
    assert hs[0][1..] == [CallNext] && hs[0][1..][1..] == [];
    CallNextThen(hs, hs[0][1..], one.ctx);
    CallNextThen(hs, hs[0], c0);
    var c2 := c0.(index := 2);
    assert Perform(hs, hs[0], c0) == Run(c2, ["one"] + (["two"] + []), [1] + ([2] + []), None);
    assert ["one"] + (["two"] + []) == ["one", "two"] && [0] + ([1] + ([2] + [])) == [0, 1, 2];
  }

  /** A body that starts with an uncaught `next()` which completes runs the rest of the body after it. */
  lemma CallNextThen(hs: seq<Script>, script: Script, c: NextContext)
    requires c.index >= 0 && |script| > 0 && script[0] == CallNext && Next(hs, c).outcome.None?
    ensures Perform(hs, script, c) == Join(c, Next(hs, c), Perform(hs, script[1..], Next(hs, c).ctx))
  {
  }

  /** `next()` onto a handler that only emits one mark: that handler starts, emits, and the index lands on it. */
  lemma EmitterRuns(hs: seq<Script>, k: nat, mark: string, c: NextContext)
    requires k < |hs| && hs[k] == [Emit(mark)] && c.index == k - 1
    ensures Next(hs, c) == Run(c.(index := k), [mark], [k], None)
  {
    var c1 := c.(index := k);
    assert Perform(hs, hs[k], c1) == Run(c1, [mark], [], None) by {
      assert hs[k][1..] == [];
    }
  }

  /** The server's handler list: `addHandler` appends. */
  datatype Registry = Registry(handlers: seq<Script>)

  function AddHandler(reg: Registry, h: Script): (r: Registry)
    ensures |r.handlers| == |reg.handlers| + 1 && r.handlers[..|reg.handlers|] == reg.handlers
    ensures r.handlers[|reg.handlers|] == h
  {
    Registry(reg.handlers + [h])
  }

  /** Registration order is dispatch order: the first `next()` of a request runs the first handler added. */
  lemma FirstRegisteredRunsFirst(h: Script, later: seq<Script>)
    ensures var reg := Registry([h] + later);
      var r := Next(reg.handlers, NewNextContext());
      |r.started| > 0 && r.started[0] == 0
  {
  }

  /** What the response ends with: the head written, and whether the body was accepted and the response finished. */
  datatype Reply = Reply(wire: Context.Wire, finished: bool)

  /**
   * `sendResponse`: `writeHead` with `ctx.status` and the headers
   * verbatim, which throws for a status outside 100..999; then
   * `end(body)`: a falsy body ends the response empty, a string or buffer
   * is written, anything else makes `end` throw. `writeHead` only stages
   * the head, so when `end` refuses the body nothing reaches the socket:
   * `finished` is false and the staged head is all there is.
   */
  function SendResponse(c: NextContext, codec: Codec): (r: Result<Reply, Error>)
    ensures r.Success? <==> Context.ValidStatus(c.status)
    ensures r.Failure? ==> r.error == Context.InvalidStatusError(c.status)
    ensures r.Success? ==> r.value.wire.headersSent && r.value.wire.status == c.status && r.value.wire.headers == c.responseHeaders
    ensures r.Success? ==> (r.value.finished <==> Endable(c.responseBody))
    ensures r.Success? && !Truthy(c.responseBody) ==> r.value.wire.payload == Context.NoPayload
    ensures r.Success? && Truthy(c.responseBody) && c.responseBody.Str? ==>
      r.value.wire.payload == Context.Sent(codec.encodeUtf8(c.responseBody.s))
    ensures r.Success? && c.responseBody.Bytes? ==> r.value.wire.payload == Context.Sent(c.responseBody.bytes)
  {
    match Context.WriteHead(Context.FreshWire().(headers := c.responseHeaders), c.status)
    case Failure(e) => Failure(e)
    case Success(head) =>
      if !Truthy(c.responseBody) then Success(Reply(head, true))
      else match c.responseBody
        case Str(s) => Success(Reply(head.(payload := Context.Sent(codec.encodeUtf8(s))), true))
        case Bytes(bs) => Success(Reply(head.(payload := Context.Sent(bs)), true))
        case _ => Success(Reply(head, false))
  }

  /**
   * `handleRequest`: one `next()` from a fresh context, then the response;
   * a throw from a handler or from `writeHead` is swallowed, and then
   * nothing is written at all. `Some` means `writeHead` accepted the
   * status; the request is answered only when the reply is also finished,
   * since a throw from `end` is swallowed the same way.
   */
  function HandleRequest(reg: Registry, codec: Codec): (r: Option<Reply>)
    ensures var x := Next(reg.handlers, NewNextContext());
      && (r.Some? <==> x.outcome.None? && Context.ValidStatus(x.ctx.status))
      && (r.Some? ==> r.value == SendResponse(x.ctx, codec).value)
  {
    var x := Next(reg.handlers, NewNextContext());
    if x.outcome.Some? then None
    else
      match SendResponse(x.ctx, codec)
      case Success(reply) => Some(reply)
      case Failure(_) => None
  }

  /** With no handlers, the response is the defaults: 404, no headers, an empty body. */
  lemma NoHandlersAnswer404(codec: Codec)
    ensures HandleRequest(Registry([]), codec) == Some(Reply(Context.Wire(true, 404, map[], Context.NoPayload), true))
  {
  }

  /** No script in the list throws on its own. */
  predicate NeverFails(hs: seq<Script>) {
    forall i, j :: 0 <= i < |hs| && 0 <= j < |hs[i]| ==> !hs[i][j].Fail?
  }

  /** Handlers that never throw make `next()` complete normally. */
  lemma {:induction false} NextNeverThrows(hs: seq<Script>, c: NextContext)
    requires c.index >= -1 && NeverFails(hs)
    ensures Next(hs, c).outcome == None
    decreases Remaining(hs, c), 0, 0
  {
    var c1 := c.(index := c.index + 1);
    if c1.index < |hs| {
      PerformNeverThrows(hs, hs[c1.index], c1);
    }
  }

  /** A suffix of a never-failing handler, run anywhere, completes normally. */
  lemma {:induction false} PerformNeverThrows(hs: seq<Script>, script: Script, c: NextContext)
    requires c.index >= 0 && NeverFails(hs) && forall j :: 0 <= j < |script| ==> !script[j].Fail?
    ensures Perform(hs, script, c).outcome == None
    decreases Remaining(hs, c), |script|, 1
  {
    if |script| > 0 {
      assert !script[0].Fail?;
      assert forall j :: 0 <= j < |script[1..]| ==> !script[1..][j].Fail? by {
        forall j | 0 <= j < |script[1..]| ensures !script[1..][j].Fail? {
          assert script[1..][j] == script[j + 1];
        }
      }
      if script[0].CallNext? {
        NextNeverThrows(hs, c);
        PerformNeverThrows(hs, script[1..], Next(hs, c).ctx);
      } else if script[0].CallNextCatching? {
        PerformNeverThrows(hs, script[1..], Next(hs, c).ctx);
      } else {
        PerformNeverThrows(hs, script[1..], Apply(c, script[0]));
      }
    }
  }

  /** A body `end` accepts: a falsy value, a string or a buffer. */
  predicate Endable(body: Value) {
    !Truthy(body) || body.Str? || body.Bytes?
  }

  /**
   * When no handler throws, `writeHead` runs exactly when the final status
   * is in range, and the request is answered exactly when, in addition,
   * `end` accepts the final body.
   */
  lemma AnsweredUnlessStatusInvalid(reg: Registry, codec: Codec)
    requires NeverFails(reg.handlers)
    ensures var x := Next(reg.handlers, NewNextContext());
      HandleRequest(reg, codec).Some? <==> Context.ValidStatus(x.ctx.status)
    ensures var x := Next(reg.handlers, NewNextContext()); var r := HandleRequest(reg, codec);
      r.Some? && r.value.finished <==> Context.ValidStatus(x.ctx.status) && Endable(x.ctx.responseBody)
  {
    NextNeverThrows(reg.handlers, NewNextContext());
  }

  /** A numeric body passes `writeHead` but `end` refuses it: the request is swallowed unanswered. */
  lemma NumericBodyIsNotAnswered(codec: Codec)
    ensures HandleRequest(Registry([[SetBody(Num(1))]]), codec)
         == Some(Reply(Context.Wire(true, 404, map[], Context.NoPayload), false))
  {
  }

  /** A handler that catches around `next()` turns a downstream throw into the default 404 response. */
  lemma CatchingHandlerAnswers(e: Error, codec: Codec)
    ensures HandleRequest(Registry([[CallNextCatching], [Fail(e)]]), codec)
      == Some(Reply(Context.Wire(true, 404, map[], Context.NoPayload), true))
  {
    CatchingRun(e);
  }

  /** The run behind `CatchingHandlerAnswers`: both handlers start, and the throw stops at the first. */
  lemma CatchingRun(e: Error)
    ensures Next([[CallNextCatching], [Fail(e)]], NewNextContext()) == Run(NewNextContext().(index := 1), [], [0, 1], None)
  {
    var hs := [[CallNextCatching], [Fail(e)]];
    var c0 := NewNextContext().(index := 0);
    var c1 := NewNextContext().(index := 1);
    var inner := Next(hs, c0);
    assert inner == Run(c1, [], [1], Some(e)) by {
      assert Perform(hs, hs[1], c1) == Run(c1, [], [], Some(e));
    }
    assert Perform(hs, hs[0], c0) == Run(c1, [], [1], None) by {
      assert hs[0][1..] == [];
      assert Perform(hs, hs[0][1..], c1) == Run(c1, [], [], None);
    }
  }

  /** Without the `catch`, the same downstream throw leaves the request unanswered. */
  lemma UncaughtThrowIsSwallowed(e: Error, codec: Codec)
    ensures HandleRequest(Registry([[CallNext], [Fail(e)]]), codec) == None
  {
    var hs := [[CallNext], [Fail(e)]];
    var c0 := NewNextContext().(index := 0);
    var c1 := NewNextContext().(index := 1);
    assert Perform(hs, hs[1], c1) == Run(c1, [], [], Some(e));
    assert Next(hs, c0) == Run(c1, [], [1], Some(e));
    assert Perform(hs, hs[0], c0).outcome == Some(e);
  }

  /**
   * For a text body both servers send the same bytes: the main server
   * infers UTF-8 text and adds its length and type, while the next server
   * writes the string through `end` with the headers it was given.
   */
  lemma VariantsAgreeOnTextPayload(ctx: Context.Context, c: NextContext, res: Context.Wire, env: Context.Env)
    requires ctx.responseBody.Str? && ctx.responseBody.s != "" && c.responseBody == ctx.responseBody
    requires ctx.status == c.status && Context.ValidStatus(c.status) && !Context.IsEmptyResponse(ctx) && !res.headersSent
    ensures var main := Context.SendResponse(ctx, res, env);
      var next := SendResponse(c, env.codec);
      && main.Success? && next.Success?
      && main.value.payload == next.value.wire.payload
      && main.value.status == next.value.wire.status
      && "content-length" in main.value.headers
      && next.value.wire.headers == c.responseHeaders
  {
  }
}

=== FILE: protocol.dfy ===
/**
 * The protocol router in its two variants: the main handler (prefix '' by
 * default, paths `/<domain>/<method>`, method statistics) and the Koa
 * handler (prefix '/' by default, paths `<domain>/<method>` after the
 * prefix, no statistics).
 */
module Protocol {
  import opened Wrappers
  import opened Text
  import opened Values
  import opened Dict
  import opened Context
  import opened Flow
  import Errors

  /**
   * What the protocol index knows about one method: its kind ('query' or
   * anything else), its definition, and the request and response schema
   * decoders.
   */
  datatype MethodSpec = MethodSpec(
    kind: string,
    def: Value,
    decodeRequest: Value -> Result<Value, Error>,
    decodeResponse: Value -> Result<Value, Error>)

  /**
   * The protocol index and implementation: `lookup` is `lookupMethod`
   * (throwing for unknown methods), `invoke` finds the implementation and
   * awaits the call.
   */
  datatype ProtocolImpl = ProtocolImpl(
    lookup: (string, string) -> Result<MethodSpec, Error>,
    invoke: (string, string, Value) -> Result<Value, Error>)

  /** Main handler, or the Koa handler. */
  datatype Flavour = Native | Koa

  /** The default prefixes of the two handlers. */
  function DefaultPrefix(f: Flavour): string {
    match f
    case Native => ""
    case Koa => "/"
  }

  function NotFound(): Error {
    Errors.Make(Errors.NotFoundError, Some("Endpoint not found"))
  }

  /** The first position of `c` in `s`. */
  function IndexOf(s: string, c: char): (r: Option<nat>)
    ensures r.Some? ==> r.value < |s| && s[r.value] == c && forall j :: 0 <= j < r.value ==> s[j] != c
    ensures r.None? ==> forall j :: 0 <= j < |s| ==> s[j] != c
  {
    if |s| == 0 then None
    else if s[0] == c then Some(0)
    else match IndexOf(s[1..], c)
      case None => None
      case Some(k) => Some(k + 1)
  }

  /** `^([a-zA-Z0-9]+)\/([a-zA-Z0-9]+)$` on `s`, giving the two groups. */
  function SplitWords(s: string): (r: Option<(string, string)>)
    ensures r.Some? ==> IsWord(r.value.0) && IsWord(r.value.1) && s == r.value.0 + "/" + r.value.1
  {
    match IndexOf(s, '/')
    case None => None
    case Some(k) =>
      if IsWord(s[..k]) && IsWord(s[k + 1..]) then
        assert s == s[..k] + "/" + s[k + 1..];
        Some((s[..k], s[k + 1..]))
      else None
  }

  /** Every `word/word` string is matched, with exactly its two words. */
  lemma SplitWordsComplete(a: string, b: string)
    requires IsWord(a) && IsWord(b)
    ensures SplitWords(a + "/" + b) == Some((a, b))
  {
    var s := a + "/" + b;
    assert forall j :: 0 <= j < |a| ==> s[j] == a[j] && IsAlnum(a[j]) && s[j] != '/';
    assert s[|a|] == '/';
    assert IndexOf(s, '/') == Some(|a|);
    assert s[..|a|] == a && s[|a| + 1..] == b;
  }

  /** The path a route `(domain, method)` is served at. */
  function RoutePath(f: Flavour, prefix: string, domain: string, methodName: string): string {
    match f
    case Native => prefix + "/" + domain + "/" + methodName
    case Koa => prefix + domain + "/" + methodName
  }

  /** The flavour's pattern applied to the path after the prefix. */
  function MatchRest(f: Flavour, rest: string): (r: Option<(string, string)>)
    ensures r.Some? ==> IsWord(r.value.0) && IsWord(r.value.1)
    ensures r.Some? && f.Koa? ==> rest == r.value.0 + "/" + r.value.1
    ensures r.Some? && f.Native? ==> rest == "/" + r.value.0 + "/" + r.value.1
  {
    match f
    case Koa => SplitWords(rest)
    case Native =>
      if |rest| > 0 && rest[0] == '/' then
        assert rest == "/" + rest[1..];
        SplitWords(rest[1..])
      else None
  }

  /**
   * `parsePath`: NotFound unless the path starts with the prefix and the
   * rest matches the flavour's pattern; otherwise the domain and method.
   */
  function ParsePath(f: Flavour, prefix: string, path: string): (r: Result<(string, string), Error>)
    ensures r.Failure? ==> r.error == NotFound()
    ensures r.Success? ==>
      && IsWord(r.value.0) && IsWord(r.value.1)
      && path == RoutePath(f, prefix, r.value.0, r.value.1)
  {
    if !StartsWith(path, prefix) then Failure(NotFound())
    else
      var rest := path[|prefix|..];
      match MatchRest(f, rest)
      case None => Failure(NotFound())
      case Some(dm) =>
        RestIsRoute(f, prefix, path, dm);
        Success(dm)
  }

  /** A path whose rest after the prefix matches the pattern is the route of the two words matched. */
  lemma RestIsRoute(f: Flavour, prefix: string, path: string, dm: (string, string))
    requires StartsWith(path, prefix) && MatchRest(f, path[|prefix|..]) == Some(dm)
    ensures path == RoutePath(f, prefix, dm.0, dm.1)
  {
    var rest := path[|prefix|..];
    assert path == prefix + rest;
    match f
    case Native =>
      assert rest == "/" + dm.0 + "/" + dm.1;
      assert prefix + rest == prefix + "/" + dm.0 + "/" + dm.1;
    case Koa =>
      assert rest == dm.0 + "/" + dm.1;
      assert prefix + rest == prefix + dm.0 + "/" + dm.1;
  }

  /** Every route path parses back to its route: with `ParsePath`'s ensures, the path grammar is exactly the routes. */
  lemma {:induction false} ParsePathRoundTrip(f: Flavour, prefix: string, domain: string, methodName: string)
    requires IsWord(domain) && IsWord(methodName)
    ensures ParsePath(f, prefix, RoutePath(f, prefix, domain, methodName)) == Success((domain, methodName))
  {
    var path := RoutePath(f, prefix, domain, methodName);
    SplitWordsComplete(domain, methodName);
    assert path[..|prefix|] == prefix;
    match f
    case Native =>
      assert path[|prefix|..] == "/" + (domain + "/" + methodName);
    case Koa =>
      assert path[|prefix|..] == domain + "/" + methodName;
  }

  /** With their default prefixes the two handlers accept exactly the same paths. */
  lemma DefaultPrefixesAgree(path: string)
    ensures ParsePath(Native, DefaultPrefix(Native), path) == ParsePath(Koa, DefaultPrefix(Koa), path)
  {
    assert path[|""|..] == path;
  }

  /** The HTTP method a protocol method is served on: GET for queries, POST otherwise. */
  function ExpectedVerb(spec: MethodSpec): string {
    if spec.kind == "query" then "GET" else "POST"
  }

  /** `parseParams` of the main handler: the query for GET, else the body read as 'auto', `{}` when nullish. */
  function NativeParams(ctx: Context, env: Env): (r: BodyRead)
    ensures Method(ctx) == "GET" ==> r == BodyRead(ctx, Success(DictValue(ctx.query)))
    ensures Method(ctx) != "GET" ==> var rd := ReadRequestBody(ctx, Auto, env);
      && r.ctx == rd.ctx
      && (rd.result.Failure? ==> r.result == rd.result)
      && (rd.result.Success? && !Nullish(rd.result.value) ==> r.result == rd.result)
      && (rd.result.Success? && Nullish(rd.result.value) ==> r.result == Success(Obj(map[])))
  {
    if Method(ctx) == "GET" then BodyRead(ctx, Success(DictValue(ctx.query)))
    else
      var rd := ReadRequestBody(ctx, Auto, env);
      match rd.result
      case Failure(e) => rd
      case Success(v) => BodyRead(rd.ctx, Success(Coalesce(v, Obj(map[]))))
  }

  /** The state entries the main handler records before calling the implementation. */
  function WithCallState(ctx: Context, domain: string, methodName: string, spec: MethodSpec, params: Value): Context {
    ctx.(state := ctx.state["domainName" := Str(domain)]["methodName" := Str(methodName)]
                           ["methodDef" := spec.def]["params" := params])
  }

  /**
   * The method call proper, shared by both handlers: decode the params by
   * the request schema, call the implementation, decode its result by the
   * response schema. Yields the decoded params and the decoded result, or
   * the first error thrown.
   */
  function Invocation(domain: string, methodName: string, spec: MethodSpec, impl: ProtocolImpl, params: Value)
    : Result<(Value, Value), Error>
  {
    match spec.decodeRequest(params)
    case Failure(e) => Failure(e)
    case Success(decoded) =>
      match impl.invoke(domain, methodName, decoded)
      case Failure(e) => Failure(e)
      case Success(res) =>
        match spec.decodeResponse(res)
        case Failure(e) => Failure(e)
        case Success(out) => Success((decoded, out))
  }

  /** A failure inside the `try`: one statistic naming the error, then the rethrow. */
  function Failed(domain: string, methodName: string, ctx: Context, e: Error): Step {
    Stop([Stat(domain, methodName, Some(e.name))], ctx, Throw(e))
  }

  /** The main handler's `try` body once the verb matched: params, decode, call, decode, respond. */
  function NativeCall(domain: string, methodName: string, spec: MethodSpec, impl: ProtocolImpl, ctx: Context, env: Env): (r: Step)
    ensures r.Stop?
    ensures r.outcome.Throw? ==> r.events == [Stat(domain, methodName, Some(r.outcome.error.name))]
    ensures r.outcome.Ok? ==> r.events == [Stat(domain, methodName, None)] && r.ctx.status == 200
    ensures var rd := NativeParams(ctx, env);
      && (r.outcome.Ok? <==> rd.result.Success? && Invocation(domain, methodName, spec, impl, rd.result.value).Success?)
      && (r.outcome.Throw? ==>
            r.outcome.error == (if rd.result.Failure? then rd.result.error
                                else Invocation(domain, methodName, spec, impl, rd.result.value).error))
      && (r.outcome.Ok? ==>
            var (params, out) := Invocation(domain, methodName, spec, impl, rd.result.value).value;
            && r.ctx.responseBody == out
            && r.ctx.state == rd.ctx.state["domainName" := Str(domain)]["methodName" := Str(methodName)]
                                          ["methodDef" := spec.def]["params" := params]
            && r.ctx.(status := rd.ctx.status, responseBody := rd.ctx.responseBody, state := rd.ctx.state) == rd.ctx)
  {
    var rd := NativeParams(ctx, env);
    match rd.result
    case Failure(e) => Failed(domain, methodName, rd.ctx, e)
    case Success(params) =>
      match spec.decodeRequest(params)
      case Failure(e) => Failed(domain, methodName, rd.ctx, e)
      case Success(decoded) =>
        var ctx2 := WithCallState(rd.ctx, domain, methodName, spec, decoded);
        match impl.invoke(domain, methodName, decoded)
        case Failure(e) => Failed(domain, methodName, ctx2, e)
        case Success(res) =>
          match spec.decodeResponse(res)
          case Failure(e) => Failed(domain, methodName, ctx2, e)
          case Success(out) => Stop([Stat(domain, methodName, None)], ctx2.(status := 200, responseBody := out), Ok)
  }

  /**
   * The main handler up to `next`. Paths outside the prefix go to `next`
   * untouched; a prefixed path that is not a route, or an unknown method,
   * throws without a statistic; a verb mismatch goes to `next` inside the
   * `try`; otherwise the method is called.
   */
  function NativeBefore(prefix: string, impl: ProtocolImpl, ctx: Context, env: Env): (r: Step)
    ensures !StartsWith(ctx.path, prefix) ==> r == Continue([], ctx, Plain)
    ensures r.Continue? ==> r.ctx == ctx && r.events == []
    ensures StartsWith(ctx.path, prefix) && ParsePath(Native, prefix, ctx.path).Failure? ==> r == Stop([], ctx, Throw(NotFound()))
    ensures r.Continue? && r.resume.InTry? ==>
      && ParsePath(Native, prefix, ctx.path) == Success((r.resume.domain, r.resume.methodName))
      && impl.lookup(r.resume.domain, r.resume.methodName).Success?
      && Method(ctx) != ExpectedVerb(impl.lookup(r.resume.domain, r.resume.methodName).value)
    ensures r.Stop? && r.outcome.Ok? ==>
      && ParsePath(Native, prefix, ctx.path).Success?
      && var (d, m) := ParsePath(Native, prefix, ctx.path).value;
         && impl.lookup(d, m).Success? && Method(ctx) == ExpectedVerb(impl.lookup(d, m).value)
         && r == NativeCall(d, m, impl.lookup(d, m).value, impl, ctx, env)
         && r.events == [Stat(d, m, None)] && r.ctx.status == 200
    ensures r.Stop? && StartsWith(ctx.path, prefix) && ParsePath(Native, prefix, ctx.path).Success? ==>
      var (d, m) := ParsePath(Native, prefix, ctx.path).value;
      impl.lookup(d, m).Failure? ==> r == Stop([], ctx, Throw(impl.lookup(d, m).error))
  {
    if !StartsWith(ctx.path, prefix) then Continue([], ctx, Plain)
    else
      match ParsePath(Native, prefix, ctx.path)
      case Failure(e) => Stop([], ctx, Throw(e))
      case Success((d, m)) =>
        match impl.lookup(d, m)
        case Failure(e) => Stop([], ctx, Throw(e))
        case Success(spec) =>
          if Method(ctx) != ExpectedVerb(spec) then Continue([], ctx, InTry(d, m))
          else NativeCall(d, m, spec, impl, ctx, env)
  }

  /** The main handler after `next`: inside the `try`, a throw from downstream gets a statistic and is rethrown. */
  function NativeAfter(resume: Resume, ctx: Context, outcome: Outcome): (r: Exec)
    ensures r.ctx == ctx && r.outcome == outcome
    ensures r.events == (if resume.InTry? && outcome.Throw? then [Stat(resume.domain, resume.methodName, Some(outcome.error.name))] else [])
  {
    match (resume, outcome)
    case (InTry(d, m), Throw(e)) => Exec([Stat(d, m, Some(e.name))], ctx, outcome)
    case _ => Exec([], ctx, outcome)
  }

  /** Koa's `ctx.query`: a key given once maps to its value, a repeated key to the array of its values. */
  function KoaQuery(q: HttpDict): (v: Value)
    ensures v.Obj? && v.fields.Keys == q.Keys
    ensures forall k :: k in q && |q[k]| == 1 ==> v.fields[k] == Str(q[k][0])
    ensures forall k :: k in q && |q[k]| != 1 ==> v.fields[k] == StrArr(q[k])
  {
    Obj(map k | k in q :: if |q[k]| == 1 then Str(q[k][0]) else StrArr(q[k]))
  }

  /** `parseParams` of the Koa handler: Koa's query for GET, else the parsed body or `{}` when it is falsy. */
  function KoaParams(ctx: Context): (v: Value)
    ensures Method(ctx) == "GET" ==> v == KoaQuery(ctx.query)
    ensures Method(ctx) != "GET" && Truthy(ctx.requestBody) ==> v == ctx.requestBody
    ensures Method(ctx) != "GET" && !Truthy(ctx.requestBody) ==> v == Obj(map[])
  {
    if Method(ctx) == "GET" then KoaQuery(ctx.query)
    else if Truthy(ctx.requestBody) then ctx.requestBody else Obj(map[])
  }

  /**
   * The Koa handler up to `next`: it parses the path first (so a path
   * outside the prefix throws NotFound), calls `next` only on a verb
   * mismatch, and otherwise sets the body to the decoded result.
   */
  function KoaBefore(prefix: string, impl: ProtocolImpl, ctx: Context): (r: Step)
    ensures r.events == []
    ensures ParsePath(Koa, prefix, ctx.path).Failure? ==> r == Stop([], ctx, Throw(NotFound()))
    ensures r.Continue? ==> r == Continue([], ctx, Plain)
    ensures r.Stop? && r.outcome.Ok? ==>
      && ParsePath(Koa, prefix, ctx.path).Success?
      && var (d, m) := ParsePath(Koa, prefix, ctx.path).value;
         && impl.lookup(d, m).Success? && Method(ctx) == ExpectedVerb(impl.lookup(d, m).value)
         && var call := Invocation(d, m, impl.lookup(d, m).value, impl, KoaParams(ctx));
            call.Success? && r.ctx == ctx.(responseBody := call.value.1)
    ensures r.Stop? && r.outcome.Throw? ==> r.ctx == ctx
  {
    match ParsePath(Koa, prefix, ctx.path)
    case Failure(e) => Stop([], ctx, Throw(e))
    case Success((d, m)) =>
      match impl.lookup(d, m)
      case Failure(e) => Stop([], ctx, Throw(e))
      case Success(spec) =>
        if Method(ctx) != ExpectedVerb(spec) then Continue([], ctx, Plain)
        else
          match spec.decodeRequest(KoaParams(ctx))
          case Failure(e) => Stop([], ctx, Throw(e))
          case Success(decoded) =>
            match impl.invoke(d, m, decoded)
            case Failure(e) => Stop([], ctx, Throw(e))
            case Success(res) =>
              match spec.decodeResponse(res)
              case Failure(e) => Stop([], ctx, Throw(e))
              case Success(out) => Stop([], ctx.(responseBody := out), Ok)
  }

  /** A path outside the prefix is passed on by the main handler but rejected with NotFound by the Koa handler. */
  lemma ForeignPathsDiffer(prefix: string, impl: ProtocolImpl, ctx: Context, env: Env)
    requires !StartsWith(ctx.path, prefix)
    ensures NativeBefore(prefix, impl, ctx, env).Continue?
    ensures KoaBefore(prefix, impl, ctx) == Stop([], ctx, Throw(NotFound()))
  {
  }

  /**
   * A route served on the right verb whose call and decoders all succeed
   * answers 200 with the decoded result and one successful statistic.
   */
  lemma SuccessfulQuery(prefix: string, impl: ProtocolImpl, ctx: Context, env: Env,
                          d: string, m: string, spec: MethodSpec, decoded: Value, res: Value, out: Value)
    requires IsWord(d) && IsWord(m) && ctx.path == RoutePath(Native, prefix, d, m)
    requires impl.lookup(d, m) == Success(spec) && spec.kind == "query" && Method(ctx) == "GET"
    requires spec.decodeRequest(DictValue(ctx.query)) == Success(decoded)
    requires impl.invoke(d, m, decoded) == Success(res) && spec.decodeResponse(res) == Success(out)
    ensures var r := NativeBefore(prefix, impl, ctx, env);
      && r == Stop([Stat(d, m, None)], r.ctx, Ok)
      && r.ctx.status == 200 && r.ctx.responseBody == out
      && r.ctx.state["params"] == decoded && r.ctx.state["methodDef"] == spec.def
  {
    ParsePathRoundTrip(Native, prefix, d, m);
    assert StartsWith(ctx.path, prefix) by {
      assert ctx.path[..|prefix|] == prefix;
    }
  }

  /** A throw from downstream of a verb-mismatched route is counted once and rethrown unchanged. */
  lemma DownstreamErrorsAreCounted(prefix: string, impl: ProtocolImpl, ctx: Context, env: Env, ctx2: Context, e: Error)
    requires NativeBefore(prefix, impl, ctx, env).Continue? && StartsWith(ctx.path, prefix)
    ensures var res := NativeBefore(prefix, impl, ctx, env).resume; var r := NativeAfter(res, ctx2, Throw(e));
      && res.InTry? && r.outcome == Throw(e) && r.events == [Stat(res.domain, res.methodName, Some(e.name))]
  {
  }

  /**
   * The Koa handler on a route served on the right verb: the body becomes
   * the decoded result when the call succeeds, and the call's error is
   * thrown otherwise; nothing else about the context changes.
   */
  lemma KoaCallOnRoute(prefix: string, impl: ProtocolImpl, ctx: Context, d: string, m: string, spec: MethodSpec)
    requires IsWord(d) && IsWord(m) && ctx.path == RoutePath(Koa, prefix, d, m)
    requires impl.lookup(d, m) == Success(spec) && Method(ctx) == ExpectedVerb(spec)
    ensures var call := Invocation(d, m, spec, impl, KoaParams(ctx)); var r := KoaBefore(prefix, impl, ctx);
      && (call.Success? ==> r == Stop([], ctx.(responseBody := call.value.1), Ok))
      && (call.Failure? ==> r == Stop([], ctx, Throw(call.error)))
  {
    ParsePathRoundTrip(Koa, prefix, d, m);
  }

  /**
   * The two handlers hand a query's parameters to the schema in different
   * shapes: for a key given once, the main handler passes a one-element
   * array and the Koa handler the bare string.
   */
  lemma QueryShapesDiffer(ctx: Context, env: Env, k: string, x: string)
    requires Method(ctx) == "GET" && k in ctx.query && ctx.query[k] == [x]
    ensures NativeParams(ctx, env).result.value.fields[k] == Arr([Str(x)])
    ensures KoaParams(ctx).fields[k] == Str(x)
  {
  }
}

=== FILE: server.dfy ===
/**
 * The main server's request path: a fresh context, the root handler run
 * with a terminal `next` that throws NotFound, the response sent, and a
 * last-resort JSON error response for anything that escapes.
 */
module Server {
  import opened Wrappers
  import opened Values
  import opened Dict
  import opened Context
  import opened Flow
  import opened Chain
  import Errors

  /** The terminal `next`: throws NotFoundError naming the method and path. */
  function NotFoundNext(ctx: Context): Final {
    Raise(Errors.Make(Errors.NotFoundError, Some(Method(ctx) + " " + ctx.path)))
  }

  /** The JSON text of the fallback body: `{name, message}` of the escaped error. */
  function FallbackBody(e: Error, codec: Codec): seq<byte> {
    codec.encodeUtf8(codec.stringify(Obj(map["name" := Str(e.name), "message" := Str(e.message)])))
  }

  /**
   * The `catch` of `handleRequest`: `writeHead` with status
   * `Number(error.status) || 500` and a JSON content type, then the body
   * `{name, message}`. `writeHead` itself throws for a status outside
   * 100..999, and then nothing is written.
   */
  function Fallback(e: Error, res: Wire, codec: Codec): (r: Result<Wire, Error>)
    ensures r.Success? <==> !res.headersSent && ValidStatus(StatusOr500(e.status))
    ensures !res.headersSent && !ValidStatus(StatusOr500(e.status)) ==> r == Failure(InvalidStatusError(StatusOr500(e.status)))
    ensures r.Success? ==>
      && r.value.headersSent && r.value.status == StatusOr500(e.status)
      && r.value.headers == res.headers["content-type" := Single("application/json")]
      && r.value.payload == Sent(FallbackBody(e, codec))
  {
    match WriteHead(res.(headers := res.headers["content-type" := Single("application/json")]), StatusOr500(e.status))
    case Success(w) => Success(w.(payload := Sent(FallbackBody(e, codec))))
    case Failure(err) => Failure(err)
  }

  /**
   * What one request leaves behind: the response on the wire, the
   * handlers' trace, and the error that escaped `handleRequest` when even
   * the fallback threw.
   */
  datatype Served = Served(wire: Wire, events: seq<Event>, escaped: Option<Error>)

  /** The `catch` on `res`: the fallback response, or the untouched response and the error the fallback threw. */
  function Rescue(e: Error, res: Wire, events: seq<Event>, codec: Codec): (r: Served)
    requires !res.headersSent
    ensures r.events == events
    ensures r.escaped.None? <==> ValidStatus(StatusOr500(e.status))
    ensures r.escaped.None? ==> r.wire == Fallback(e, res, codec).value
    ensures r.escaped.Some? ==> r.wire == res && r.escaped.value == InvalidStatusError(StatusOr500(e.status))
  {
    match Fallback(e, res, codec)
    case Success(w) => Served(w, events, None)
    case Failure(err) => Served(res, events, Some(err))
  }

  /**
   * `handleRequest`: context construction, the root handler with the
   * NotFound continuation, then `sendResponse`; any throw along the way is
   * answered by the fallback. A `sendResponse` that throws has already
   * staged its headers on the response, and the fallback's head joins them.
   */
  function HandleRequest(root: seq<Handler>, req: Request, latency: nat, env: Env): (r: Served)
    ensures r.escaped.None? <==> r.wire.headersSent
    ensures r.escaped.Some? ==> r.escaped.value.name == "RangeError"
    ensures NewContext(req, latency, env).Failure? ==>
      r == Rescue(NewContext(req, latency, env).error, FreshWire(), [], env.codec)
    ensures NewContext(req, latency, env).Success? ==>
      var ctx := NewContext(req, latency, env).value;
      var x := Run(root, ctx, NotFoundNext(ctx), env);
      && r.events == x.events
      && (x.outcome.Throw? ==> r == Rescue(x.outcome.error, FreshWire(), x.events, env.codec))
      && (x.outcome.Ok? && ValidStatus(x.ctx.status) ==>
            r == Served(SendResponse(x.ctx, FreshWire(), env).value, x.events, None))
      && (x.outcome.Ok? && !ValidStatus(x.ctx.status) ==>
            r == Rescue(InvalidStatusError(x.ctx.status), Staged(x.ctx, FreshWire(), env), x.events, env.codec))
  {
    match NewContext(req, latency, env)
    case Failure(e) => Rescue(e, FreshWire(), [], env.codec)
    case Success(ctx) =>
      var x := Run(root, ctx, NotFoundNext(ctx), env);
      match x.outcome
      case Throw(e) => Rescue(e, FreshWire(), x.events, env.codec)
      case Ok =>
        match SendResponse(x.ctx, FreshWire(), env)
        case Success(w) => Served(w, x.events, None)
        case Failure(e) => Rescue(e, Staged(x.ctx, FreshWire(), env), x.events, env.codec)
  }

  /** With no handler to stop it, a request reaches the terminal `next` and is answered 404 NotFoundError. */
  lemma EmptyChainAnswersNotFound(req: Request, latency: nat, env: Env)
    requires NewContext(req, latency, env).Success?
    ensures var ctx := NewContext(req, latency, env).value; var w := HandleRequest([], req, latency, env).wire;
      && w.status == 404
      && w.payload == Sent(env.codec.encodeUtf8(env.codec.stringify(
           Obj(map["name" := Str("NotFoundError"), "message" := Str(Method(ctx) + " " + ctx.path)]))))
  {
  }

  /**
   * The fallback takes `Number(error.status)` as it is: a status of 1000
   * makes its own `writeHead` throw, so the request goes unanswered and
   * the RangeError escapes; a missing or zero status becomes 500.
   */
  lemma OutOfRangeStatusLeavesRequestUnanswered(name: string, message: string, res: Wire, codec: Codec)
    requires !res.headersSent
    ensures var r := Rescue(Error(name, message, NumStatus(1000), Undefined), res, [], codec);
      && !r.wire.headersSent && r.escaped == Some(InvalidStatusError(1000))
    ensures Fallback(Error(name, message, NumStatus(0), Undefined), res, codec).value.status == 500
    ensures Fallback(Error(name, message, NoStatus, Undefined), res, codec).value.status == 500
  {
  }

  /**
   * A query key the plain object inherits (`?constructor=1`, say) makes the
   * context constructor throw, so no handler runs and the fallback answers
   * 500 with the TypeError.
   */
  lemma InheritedQueryKeyIsAnswered500(root: seq<Handler>, req: Request, latency: nat, env: Env, u: Url, i: nat)
    requires "host" in req.headers && env.codec.parseUrl(req.url.GetOr(""), HostBase(req)) == Some(u)
    requires i < |u.search| && u.search[i].0 in PrototypeNames
    ensures var r := HandleRequest(root, req, latency, env);
      && r.escaped.None? && r.events == []
      && r.wire.status == 500
      && r.wire.headers == map["content-type" := Single("application/json")]
      && r.wire.payload == Sent(FallbackBody(PushError(), env.codec))
  {
    assert u.search[i].0 in KeysOf(u.search);
  }

  /**
   * A status `sendResponse` cannot write is answered by the fallback with
   * 500, on top of the headers `sendResponse` staged: a staged
   * content-length of the handler's body stays on the JSON error response.
   */
  lemma InvalidHandlerStatusIsAnswered500(root: seq<Handler>, req: Request, latency: nat, env: Env)
    requires NewContext(req, latency, env).Success?
    requires var ctx := NewContext(req, latency, env).value;
      var x := Run(root, ctx, NotFoundNext(ctx), env);
      x.outcome.Ok? && !ValidStatus(x.ctx.status)
    ensures var ctx := NewContext(req, latency, env).value;
      var x := Run(root, ctx, NotFoundNext(ctx), env);
      var r := HandleRequest(root, req, latency, env);
      && r.escaped.None? && r.wire.status == 500
      && r.wire.payload == Sent(FallbackBody(InvalidStatusError(x.ctx.status), env.codec))
      && r.wire.headers == Staged(x.ctx, FreshWire(), env).headers["content-type" := Single("application/json")]
  {
  }

  /**
   * Under an absorbing root handler no handler error reaches the fallback:
   * the request is answered by `sendResponse`, or, when the handlers left
   * a status `writeHead` rejects, by the fallback's 500 for that RangeError.
   */
  lemma AbsorbingRootNeverFallsBack(h: Handler, tail: seq<Handler>, req: Request, latency: nat, env: Env)
    requires Absorbing(h) && NewContext(req, latency, env).Success?
    ensures var ctx := NewContext(req, latency, env).value;
      var x := Run([h] + tail, ctx, NotFoundNext(ctx), env);
      var r := HandleRequest([h] + tail, req, latency, env);
      && x.outcome == Ok && r.escaped.None?
      && (ValidStatus(x.ctx.status) ==> r.wire == SendResponse(x.ctx, FreshWire(), env).value)
      && (!ValidStatus(x.ctx.status) ==> r.wire.status == 500)
  {
    var ctx := NewContext(req, latency, env).value;
    AbsorbingHandlersNeverRethrow(h, tail, ctx, NotFoundNext(ctx), env);
    var x := Run([h] + tail, ctx, NotFoundNext(ctx), env);
    var r := HandleRequest([h] + tail, req, latency, env);
    if !ValidStatus(x.ctx.status) {
      assert r == Rescue(InvalidStatusError(x.ctx.status), Staged(x.ctx, FreshWire(), env), x.events, env.codec);
    }
  }

  /** A chain that completes with a status `writeHead` accepts is answered by `sendResponse` of its final context. */
  lemma AnsweredBySend(root: seq<Handler>, req: Request, latency: nat, env: Env)
    requires NewContext(req, latency, env).Success?
    requires var ctx := NewContext(req, latency, env).value;
      var x := Run(root, ctx, NotFoundNext(ctx), env);
      x.outcome.Ok? && ValidStatus(x.ctx.status)
    ensures var ctx := NewContext(req, latency, env).value;
      var x := Run(root, ctx, NotFoundNext(ctx), env);
      HandleRequest(root, req, latency, env) == Served(SendResponse(x.ctx, FreshWire(), env).value, x.events, None)
  {
  }

  /** A non-empty text body with no explicit headers goes out as its UTF-8 bytes with type text/plain. */
  lemma TextSent(ctx: Context, s: string, status: int, env: Env)
    requires ctx.responseHeaders == [] && ctx.request.verb != Some("HEAD") && s != ""
    requires status == 200 || status == 500
    ensures var r := SendResponse(ctx.(status := status, responseBody := Str(s)), FreshWire(), env);
      && r.Success? && r.value.status == status
      && r.value.payload == Sent(env.codec.encodeUtf8(s))
      && "content-type" in r.value.headers && r.value.headers["content-type"] == Single("text/plain")
  {
    var c := ctx.(status := status, responseBody := Str(s));
    assert !IsEmptyResponse(c);
    assert "content-type" !in FreshWire().headers + ExplicitHeaders(c.responseHeaders);
  }

  /** The first chain test end to end: 200, body 'OK' as UTF-8 text, and the onion-ordered trace. */
  lemma OrderTestResponse(req: Request, latency: nat, env: Env)
    requires NewContext(req, latency, env).Success? && req.verb != Some("HEAD")
    ensures var r := HandleRequest([Logging("foo start", "foo end"), Logging("bar start", "bar end"), Endpoint], req, latency, env);
      && r.wire.status == 200
      && r.wire.payload == Sent(env.codec.encodeUtf8("OK"))
      && "content-type" in r.wire.headers && r.wire.headers["content-type"] == Single("text/plain")
      && r.events == [Mark("foo start"), Mark("bar start"), Mark("endpoint start"),
                      Mark("endpoint end"), Mark("bar end"), Mark("foo end")]
  {
    var ctx := NewContext(req, latency, env).value;
    OrderScenario(ctx, NotFoundNext(ctx), env);
    AnsweredBySend([Logging("foo start", "foo end"), Logging("bar start", "bar end"), Endpoint], req, latency, env);
    TextSent(ctx, "OK", 200, env);
  }

  /** The second chain test end to end: 500, body 'Oops!', and the trace with 'caught'. */
  lemma CatchTestResponse(req: Request, latency: nat, env: Env)
    requires NewContext(req, latency, env).Success? && req.verb != Some("HEAD")
    ensures var r := HandleRequest([Logging("foo start", "foo end"), Catching, Throwing("Oops!")], req, latency, env);
      && r.wire.status == 500
      && r.wire.payload == Sent(env.codec.encodeUtf8("Oops!"))
      && r.events == [Mark("foo start"), Mark("catch start"), Mark("throw"), Mark("caught"), Mark("foo end")]
  {
    var ctx := NewContext(req, latency, env).value;
    CatchScenario(ctx, NotFoundNext(ctx), env);
    AnsweredBySend([Logging("foo start", "foo end"), Catching, Throwing("Oops!")], req, latency, env);
    TextSent(ctx, "Oops!", 500, env);
  }
}

=== FILE: text.dfy ===
/**
 * String helpers: ASCII case mapping, prefix and substring tests, decimal
 * rendering and joining. JavaScript strings are modelled as `seq<char>`.
 */
module Text {
  import opened Wrappers

  /** `String.prototype.toLowerCase`, restricted to the ASCII letters. */
  function LowerChar(c: char): char {
    if 'A' <= c <= 'Z' then (c as int + 32) as char else c
  }

  /** `String.prototype.toUpperCase`, restricted to the ASCII letters. */
  function UpperChar(c: char): char {
    if 'a' <= c <= 'z' then (c as int - 32) as char else c
  }

  function Lower(s: string): string
    decreases |s|
  {
    if |s| == 0 then "" else [LowerChar(s[0])] + Lower(s[1..])
  }

  /** A string without upper-case ASCII letters lower-cases to itself. */
  lemma {:induction false} LowerKeepsLowerCase(s: string)
    requires forall i :: 0 <= i < |s| ==> !('A' <= s[i] <= 'Z')
    ensures Lower(s) == s
    decreases |s|
  {
    if |s| > 0 {
      LowerKeepsLowerCase(s[1..]);
    }
  }

  function Upper(s: string): string
    decreases |s|
  {
    if |s| == 0 then "" else [UpperChar(s[0])] + Upper(s[1..])
  }

  /** `s.startsWith(p)`. */
  predicate StartsWith(s: string, p: string) {
    |p| <= |s| && s[..|p|] == p
  }

  /** `sub` occurs in `s` at position `i`. */
  ghost predicate OccursAt(s: string, sub: string, i: int) {
    0 <= i && i + |sub| <= |s| && s[i..i + |sub|] == sub
  }

  /** The first position at or after `i` where `sub` occurs in `s`. */
  function FindFrom(s: string, sub: string, i: nat): (r: Option<nat>)
    requires i <= |s|
    ensures r.Some? ==> i <= r.value && OccursAt(s, sub, r.value)
    ensures r.Some? ==> forall j :: i <= j < r.value ==> !OccursAt(s, sub, j)
    ensures r.None? ==> forall j :: i <= j ==> !OccursAt(s, sub, j)
    decreases |s| - i
  {
    if i + |sub| > |s| then None
    else if s[i..i + |sub|] == sub then Some(i)
    else FindFrom(s, sub, i + 1)
  }

  /** An unanchored regular-expression test for a literal pattern: `/sub/.test(s)`. */
  function Contains(s: string, sub: string): (b: bool)
    ensures b <==> exists i :: OccursAt(s, sub, i)
  {
    FindFrom(s, sub, 0).Some?
  }

  predicate IsAlnum(c: char) {
    'a' <= c <= 'z' || 'A' <= c <= 'Z' || '0' <= c <= '9'
  }

  /** A non-empty run of ASCII letters and digits: `[a-zA-Z0-9]+`. */
  predicate IsWord(s: string) {
    |s| > 0 && forall i :: 0 <= i < |s| ==> IsAlnum(s[i])
  }

  function DigitChar(d: nat): char
    requires d < 10
  {
    ('0' as int + d) as char
  }

  /** The decimal spelling of a natural number. */
  function NatToString(n: nat): string
    decreases n
  {
    if n < 10 then [DigitChar(n)] else NatToString(n / 10) + [DigitChar(n % 10)]
  }

  /** `String(n)` for an integer `n`. */
  function IntToString(n: int): string {
    if n < 0 then "-" + NatToString(-n) else NatToString(n)
  }

  /** `ss.join(sep)` on an array of strings. */
  function JoinStrings(ss: seq<string>, sep: string): string
    decreases |ss|
  {
    if |ss| == 0 then ""
    else if |ss| == 1 then ss[0]
    else ss[0] + sep + JoinStrings(ss[1..], sep)
  }
}

=== FILE: values.dfy ===
/**
 * The JavaScript values the request core moves around: request and response
 * bodies, state-bag entries and thrown errors. Library conversions the core
 * only calls (UTF-8, JSON, URL and querystring parsing) are gathered in a
 * `Codec` that every operation needing them receives as a parameter.
 */
module Values {
  import opened Wrappers
  import opened Text

  newtype byte = x: int | 0 <= x < 256

  /**
   * The `status` property of a thrown value: absent, a number, or a value of
   * another type together with the integer `Number()` converts it to (None
   * when that conversion gives NaN or a fraction).
   */
  datatype StatusValue = NoStatus | NumStatus(n: int) | OtherStatus(asNumber: Option<int>)

  /** A thrown error object: `name`, `message`, `status` and `details`. */
  datatype Error = Error(name: string, message: string, status: StatusValue, details: Value)

  /** A JavaScript value as far as the request core distinguishes them. */
  datatype Value =
    | Undefined
    | Null
    | Bool(b: bool)
    | Num(n: int)
    | Str(s: string)
    | Bytes(bytes: seq<byte>)
    | Arr(items: seq<Value>)
    | Obj(fields: map<string, Value>)
    | Err(error: Error)
    | Stream(id: nat)

  /** JavaScript truthiness (NaN is not modelled). */
  predicate Truthy(v: Value) {
    match v
    case Undefined => false
    case Null => false
    case Bool(b) => b
    case Num(n) => n != 0
    case Str(s) => s != ""
    case _ => true
  }

  /** `v == null`: undefined or null. */
  predicate Nullish(v: Value) {
    v.Undefined? || v.Null?
  }

  /** `a ?? b`. */
  function Coalesce(a: Value, b: Value): (r: Value)
    ensures !Nullish(a) ==> r == a
    ensures Nullish(a) ==> r == b
  {
    if Nullish(a) then b else a
  }

  /** `Number(status)`, None standing for NaN. */
  function StatusNumber(st: StatusValue): Option<int> {
    match st
    case NoStatus => None
    case NumStatus(n) => Some(n)
    case OtherStatus(m) => m
  }

  /** `Number(error.status) || 500`: NaN and 0 are falsy and give 500. */
  function StatusOr500(st: StatusValue): (r: int)
    ensures r != 0
    ensures StatusNumber(st).Some? && StatusNumber(st).value != 0 ==> r == StatusNumber(st).value
    ensures StatusNumber(st).None? ==> r == 500
    ensures StatusNumber(st) == Some(0) ==> r == 500
  {
    var n := StatusNumber(st);
    if n.Some? && n.value != 0 then n.value else 500
  }

  /** A plain `Error` with no status, as the JavaScript runtime throws it. */
  function PlainError(name: string, message: string): Error {
    Error(name, message, NoStatus, Undefined)
  }

  /** The URL pieces the request core reads: the path and the query pairs in order. */
  datatype Url = Url(pathname: string, search: seq<(string, string)>)

  /** Library conversions, taken as given. */
  datatype Codec = Codec(
    encodeUtf8: string -> seq<byte>,
    decodeUtf8: seq<byte> -> string,
    parseJson: string -> Result<Value, Error>,
    stringify: Value -> string,
    parseSearch: string -> seq<(string, string)>,
    parseUrl: (string, string) -> Option<Url>)

  /** `Error.prototype.toString`. */
  function ErrorToString(e: Error): string {
    if e.name == "" then e.message
    else if e.message == "" then e.name
    else e.name + ": " + e.message
  }

  /** `String(v)`; arrays join their elements with ',' and show null and undefined as ''. */
  function ToJsString(v: Value, decode: seq<byte> -> string): string
    decreases v, 0
  {
    match v
    case Undefined => "undefined"
    case Null => "null"
    case Bool(b) => if b then "true" else "false"
    case Num(n) => IntToString(n)
    case Str(s) => s
    case Bytes(bs) => decode(bs)
    case Arr(xs) => JoinStrings(seq(|xs|, i requires 0 <= i < |xs| => ElementString(xs[i], decode)), ",")
    case Obj(_) => "[object Object]"
    case Err(e) => ErrorToString(e)
    case Stream(_) => "[object Object]"
  }

  /** How `Array.prototype.join` shows one element. */
  function ElementString(v: Value, decode: seq<byte> -> string): string
    decreases v, 1
  {
    if Nullish(v) then "" else ToJsString(v, decode)
  }

  /**
   * `v.join(sep)`: defined on arrays and on byte buffers (typed arrays have
   * `join`); on anything else the call throws a TypeError.
   */
  function JoinValue(v: Value, sep: string, decode: seq<byte> -> string): (r: Result<string, Error>)
    ensures r.Failure? <==> !(v.Arr? || v.Bytes?)
  {
    match v
    case Arr(xs) => Success(JoinStrings(seq(|xs|, i requires 0 <= i < |xs| => ElementString(xs[i], decode)), sep))
    case Bytes(bs) => Success(JoinStrings(seq(|bs|, i requires 0 <= i < |bs| => NatToString(bs[i] as nat)), sep))
    case _ => Failure(PlainError("TypeError", "join is not a function"))
  }

  /** Joining an array of strings is joining the strings themselves. */
  lemma JoinStringArray(ss: seq<string>, sep: string, decode: seq<byte> -> string)
    ensures JoinValue(StrArr(ss), sep, decode) == Success(JoinStrings(ss, sep))
  {
    var xs := StrArr(ss).items;
    var shown := seq(|xs|, i requires 0 <= i < |xs| => ElementString(xs[i], decode));
    assert shown == ss by {
      forall i | 0 <= i < |ss| ensures shown[i] == ss[i] {
        assert xs[i] == Str(ss[i]);
        assert !Nullish(xs[i]);
        assert ToJsString(xs[i], decode) == ss[i];
      }
    }
  }

  /** An array of strings as a JavaScript value. */
  function StrArr(ss: seq<string>): (v: Value)
    ensures v.Arr? && |v.items| == |ss|
    ensures forall i :: 0 <= i < |ss| ==> v.items[i] == Str(ss[i])
  {
    Arr(seq(|ss|, i requires 0 <= i < |ss| => Str(ss[i])))
  }

  /** A multi-valued dictionary as a JavaScript object of string arrays. */
  function DictValue(d: map<string, seq<string>>): (v: Value)
    ensures v.Obj? && v.fields.Keys == d.Keys
    ensures forall k :: k in d ==> v.fields[k] == StrArr(d[k])
  {
    Obj(map k | k in d :: StrArr(d[k]))
  }
}

=== FILE: wrappers.dfy ===
/** Option and Result, the two failure-carrying shapes every other module uses. */
module Wrappers {

  datatype Option<+T> = None | Some(value: T) {

    /** The carried value, or `default` when there is none. */
    function GetOr(default: T): T {
      match this
      case Some(v) => v
      case None => default
    }
  }

  /** A computation that either produced a value or threw. */
  datatype Result<+R, +E> = Success(value: R) | Failure(error: E)
}
